=== FILE: README.md ===
# Project tracker: server transitions and client logic in Dafny

This project models a small project-management web application. Users register and log in. A project manager invites people. Projects carry milestones, tasks carry comments and attachments, and every user gets notifications. Task and comment changes are pushed to browsers over a realtime socket.

The model has two halves.

- **The server** (`backend/server.js`) is a state machine over an abstract store.
  - The store holds tables for users, invitations, projects, members, milestones, tasks, comments, attachments and notifications. Each table is a sequence of rows in insertion order.
  - The store also keeps a log of broadcast realtime events and the set of joined rooms.
  - Each REST handler is a pure function from a store and a request to a new store and a response, made of a status and a body (module `Api`).
  - The socket handshake and disconnect are modelled the same way.
  - Password hashing, token signing and verification, id minting and the clock are parameters. `Crypto` holds uninterpreted function values, and `Env` holds the request's time and its k-th minted id.
  - `ApiProps` proves that every handler preserves the store invariant `Valid`. `Valid` means unique keys, unique emails, and milestones and tasks that point at existing projects.
  - `ApiProps` also proves the cross-handler properties: register-then-login, milestone replacement, archive-then-list, the event log, and the handshake with a session token.
- **The client** (`vitereact/src/...`) is a set of reducers and pure functions:
  - the global store's reducers and its socket lifecycle (`ClientStore`);
  - breadcrumbs, route resolution, notification destinations and the navigation bar (`Routes`);
  - the form validators and list editors of the project, task, registration, invitation and profile forms (`FormKeys`, `ProjectForms`, `TaskForms`, `AccountForms`);
  - the view reducers of the task page, the project board and the onboarding stepper (`Views`).

  Where a client view talks to the server, the model connects the two. For example, a valid edit-project form sent for an existing project id replaces the stored milestones with exactly its list (`ProjectForms.EditReplacesMilestones`). App.tsx mounts the edit modals outside its routes, so as the app is wired they receive no id: that edit answers 500 (`ProjectForms.MountedEditFails`). A comment the server broadcasts lands on the page showing its task (`Views.PageFollowsNewComment`).

The remaining modules are support:

- `Wrappers`: Option;
- `Text`: trim, split/join, `lastIndexOf`, decimal rendering, and JavaScript's string `<`;
- `Ordering`: a stable insertion sort by a string key, standing in for `ORDER BY`;
- `Tables`: `WHERE`, `UPDATE ... WHERE`, first match and key uniqueness;
- `Schema`: the rows, requests, responses and the store.

Where the source's behaviour looks unintended, the model follows the code as written and a lemma exhibits the behaviour:

- `Api.Register`: a duplicate email answers 500 "Registration failed", not a dedicated conflict status. The model follows the code.
- `Api.UpdateProject`: the project update runs its milestone delete and inserts outside a transaction. An update of a project id that does not exist still deletes that id's milestones when a list is given, then answers 500. No new milestone is stored: the model assumes that the milestones' foreign key refuses a row naming a missing project, and any list leaves the handler reading `milestones` of an undefined row.
- `Views.OwnCommentListedTwice`: the author of a comment sees it twice. It is appended once from the POST's answer and once more from the broadcast `comment_event`.
- `Views.FinishRequestRefused`: the onboarding "finish" PUT is sent without an Authorization header, so the server always refuses it with 401 "Missing token".
- `ClientStore.TokenChangeKeepsSocket`: switching from one non-empty token to another keeps the socket opened with the old token.
- `TaskForms.EditDoesNotTrim`: the edit-task form accepts a name of spaces, which the create-task form rejects.

## Model

| member | source | states |
|---|---|---|
| Api.Authenticate | backend/server.js:67-77 | a missing header or one with no second space-separated word is 401 "Missing token"; a token the verifier rejects is 403; otherwise the caller is exactly the verified claims |
| Api.BearerTokenOfHeader | backend/server.js:68-71 | for any scheme word, "scheme token" yields the token; the scheme is never checked |
| Api.BearerTokenIgnoresRest | backend/server.js:70 | words after the token are ignored |
| Api.BearerTokenMissing | backend/server.js:70-71 | a header of one word, or with an empty second field, carries no token |
| Api.Register | backend/server.js:88-112 | succeeds iff a password is given and neither the new id nor the email is taken; then exactly one user row is appended with the minted id, the request's names, email and role, the hashed password, empty settings, an empty-string picture stored as null and both timestamps now, and the answer is a token for that user with the public user; any failure leaves the store unchanged with 500 "Registration failed" |
| Api.Login | backend/server.js:120-142 | an unknown email is 401 "Invalid credentials", the same answer as a wrong password; success iff the first user with the email has a matching hash, answered with that user's token and public view |
| Api.GetUser | backend/server.js:149-162 | an authenticated request answers 404 exactly when no user has the id, and otherwise 200 with the public view of the first user with the id |
| Api.UpdateUser | backend/server.js:169-191 | every row with the id takes each supplied name, picture and settings field and keeps each absent one, with the update time now; email, role, password hash and creation time never change; other rows stay; a known id answers 200 with the public view of the updated row, an unknown id 200 with no body and no change |
| ApiProps.UpdateUserThenGetUser | backend/server.js:149-191 | after a profile update of a known id, reading that profile answers exactly what the update answered |
| Api.SendInvitation | backend/server.js:198-221 | a caller whose role is not "project_manager" gets 403 and no change; otherwise one "pending" invitation is appended whose inviter is the caller |
| Api.InsertMilestones | backend/server.js:245-259 | the inserts append rows in list order, each pointing at the project with the i-th minted id, and stop at the first key clash |
| Api.InsertMilestonesFresh | backend/server.js:248-249 | with fresh ids every milestone of the list is inserted |
| Api.ReplaceMilestones | backend/server.js:325-340 | other projects' milestones are untouched, and the project's milestones become exactly the newly inserted rows |
| Api.CreateProject | backend/server.js:229-266 | a fresh id appends one project row with every column stated (title, description or null, dates, creator, not archived, both timestamps now); milestone i of the request becomes the row with the (i+1)-th minted id under the new project, in order; the answer is 200 exactly when the id is fresh and every milestone was stored; otherwise 500 "Failed to create project", keeping the project and the milestones stored before the failure |
| ApiProps.CreateProjectInsertsAll | backend/server.js:229-266 | with a fresh project id and fresh milestone ids, creation answers 200 with exactly the requested milestones, in order, under the new project |
| Api.WithMilestones | backend/server.js:288-292 | each listed project carries exactly its own milestones |
| Api.ListProjects | backend/server.js:275-298 | the listing is a permutation of the projects whose archived flag equals the query (default 0) and that the caller created or is a member of, newest first, each with its milestones |
| Api.UpdateProject | backend/server.js:306-351 | every row with the id takes each supplied field and keeps each absent one, with the update time now; id, archived flag, creator and creation time never change; other rows stay; for an existing project the answer is 200 with the patched row and the project's milestones, unless a supplied list was not stored in full, which answers 500; a supplied list leaves the project with a prefix of its rows, in order with the minted ids; without a list the milestones stay; other projects' milestones never change; a missing project answers 500 |
| Api.PatchedProjects | backend/server.js:311-321 | the UPDATE with one COALESCE per field: rows with the id take each supplied field and keep each absent one, other rows stay |
| Api.MilestonesAfterUpdate | backend/server.js:324-344 | a supplied list replaces the project's milestones by a prefix of the list's rows, the full list exactly when the inserts all succeed; without one the stored milestones are read back unchanged |
| Api.ArchiveProject | backend/server.js:357-373 | the only change is the archived flag and time of rows with the id; tasks and milestones stay |
| Api.CreateTask | backend/server.js:381-402 | succeeds iff the project exists and the id is fresh; then appends the task row, whose description is the given one or null, whose due date and priority are the request's and whose timestamps are both now, and exactly one task_update_event carrying it |
| Api.ListTasks | backend/server.js:408-418 | answers exactly the project's tasks, as a permutation of them, oldest first |
| Api.UpdateTask | backend/server.js:425-452 | every row with the id takes each supplied field and keeps each absent one, description and parent task included, with the update time now; the project and creation time never change; other rows stay; exactly one event is logged, carrying the first updated row, which is also the answer, or null with an empty answer when no task has the id |
| Api.PatchedTasks | backend/server.js:428-443 | the UPDATE with one COALESCE per field: rows with the id take each supplied field and keep each absent one, with the update time now; other rows stay |
| ApiProps.UpdateTaskTwice | backend/server.js:425-452 | repeating an update with the same fields at the same time changes no task row further |
| ApiProps.PatchedTasksTwice | backend/server.js:428-443 | applying the same task UPDATE twice at the same time gives the rows of applying it once |
| Api.DeleteTask | backend/server.js:459-468 | removes exactly the rows with the id and answers success even for an unknown id |
| Api.CreateComment | backend/server.js:476-496 | appends the comment, authored by the caller, and exactly one comment_event carrying it |
| Api.StripTrailing | backend/server.js:513 | removes exactly the trailing run of the character |
| Api.FileType | backend/server.js:513 | the attachment type never contains a dot or a slash |
| Api.FileTypeOfName | backend/server.js:513 | the type of "stem.ext" is the extension after the last dot |
| Api.FileTypeWithoutDot | backend/server.js:513 | a name without a dot, or with only a leading one, has an empty type |
| Api.UploadAttachment | backend/server.js:504-528 | no file is 400 "No file uploaded"; an authorized upload with a file succeeds exactly when the minted id is fresh, else 500 "Failed to upload attachment" with no change; success appends one attachment with the minted id, the caller, the task, the file's original name, its extension as type, a URL under /storage/ and the upload time now |
| Api.ListNotifications | backend/server.js:534-544 | answers a permutation of exactly the caller's notifications, newest first |
| Api.MarkNotification | backend/server.js:550-567 | sets the read status (1 when none is given) of exactly the rows with the id and changes nothing else; an authorized caller gets 200 with the first such row as stored, or an empty body when no row has the id |
| Api.HandshakeToken | backend/server.js:585 | the auth payload's token wins when truthy; otherwise the query-string token is used |
| Api.Connect | backend/server.js:584-598 | a missing token or one the verifier rejects refuses the connection and joins no room; otherwise the only application room the socket joins is the one named by the verified user id |
| Api.Disconnect | backend/server.js:601-607 | the socket leaves every room and no other membership changes |
| ApiProps.ConnectThenDisconnect | backend/server.js:584-607 | a socket that joined no room before leaves the rooms as they were after it connects and disconnects |
| Api.Handle | backend/server.js:88-567 | the read-only routes (login, user, project and task listings, notifications) leave the store unchanged |
| ApiProps.InsertMilestonesUnique | backend/server.js:248-258 | milestone inserts keep milestone ids unique |
| ApiProps.CreateProjectValid | backend/server.js:229-266 | project creation preserves the store invariant |
| ApiProps.UpdateProjectValid | backend/server.js:306-351 | project update preserves the store invariant |
| ApiProps.DeleteTaskValid | backend/server.js:459-468 | task deletion preserves the store invariant |
| ApiProps.UpdateUserValid | backend/server.js:169-191 | user update preserves the store invariant |
| ApiProps.UpdateTaskValid | backend/server.js:425-452 | task update preserves the store invariant |
| ApiProps.ArchiveProjectValid | backend/server.js:357-373 | archiving preserves the store invariant |
| ApiProps.MarkNotificationValid | backend/server.js:550-567 | marking a notification preserves the store invariant |
| ApiProps.RegisterValid | backend/server.js:88-112 | registration preserves the invariant, including email uniqueness |
| ApiProps.SendInvitationValid | backend/server.js:198-221 | invitations preserve the store invariant |
| ApiProps.CreateTaskValid | backend/server.js:381-402 | task creation preserves the invariant, including tasks pointing at an existing project |
| ApiProps.CreateCommentValid | backend/server.js:476-496 | comment creation preserves the store invariant |
| ApiProps.UploadAttachmentValid | backend/server.js:504-528 | uploads preserve the store invariant |
| ApiProps.HandlePreservesValid | backend/server.js:88-567 | every request preserves the store invariant |
| ApiProps.UserRequestsValid | backend/server.js:88-221 | registration, user update and invitation requests preserve the invariant |
| ApiProps.ProjectRequestsValid | backend/server.js:229-373 | project create, update and archive requests preserve the invariant |
| ApiProps.OtherRequestsValid | backend/server.js:381-567 | task, comment, attachment and notification requests, and reads, preserve the invariant |
| ApiProps.HandleEvents | backend/server.js:381-496 | the event log only grows, by exactly one event for each successful task create, task update and comment create, and by none otherwise |
| ApiProps.SessionTokenAuthenticates | backend/server.js:67-77 | a session token sent as a bearer header authenticates as exactly {id, email, role} of its user |
| ApiProps.RegisterThenLogin | backend/server.js:88-142 | logging in with the email and password just registered answers exactly what the registration answered |
| ApiProps.ConnectWithSessionToken | backend/server.js:584-598 | a session token in the handshake joins its user's room; no token joins nothing |
| ApiProps.UpdateProjectReplacesMilestones | backend/server.js:324-340 | with fresh ids the project's milestones become exactly the rows of the new list, so an empty list empties them |
| ApiProps.ArchiveHidesProject | backend/server.js:357-367 | after archiving, the project is absent from the default listing, appears in the archived listing for its creator, and no task or milestone changes |
| Schema.Public | backend/server.js:135-137 | the public view of a user keeps its id, email and role; the type has no password field |
| Schema.OrNull | backend/server.js:102 | `x \|\| null` keeps a non-empty string and turns an empty or missing one into null |
| ClientStore.InitialState | vitereact/src/store/main.tsx:50-61 | no token, no user, unauthenticated, no notifications, count 0, active item "dashboard", no socket |
| ClientStore.UnreadFilterCount | vitereact/src/store/main.tsx:79-81 | filtering for read_status 0 counts the unread entries |
| ClientStore.MarkFirstRead | vitereact/src/store/main.tsx:89-93 | only the first notification with the id becomes read; an unknown id changes nothing |
| ClientStore.Reduce | vitereact/src/store/main.tsx:67-113 | after setting, adding or marking notifications, the unread count equals the number of unread entries; adding appends at the end and keeps earlier entries |
| ClientStore.ReduceFrame | vitereact/src/store/main.tsx:68-112 | every action changes no field outside the fields it writes |
| ClientStore.Subscribe | vitereact/src/store/main.tsx:163-200 | after the listener a socket is held exactly while a token is; the token and notifications are untouched; a consistent state is left alone |
| ClientStore.SubscribeIdempotent | vitereact/src/store/main.tsx:163-200 | the listener's own nested dispatches do nothing more |
| ClientStore.Dispatch | vitereact/src/store/main.tsx:163-200 | every dispatch leaves a socket held exactly while a token is, and performs at most one socket effect |
| ClientStore.LoginOpensOneSocket | vitereact/src/store/main.tsx:168-175 | a token with no socket opens exactly one socket authenticated with that token |
| ClientStore.TokenChangeKeepsSocket | vitereact/src/store/main.tsx:168 | a new non-empty token while a socket exists opens none and keeps the old socket |
| ClientStore.LogoutClosesSocket | vitereact/src/store/main.tsx:194-198 | clearing the token disconnects the socket, clears it and the connected flag |
| ClientStore.OnSocketEvent | vitereact/src/store/main.tsx:176-190 | socket events keep the socket invariant and only add effects |
| ClientStore.SocketEventEffects | vitereact/src/store/main.tsx:176-190 | connect and disconnect set the connected flag; a notification is appended and the count recomputed; task and comment events leave the store alone |
| Routes.Breadcrumbs | vitereact/src/components/views/GV_Breadcrumbs.tsx:13-45 | paths with neither prefix give no trail; a non-empty trail starts with Dashboard, has two or three crumbs and ends at the pathname on project paths; "/profile" paths give Dashboard then Profile |
| Routes.ProjectPageCrumbs | vitereact/src/components/views/GV_Breadcrumbs.tsx:20-27 | a project path, with or without a trailing slash, gives Dashboard then "Project p" linking to the path |
| Routes.TaskPageCrumbs | vitereact/src/components/views/GV_Breadcrumbs.tsx:29-35 | a task path gives Dashboard, the project crumb linking to the project page, and the task crumb linking to the path |
| Routes.GanttPageCrumbs | vitereact/src/components/views/GV_Breadcrumbs.tsx:37-42 | any other project path gives Dashboard then a crumb named and linked by the path |
| Routes.ShownTrailIsNonEmpty | vitereact/src/App.tsx:37-39 | wherever the bar is shown there is a trail; a trail is hidden exactly on project paths ending in "/gantt" |
| Routes.Resolve | vitereact/src/App.tsx:53-68 | the root redirects to the dashboard or the login page by authentication; every redirect goes to "/", "/dashboard" or "/login" |
| Routes.RootRedirect | vitereact/src/App.tsx:55-58 | "/" redirects to "/dashboard" when authenticated, to "/login" otherwise |
| Routes.TopPages | vitereact/src/App.tsx:59-61 | "/dashboard" and "/login" render their pages |
| Routes.RedirectsSettle | vitereact/src/App.tsx:55-67 | following redirects reaches a page after at most two redirects, never passing through "/" twice |
| Routes.LinksResolve | vitereact/src/App.tsx:62-65 | the project, task and gantt links the views build render the page for those ids |
| Routes.MountedModals | vitereact/src/App.tsx:75-84 | no modal is mounted without authentication |
| Routes.EveryModalMounted | vitereact/src/App.tsx:75-84 | every modal is mounted when authenticated |
| Routes.NotificationDestinations | vitereact/src/components/views/GV_NotificationDropdown.tsx:105-110 | the dropdown's link is "#" exactly when the bar does not navigate, else the same target; both ids lead to the task page, only a project id to the project page |
| Routes.IconFor | vitereact/src/components/views/GV_NotificationDropdown.tsx:120-126 | the bell is shown exactly for types other than the three known ones |
| Routes.BoldMatchesBadge | vitereact/src/components/views/GV_NotificationDropdown.tsx:129 | the bold entries are the unread ones, and after a notification reducer they are as many as the badge's count |
| Routes.ToggleDropdown | vitereact/src/components/views/GV_NotificationDropdown.tsx:57-59 | the dropdown's visibility flips |
| Routes.ClickNotification | vitereact/src/components/views/GV_NotificationDropdown.tsx:64-76 | the dropdown closes either way; a failed PUT leaves the store unchanged; a successful one marks the first entry with the id read, recounts the unread entries, and changes nothing else |
| Routes.NavClick | vitereact/src/components/views/GV_TopNav.tsx:31-42 | the active item is always recorded; exactly "dashboard", "projects" and "tasks" navigate, to "/dashboard", "/dashboard?view=projects" and "/dashboard?view=tasks" |
| Routes.LogoIsDashboardLink | vitereact/src/components/views/GV_TopNav.tsx:25-28 | the logo sets "dashboard" active and goes to "/dashboard" |
| Routes.BarNotificationClick | vitereact/src/components/views/GV_TopNav.tsx:61-74 | the list closes; the bar navigates exactly when the notification names a project; with a task id too the signed-in router shows that task's page, otherwise the project's page |
| Routes.BadgeMeansUnread | vitereact/src/components/views/GV_TopNav.tsx:139-143 | after a notification reducer the badge shows exactly while some entry is unread |
| Routes.AvatarFor | vitereact/src/components/views/GV_TopNav.tsx:169-178 | the picture when there is one, else the upper-cased first letter of the first name, else "P" without a user |
| Routes.SearchInput | vitereact/src/components/views/GV_TopNav.tsx:45-48 | the box and the store hold the same query and nothing else changes |
| Routes.ProjectDetailTrail | vitereact/src/components/views/UV_ProjectDetail.tsx:46-51 | two crumbs: Dashboard, then the title (or "Project Detail") linking to the project page |
| Routes.ProjectTrailsAgree | vitereact/src/components/views/UV_ProjectDetail.tsx:46-51 | the page's trail has the shape and last link of the trail computed from its path |
| Text.Trim | vitereact/src/components/views/UV_CreateProjectModal.tsx:66 | trimming is empty exactly for all-space text and leaves no space at either end |
| Text.TrimIsSlice | vitereact/src/components/views/UV_CreateProjectModal.tsx:66 | trimming keeps a slice of the text and drops only white space on either side |
| Text.Split | vitereact/src/components/views/GV_Breadcrumbs.tsx:20 | the pieces hold no separator and join back to the text |
| Text.SplitJoin | vitereact/src/components/views/GV_Breadcrumbs.tsx:20 | splitting a join of separator-free pieces gives the pieces back |
| Text.NatToStringInjective | vitereact/src/components/views/UV_CreateProjectModal.tsx:85-88 | distinct indices render as distinct decimal strings |
| Text.LastIndexOfAfter | backend/server.js:513 | the last occurrence is found after any earlier ones |
| Ordering.SortBySpec | backend/server.js:283 | the sort is a permutation and ordered by the key |
| FormKeys.KeyName | vitereact/src/components/views/UV_CreateProjectModal.tsx:65-90 | every error key has a non-empty name; exactly the per-milestone names start with "m" |
| FormKeys.KeyNameInjective | vitereact/src/components/views/UV_CreateProjectModal.tsx:85-88 | distinct error keys have distinct property names |
| FormKeys.RemoveAt | vitereact/src/components/views/UV_CreateProjectModal.tsx:56-61 | filtering out index i removes exactly that element, and an index out of range removes nothing |
| FormKeys.SpliceIsRemoveAt | vitereact/src/components/views/UV_EditTaskModal.tsx:100-104 | splicing one element out agrees with filtering its index out |
| ProjectForms.AddMilestone | vitereact/src/components/views/UV_CreateProjectModal.tsx:45-53 | appends one empty milestone, keeping the others |
| ProjectForms.RemoveMilestone | vitereact/src/components/views/UV_CreateProjectModal.tsx:56-61 | removes exactly the milestone at the index |
| ProjectForms.AddThenRemove | vitereact/src/components/views/UV_CreateProjectModal.tsx:45-61 | removing a just-added milestone restores the form |
| ProjectForms.RemoveMilestoneKeepsOthers | vitereact/src/components/views/UV_CreateProjectModal.tsx:56-61 | removal keeps the other milestones in order |
| ProjectForms.ChangeMilestone | vitereact/src/components/views/UV_CreateProjectModal.tsx:34-42 | changes only the named field of milestone i |
| ProjectForms.CreateHeaderErrors | vitereact/src/components/views/UV_CreateProjectModal.tsx:66-81 | a key is reported exactly when its violation holds: blank title, missing dates, start after end |
| ProjectForms.CreateErrors | vitereact/src/components/views/UV_CreateProjectModal.tsx:64-93 | a key is present exactly when its violation holds, with that key's message |
| ProjectForms.CreateErrorsEmptyIffValid | vitereact/src/components/views/UV_CreateProjectModal.tsx:64-92 | no errors exactly for a valid form |
| ProjectForms.SameDayAccepted | vitereact/src/components/views/UV_CreateProjectModal.tsx:75-81 | equal start and end dates are not out of order |
| ProjectForms.SubmitCreate | vitereact/src/components/views/UV_CreateProjectModal.tsx:96-113 | a form is posted iff it is valid, and then unchanged |
| ProjectForms.EditHeaderErrors | vitereact/src/components/views/UV_EditProjectModal.tsx:84-97 | the edit form's header keys are reported exactly when their violations hold |
| ProjectForms.EditErrors | vitereact/src/components/views/UV_EditProjectModal.tsx:81-103 | a key is present exactly when its edit-form violation holds |
| ProjectForms.EditKeysDiffer | vitereact/src/components/views/UV_EditProjectModal.tsx:93-103 | the edit form never uses the create form's date-order or per-milestone keys |
| ProjectForms.EditMilestoneKey | vitereact/src/components/views/UV_EditProjectModal.tsx:99-103 | milestone i is flagged exactly when its title is blank; due dates are not checked |
| ProjectForms.SubmitEdit | vitereact/src/components/views/UV_EditProjectModal.tsx:105-122 | the PUT is sent iff there are no errors, carrying the form's title, description, both dates and full milestone list |
| ProjectForms.AsPatch | vitereact/src/components/views/UV_EditProjectModal.tsx:116-122 | the update always carries a milestone list |
| ProjectForms.EditReplacesMilestones | vitereact/src/components/views/UV_EditProjectModal.tsx:113-122 | given an existing project id, a sent edit leaves the stored milestones equal to the form's list |
| ProjectForms.Prefill | vitereact/src/components/views/UV_EditProjectModal.tsx:57-67 | no prefill exactly when no listed project has the id; otherwise the form copies the first such project and its milestones |
| ProjectForms.OpenPrefill | vitereact/src/components/views/UV_EditProjectModal.tsx:49-68 | the form changes only when open, with an id, an empty title, and the project found |
| ProjectForms.MountedModalNeverPrefills | vitereact/src/App.tsx:75-84 | with no route id, as App.tsx mounts the modal, the form is never prefilled |
| ProjectForms.MountedEditFails | vitereact/src/components/views/UV_EditProjectModal.tsx:113-115 | the PUT to `/api/projects/undefined` answers 500 and changes no project |
| ProjectForms.ArchivedNeverPrefills | vitereact/src/components/views/UV_EditProjectModal.tsx:52-60 | an archived project is never found in the default listing, so it never prefills |
| TaskForms.AssigneeOptions | vitereact/src/components/views/UV_CreateTaskModal.tsx:38-45 | "Unassigned" first, then the current user only when there is one |
| TaskForms.SubmitTask | vitereact/src/components/views/UV_CreateTaskModal.tsx:54-71 | a blank name is reported before a missing project id; a request goes out iff neither holds |
| TaskForms.AfterPost | vitereact/src/components/views/UV_CreateTaskModal.tsx:55-107 | success resets the form, clears the errors and closes; a refusal shows the server's error or the default; a network failure shows the generic error |
| TaskForms.CreatedFormIsInitial | vitereact/src/components/views/UV_CreateTaskModal.tsx:93-100 | the reset form equals the initial one |
| TaskForms.ValidateEdit | vitereact/src/components/views/UV_EditTaskModal.tsx:107-128 | each of name, due date, assignee and priority is reported exactly when empty; valid iff none is |
| TaskForms.EditDoesNotTrim | vitereact/src/components/views/UV_EditTaskModal.tsx:110-113 | a name of spaces passes the edit form but not the create form |
| TaskForms.ChangeField | vitereact/src/components/views/UV_EditTaskModal.tsx:77-84 | changing a field sets it and clears only its own error |
| TaskForms.ChangeKeepsOtherErrors | vitereact/src/components/views/UV_EditTaskModal.tsx:77-84 | other fields' validation results do not change |
| TaskForms.Prefix16 | vitereact/src/components/views/UV_EditTaskModal.tsx:50 | the first sixteen characters, or all of a shorter string |
| TaskForms.PrefillTask | vitereact/src/components/views/UV_EditTaskModal.tsx:49-60 | the form copies the task with the due date cut to 16 characters and defaults "", "Medium", "not_started", no subtasks |
| TaskForms.LoadEditForm | vitereact/src/components/views/UV_EditTaskModal.tsx:46-64 | given a task id, "Task not found" exactly when no task has the id; otherwise the first task with the id prefills |
| TaskForms.OpenEditTask | vitereact/src/components/views/UV_EditTaskModal.tsx:36-73 | the fetch runs iff a token, a project id and a task id are all present, and then loads as LoadEditForm says |
| TaskForms.MountedEditTaskStaysLoading | vitereact/src/App.tsx:75-84 | with no route ids, as App.tsx mounts the modal, no task is ever loaded |
| TaskForms.PrefilledPriorityValid | vitereact/src/components/views/UV_EditTaskModal.tsx:57 | a prefilled stored task with a name, due date and assignee validates |
| TaskForms.AddSubtask | vitereact/src/components/views/UV_EditTaskModal.tsx:94-97 | appends one unnamed, uncompleted subtask |
| TaskForms.RemoveSubtask | vitereact/src/components/views/UV_EditTaskModal.tsx:100-104 | removes exactly the subtask at the index |
| TaskForms.AddThenRemoveSubtask | vitereact/src/components/views/UV_EditTaskModal.tsx:94-104 | removing a just-added subtask restores the form |
| TaskForms.SubmitEdit | vitereact/src/components/views/UV_EditTaskModal.tsx:131-153 | the PUT is sent iff the form validates; a successful PUT closes the modal; an error status shows "Failed to update task"; a rejected fetch shows its own message, or "Error updating task" when that is empty |
| AccountForms.CheckRegistration | vitereact/src/components/views/UV_Registration.tsx:29-50 | the first failing check wins: missing field, then short password, then mismatch; otherwise the payload has role "team_member" and a null picture for an empty one |
| AccountForms.SentRegistrationSucceeds | vitereact/src/components/views/UV_Registration.tsx:43-50 | a sent payload registers a "team_member" with the email when the id and email are free |
| AccountForms.TypePassword | vitereact/src/components/views/UV_Registration.tsx:138-145 | the flags are recomputed from the new password |
| AccountForms.TypeConfirmation | vitereact/src/components/views/UV_Registration.tsx:161-168 | the flags are recomputed from the new confirmation |
| AccountForms.FlagsTrackFields | vitereact/src/components/views/UV_Registration.tsx:138-168 | the flags always describe the current fields and predict whether the form would be sent |
| AccountForms.RegistrationSuccess | vitereact/src/components/views/UV_Registration.tsx:70-72 | the store holds the token and user, is authenticated, and a socket for that token is open |
| AccountForms.ScanEmailCorrect | vitereact/src/components/views/UV_InvitationModal.tsx:36 | the scan accepts exactly the texts the unanchored email pattern matches |
| AccountForms.EmailAccepted | vitereact/src/components/views/UV_InvitationModal.tsx:36-37 | an email is accepted exactly when some non-space run, "@", non-space run, ".", non-space run occurs in it |
| AccountForms.EmailExamples | vitereact/src/components/views/UV_InvitationModal.tsx:36-37 | "" and "a@b." are rejected, "a@b.c" is accepted, a space before the "@" breaks the only match |
| AccountForms.SubmitInvitation | vitereact/src/components/views/UV_InvitationModal.tsx:36-53 | a rejected email sets the invite_email error and sends nothing; otherwise invite_email and invite_role map to invitee_email and role |
| AccountForms.AfterInvite | vitereact/src/components/views/UV_InvitationModal.tsx:30-67 | the submit clears the errors and the success line; success then resets the form and shows the message; a failure keeps the form, shows no success line and reports only under invite_email |
| AccountForms.InvitedFormIsInitial | vitereact/src/components/views/UV_InvitationModal.tsx:11-14 | the reset form is the initial one, {"", "team_member"} |
| AccountForms.ProfileErrors | vitereact/src/components/views/UV_Profile.tsx:75-87 | each of first name, last name and email is reported exactly when missing or blank, and nothing else is |
| AccountForms.ProfileGate | vitereact/src/components/views/UV_Profile.tsx:92-96 | the PUT is allowed exactly when all three are present and not blank |
| AccountForms.ProfileUpdated | vitereact/src/components/views/UV_Profile.tsx:107-108 | the global user and the form both take the response |
| AccountForms.EditSettings | vitereact/src/components/views/UV_Profile.tsx:217-234 | a parse failure keeps the settings and records "Invalid JSON format"; a success replaces them and clears only that error |
| AccountForms.SettingsRecover | vitereact/src/components/views/UV_Profile.tsx:217-234 | a bad edit followed by a good one ends as the good one alone |
| Views.LoadTask | vitereact/src/components/views/UV_TaskDetail.tsx:40-52 | a failed fetch or unknown id sets its error; otherwise the main task is the first entry with the id and the subtasks are exactly its children |
| Views.SubtasksInListOrder | vitereact/src/components/views/UV_TaskDetail.tsx:46 | a child appended to the list is appended to the subtasks, so they keep list order |
| Views.OnEvent | vitereact/src/components/views/UV_TaskDetail.tsx:68-77 | a task update replaces the task iff it carries the page's id; a comment is appended iff it belongs to the page's task |
| Views.CommentsFor | vitereact/src/components/views/UV_TaskDetail.tsx:73-77 | every comment collected belongs to the task and was broadcast |
| Views.ReplayComments | vitereact/src/components/views/UV_TaskDetail.tsx:66-84 | after any run of events the page's comments are the earlier ones plus this task's broadcast comments in order |
| Views.ReplayFrame | vitereact/src/components/views/UV_TaskDetail.tsx:66-84 | events change only the task and the comments |
| Views.PageFollowsTaskUpdate | vitereact/src/components/views/UV_TaskDetail.tsx:68-72 | the event of a server task update shows the stored row on that task's page and leaves other pages alone |
| Views.PageFollowsNewComment | vitereact/src/components/views/UV_TaskDetail.tsx:73-77 | a posted comment's event appends it on its task's page only |
| Views.SubmitComment | vitereact/src/components/views/UV_TaskDetail.tsx:112 | nothing is sent exactly for blank text |
| Views.AfterCommentPost | vitereact/src/components/views/UV_TaskDetail.tsx:125-128 | the returned comment is appended and the input cleared |
| Views.OwnCommentListedTwice | vitereact/src/components/views/UV_TaskDetail.tsx:127 | the author's comment is listed twice once its broadcast arrives |
| Views.StartEditComment | vitereact/src/components/views/UV_TaskDetail.tsx:223-226 | editing opens on the comment with its text |
| Views.EditComment | vitereact/src/components/views/UV_TaskDetail.tsx:241-247 | only comments with the id are replaced, in place, and the editor closes |
| Views.DeleteComment | vitereact/src/components/views/UV_TaskDetail.tsx:265-266 | exactly the comments with the id go |
| Views.EditInvisibleAfterDelete | vitereact/src/components/views/UV_TaskDetail.tsx:243-266 | deleting a comment after editing it leaves what deleting it alone leaves |
| Views.DeletePostedComment | vitereact/src/components/views/UV_TaskDetail.tsx:266 | deleting a freshly posted comment restores the list |
| Views.AfterUpload | vitereact/src/components/views/UV_TaskDetail.tsx:152-154 | a successful upload appends the attachment |
| Views.RemoveAttachment | vitereact/src/components/views/UV_TaskDetail.tsx:173-174 | exactly the attachments with the id go |
| Views.RemoveUploaded | vitereact/src/components/views/UV_TaskDetail.tsx:174 | removing a just-uploaded attachment restores the list |
| Views.TasksByStatus | vitereact/src/components/views/UV_ProjectDetail.tsx:81-91 | exactly the four columns, each holding exactly the tasks with that status |
| Views.BoardCount | vitereact/src/components/views/UV_ProjectDetail.tsx:81-91 | the board plus the tasks of unknown status account for every task |
| Views.BoardShowsAll | vitereact/src/components/views/UV_ProjectDetail.tsx:81-91 | the board holds at most the task count, and all of them iff every status is a column |
| Views.ColumnOfAppend | vitereact/src/components/views/UV_ProjectDetail.tsx:88-91 | a column keeps list order: an appended task goes to the end of its column only |
| Views.Toggle | vitereact/src/components/views/UV_ProjectDetail.tsx:147 | the display mode always changes |
| Views.ToggleTwice | vitereact/src/components/views/UV_ProjectDetail.tsx:147 | toggling twice restores the mode |
| Views.ToggleLabel | vitereact/src/components/views/UV_ProjectDetail.tsx:150 | the button names the mode a click switches to |
| Views.Finish | vitereact/src/components/views/UV_Onboarding.tsx:40-54 | completes onboarding, and sends a PUT for the user exactly when there is one |
| Views.Next | vitereact/src/components/views/UV_Onboarding.tsx:57-63 | the step stays in range; before the last step it advances, on the last it completes |
| Views.Skip | vitereact/src/components/views/UV_Onboarding.tsx:66-68 | completes onboarding from any step |
| Views.FinishLabelEnds | vitereact/src/components/views/UV_Onboarding.tsx:102-104 | the button reads "Finish" exactly when the next click ends the stepper |
| Views.Run | vitereact/src/components/views/UV_Onboarding.tsx:57-68 | any run of clicks keeps the step within 0..2 |
| Views.ThreeNextsFinish | vitereact/src/components/views/UV_Onboarding.tsx:57-63 | two clicks of Next leave it open, three complete it |
| Views.FinishRequestRefused | vitereact/src/components/views/UV_Onboarding.tsx:46-49 | the finish PUT, sent without a bearer header, is refused with 401 "Missing token" and changes nothing |

## Left out

- The relational store and its connection pool are not modelled. Tables are sequences of rows, `RETURNING` is the post-state row, and last-write-wins between concurrent requests is not modelled. Each request is one atomic step of the model, except that the milestone writes are modelled step by step.
- The table definitions are not part of this model, so the store constraints are assumed. Inserts fail on a primary-key or email clash. Task creation refuses a project id with no project, and the store invariant `ApiProps.Valid` assumes that every milestone and task names an existing project. Comments and attachments are not checked against the task they name.
- bcrypt, jsonwebtoken and uuid are uninterpreted function values. `SoundJwt` and `SoundHash` state what the lemmas about them assume.
- Timestamps are abstract strings, ordered by JavaScript's string comparison, and the clock is a parameter.
- Express routing, middleware wiring, static file serving, multer and the file system are left out. An upload is modelled by the file's original and stored names.
- The Socket.IO transport is left out. The model keeps only the global event log, the room set and the client's socket effects. The private room Socket.IO joins every socket to under its own id is not modelled, so `Api.Connect` speaks only of the application's user room.
- Api.Handle: its own contract states only that read routes leave the store unchanged. Its other properties are the lemmas about the individual handlers and `ApiProps`.
- The `archived` query parameter is an optional integer. JavaScript's `Number()` turning junk into NaN, which matches no row, is not modelled.
- Strings are sequences of characters, not UTF-16 code units. Upper-casing covers ASCII letters only.
- The browser side leaves out fetch and axios, `window.location`, `alert`, `setTimeout`, custom window events, redux-persist and localStorage. Each view is modelled from the outcome of its request.
- Client calls that the server has no route for are modelled only by their local effect after an assumed success: comment edit and delete, and attachment delete.
- Routes.ProjectDetailTrail: the page's fetch of `/api/projects/:id` has no API route and falls into the catch-all at backend/server.js:570-572, which answers the page's HTML. The title is therefore undefined and the trail reads "Project Detail" (the `None` case). The model keeps the title as a parameter.
- Date handling in the edit-project modal uses `new Date` comparison, which is an abstract `DateParser` whose order is a parameter. The create modal compares dates as strings, which the model does exactly.
- `JSON.parse` in the profile form is an abstract partial parser.
- Routes.Resolve: route matching is on the path's non-empty segments. React Router's case-insensitive matching and its handling of repeated slashes are approximated this way.
- The subtask checkbox handler of the edit-task modal mutates shared objects and depends on render timing, so it is not modelled.
- The task-detail page's status dropdown and embedded edit modal send the PUT and show the returned task with `setTaskData`, without reloading. Only the server side (`Api.UpdateTask`) is modelled.
- Api.MarkNotification: an explicit JSON `null` read status is not modelled. The handler defaults only an undefined one to 1 and would pass `null` on to the UPDATE, but the model's read status is an integer, so the request carries either no value (`None`, meaning 1) or an integer.
- The login, dashboard, gantt and footer views only fetch and display data, so they are not modelled.
- ClientStore.Dispatch: its contract states the socket invariant and the bound on effects. What each action does is stated by `Reduce`, `ReduceFrame` and the three socket lemmas.
- Views.Run: its contract states only the step-range invariant. `ThreeNextsFinish` states the full run.
- Views.Finish: the PUT body's `onboarding_completed` field is not part of the user update the server performs, so it is not modelled.
- ProjectForms.EditReplacesMilestones, TaskForms.LoadEditForm: the edit modals are modelled as functions of their route parameters. App.tsx (lines 75-84) mounts them after `</Routes>`, where `useParams` supplies none, so as the app is wired the edit-project form never prefills and its PUT answers 500, and the edit-task modal never leaves "Loading...". `MountedModalNeverPrefills`, `MountedEditFails` and `MountedEditTaskStaysLoading` state this; the two lemmas above hold only for a modal given an id.
- Rendering, JSX, CSS and `toLocaleString` are left out.

=== FILE: account_forms.dfy ===
/** The account forms: registration, the invitation modal and the profile page. */
module AccountForms {
  import opened Wrappers
  import opened Text
  import opened Schema
  import opened FormKeys
  import opened ClientStore
  import Api

  // ----- registration -----

  datatype RegistrationForm = RegistrationForm(
    first_name: string,
    last_name: string,
    email: string,
    password: string,
    confirm_password: string,
    profile_picture: string)

  const MinPasswordLength: nat := 8

  /** What pressing "Register" leads to: a message and no request, or the
      request body. */
  datatype RegistrationStep = Refused(message: string) | Send(payload: Api.RegisterRequest)

  predicate MissingField(f: RegistrationForm)
  {
    f.first_name == "" || f.last_name == "" || f.email == "" || f.password == "" || f.confirm_password == ""
  }

  /** The checks of `handleRegistration`, first failure wins; then the payload,
      always for a team member, an empty picture sent as null. */
  function CheckRegistration(f: RegistrationForm): (r: RegistrationStep)
    ensures MissingField(f) <==> r == Refused("Please fill in all required fields.")
    ensures !MissingField(f) && |f.password| < MinPasswordLength <==>
              r == Refused("Password must be at least 8 characters long.")
    ensures !MissingField(f) && |f.password| >= MinPasswordLength && f.password != f.confirm_password <==>
              r == Refused("Passwords do not match.")
    ensures r.Send? <==> !MissingField(f) && |f.password| >= MinPasswordLength && f.password == f.confirm_password
    ensures r.Send? ==>
              && r.payload.first_name == f.first_name && r.payload.last_name == f.last_name
              && r.payload.email == f.email && r.payload.password == Some(f.password)
              && r.payload.role == "team_member"
              && r.payload.profile_picture_url == OrNull(Some(f.profile_picture))
  {
    if MissingField(f) then Refused("Please fill in all required fields.")
    else if |f.password| < MinPasswordLength then Refused("Password must be at least 8 characters long.")
    else if f.password != f.confirm_password then Refused("Passwords do not match.")
    else Send(Api.RegisterRequest(f.first_name, f.last_name, f.email, Some(f.password), "team_member",
                                  if f.profile_picture != "" then Some(f.profile_picture) else None))
  }

  /** A form the client sends registers a team member whenever the generated id
      and the email are still free: the password it sends is always present. */
  lemma SentRegistrationSucceeds(f: RegistrationForm, s: Store, cr: Crypto, env: Env)
    requires CheckRegistration(f).Send?
    requires !Tables.HasKey(s.users, Api.UserId, env.uuid(0)) && !Tables.HasKey(s.users, Api.UserEmail, f.email)
    ensures var r := Api.Register(s, cr, env, CheckRegistration(f).payload);
            r.response.status == 200 && r.store.users[|s.users|].role == "team_member"
            && r.store.users[|s.users|].email == f.email
  {
  }

  /** The two hints under the password fields. */
  datatype Flags = Flags(is_password_strong: bool, is_password_match: bool)

  function FlagsFor(password: string, confirm: string): Flags
  {
    Flags(|password| >= MinPasswordLength, password == confirm)
  }

  /** Typing in the password field recomputes both flags from the new password
      and the current confirmation. */
  function TypePassword(f: RegistrationForm, value: string): (r: (RegistrationForm, Flags))
    ensures r.0 == f.(password := value)
    ensures r.1.is_password_strong <==> |value| >= MinPasswordLength
    ensures r.1.is_password_match <==> value == f.confirm_password
  {
    (f.(password := value), Flags(|value| >= MinPasswordLength, value == f.confirm_password))
  }

  /** Typing in the confirmation field recomputes both flags likewise. */
  function TypeConfirmation(f: RegistrationForm, value: string): (r: (RegistrationForm, Flags))
    ensures r.0 == f.(confirm_password := value)
    ensures r.1.is_password_strong <==> |f.password| >= MinPasswordLength
    ensures r.1.is_password_match <==> f.password == value
  {
    (f.(confirm_password := value), Flags(|f.password| >= MinPasswordLength, f.password == value))
  }

  /** After either field is edited the flags describe the form as it now is,
      and they agree with the two checks that follow the missing-field check. */
  lemma FlagsTrackFields(f: RegistrationForm, value: string)
    ensures TypePassword(f, value).1 == FlagsFor(TypePassword(f, value).0.password, TypePassword(f, value).0.confirm_password)
    ensures TypeConfirmation(f, value).1
            == FlagsFor(TypeConfirmation(f, value).0.password, TypeConfirmation(f, value).0.confirm_password)
    ensures var g := TypePassword(f, value).0;
            var fl := TypePassword(f, value).1;
            !MissingField(g) ==> (CheckRegistration(g).Send? <==> fl.is_password_strong && fl.is_password_match)
  {
  }

  /** The global store after a successful registration: token, then user, then
      the authenticated flag, each through the store's own reducer. */
  function RegistrationSuccess(c: Client, token: string, user: UserView): (r: Client)
    ensures r.state.auth_token == token && r.state.current_user == Some(user) && r.state.is_authenticated
    ensures Consistent(r.state)
    ensures token != "" && c.state.socket_instance.None? ==>
              r.state.socket_instance.Some? && r.state.socket_instance.value.token == token
  {
    Dispatch(Dispatch(Dispatch(c, SetAuthToken(token)), SetCurrentUser(Some(user))), SetIsAuthenticated(true))
  }

  // ----- the invitation modal -----

  /** `\S+@\S+\.\S+` matched at `@` position `a` and `.` position `d`: a
      non-blank before the `@`, only non-blanks strictly between, and a
      non-blank after the `.`. */
  predicate EmailMatchAt(s: string, a: int, d: int)
  {
    && 1 <= a && a + 1 < d && d + 1 < |s|
    && s[a] == '@' && s[d] == '.'
    && !IsSpace(s[a - 1]) && !IsSpace(s[d + 1])
    && forall t :: a < t < d ==> !IsSpace(s[t])
  }

  /** The pattern is not anchored: it matches if it matches anywhere. */
  ghost predicate EmailPattern(s: string)
  {
    exists a, d :: EmailMatchAt(s, a, d)
  }

  /** The scan state before position `i`: `start` begins the current run of
      non-blanks, `at` is the first `@` in that run after its first character. */
  ghost predicate ScanState(s: string, i: nat, start: nat, at: Option<nat>)
  {
    && start <= i <= |s|
    && (start == 0 || IsSpace(s[start - 1]))
    && (forall t :: start <= t < i ==> !IsSpace(s[t]))
    && (at.None? ==> forall t :: start < t < i ==> s[t] != '@')
    && (at.Some? ==> start < at.value < i && s[at.value] == '@'
                     && forall t :: start < t < at.value ==> s[t] != '@')
  }

  /** One left-to-right pass, remembering the current run and its first `@`. */
  function ScanEmail(s: string, i: nat, start: nat, at: Option<nat>): bool
    requires start <= i <= |s|
    decreases |s| - i
  {
    if i == |s| then false
    else if IsSpace(s[i]) then ScanEmail(s, i + 1, i + 1, None)
    else if s[i] == '.' && i + 1 < |s| && !IsSpace(s[i + 1]) && at.Some? && at.value + 1 < i then true
    else ScanEmail(s, i + 1, start, if s[i] == '@' && i > start && at.None? then Some(i) else at)
  }

  /** A match whose `.` lies at or after `i` has its `@` inside the current
      run, after the run's first character, or later. */
  lemma MatchAfterStart(s: string, i: nat, start: nat, at: Option<nat>, a: int, d: int)
    requires ScanState(s, i, start, at) && EmailMatchAt(s, a, d) && i <= d
    ensures a > start
  {
    assert !IsSpace('@') && !IsSpace('.');
    assert forall t :: a - 1 <= t <= d ==> !IsSpace(s[t]);
    if start > 0 {
      assert IsSpace(s[start - 1]);
    }
  }

  /** A match whose `.` is at `i` is seen by the scan when it reaches `i`. */
  lemma MatchAtDotSeen(s: string, i: nat, start: nat, at: Option<nat>, a: int)
    requires ScanState(s, i, start, at) && EmailMatchAt(s, a, i)
    ensures at.Some? && at.value + 1 < i
  {
    MatchAfterStart(s, i, start, at, a, i);
    assert start < a < i && s[a] == '@';
  }

  /** The pass finds a match exactly when one has its `.` at or after `i`. */
  lemma {:induction false} ScanEmailCorrect(s: string, i: nat, start: nat, at: Option<nat>)
    requires ScanState(s, i, start, at)
    ensures ScanEmail(s, i, start, at) <==> exists a, d :: i <= d && EmailMatchAt(s, a, d)
    decreases |s| - i
  {
    if i == |s| {
      forall a, d | i <= d ensures !EmailMatchAt(s, a, d) {}
    } else {
      forall a | EmailMatchAt(s, a, i) ensures at.Some? && at.value + 1 < i {
        MatchAtDotSeen(s, i, start, at, a);
      }
      assert !IsSpace('.');
      if IsSpace(s[i]) {
        assert ScanState(s, i + 1, i + 1, None);
        ScanEmailCorrect(s, i + 1, i + 1, None);
      } else if s[i] == '.' && i + 1 < |s| && !IsSpace(s[i + 1]) && at.Some? && at.value + 1 < i {
        assert EmailMatchAt(s, at.value, i) by {
          assert !IsSpace(s[at.value - 1]);
        }
      } else {
        var at' := if s[i] == '@' && i > start && at.None? then Some(i) else at;
        assert ScanState(s, i + 1, start, at');
        ScanEmailCorrect(s, i + 1, start, at');
      }
    }
  }

  /** `!email || !emailRegex.test(email)` inverted: the address is accepted. */
  function EmailAccepted(s: string): (ok: bool)
    ensures ok <==> EmailPattern(s)
  {
    ScanEmailCorrect(s, 0, 0, None);
    s != "" && ScanEmail(s, 0, 0, None)
  }

  /** The pattern needs at least five characters, so the emptiness test never
      decides anything on its own; and a plain address passes. */
  lemma EmailExamples()
    ensures !EmailAccepted("")
    ensures EmailAccepted("a@b.c")
    ensures !EmailAccepted("a@b.")
    ensures !EmailAccepted("a @b.c")
  {
    assert EmailMatchAt("a@b.c", 1, 3);
    forall a, d ensures !EmailMatchAt("a@b.", a, d) {}
    forall a, d ensures !EmailMatchAt("a @b.c", a, d) {}
  }

  datatype InvitationForm = InvitationForm(invite_email: string, invite_role: string)

  const EmptyInvitation: InvitationForm := InvitationForm("", "team_member")

  datatype InvitationStep = BadEmail(errors: Errors) | Invite(request: Api.InvitationRequest)

  /** `sendInvitation` up to the request: a rejected address shows its error
      under the email field and sends nothing; otherwise the fields are renamed
      into the request body. */
  function SubmitInvitation(f: InvitationForm): (r: InvitationStep)
    ensures r.BadEmail? <==> !EmailPattern(f.invite_email)
    ensures r.BadEmail? ==> r.errors == map[InviteEmail := "Please enter a valid email address."]
    ensures r.Invite? ==> r.request.invitee_email == f.invite_email && r.request.role == f.invite_role
  {
    if !EmailAccepted(f.invite_email) then BadEmail(map[InviteEmail := "Please enter a valid email address."])
    else Invite(Api.InvitationRequest(f.invite_email, f.invite_role))
  }

  datatype InvitationView = InvitationView(form: InvitationForm, errors: Errors, success: string)

  /** How the POST ended: OK, an error status with the server's message, or a
      network failure with its own message. */
  datatype InviteOutcome = Invited | InviteRefused(error: Option<string>) | InviteFailed(message: string)

  /** The modal after the answer. The submit first clears the errors and the
      success line; then success resets the form and shows the success line, and
      any failure shows its message under the email field and keeps the form. */
  function AfterInvite(v: InvitationView, outcome: InviteOutcome): (r: InvitationView)
    ensures outcome.Invited? ==> r == InvitationView(EmptyInvitation, map[], "Invitation sent successfully.")
    ensures !outcome.Invited? ==> r.form == v.form && r.success == "" && r.errors.Keys == {InviteEmail}
    ensures outcome.InviteRefused? ==>
              r.errors[InviteEmail] == if Truthy(outcome.error) then outcome.error.value else "Failed to send invitation"
    ensures outcome.InviteFailed? ==> r.errors[InviteEmail] == outcome.message
  {
    var cleared := v.(errors := map[], success := "");
    match outcome
    case Invited => cleared.(form := EmptyInvitation, success := "Invitation sent successfully.")
    case InviteRefused(e) =>
      cleared.(errors := map[InviteEmail := if Truthy(e) then e.value else "Failed to send invitation"])
    case InviteFailed(m) => cleared.(errors := map[InviteEmail := m])
  }

  /** A successful invitation leaves the form as a fresh modal starts it. */
  lemma InvitedFormIsInitial(v: InvitationView)
    ensures AfterInvite(v, Invited).form == EmptyInvitation
    ensures EmptyInvitation == InvitationForm("", "team_member")
  {
  }

  // ----- the profile page -----

  /** The profile form holds whatever the server returned, so a field may be
      missing; `J` is the parsed notification-settings value. */
  datatype ProfileForm<J> = ProfileForm(
    first_name: Option<string>,
    last_name: Option<string>,
    email: Option<string>,
    profile_picture_url: Option<string>,
    notification_settings: J)

  /** `!x || x.trim() === ""`. */
  predicate MissingOrBlank(x: Option<string>)
  {
    !Truthy(x) || IsBlank(x.value)
  }

  /** `validateForm` of the profile page. */
  function ProfileErrors<J>(f: ProfileForm<J>): (errs: Errors)
    ensures FirstName in errs <==> MissingOrBlank(f.first_name)
    ensures LastName in errs <==> MissingOrBlank(f.last_name)
    ensures Email in errs <==> MissingOrBlank(f.email)
    ensures forall k :: k in errs ==> k in {FirstName, LastName, Email}
  {
    var e0: Errors := map[];
    var e1 := if MissingOrBlank(f.first_name) then e0[FirstName := "First name is required"] else e0;
    var e2 := if MissingOrBlank(f.last_name) then e1[LastName := "Last name is required"] else e1;
    if MissingOrBlank(f.email) then e2[Email := "Email is required"] else e2
  }

  /** The PUT is sent exactly when the three names hold a non-blank text. */
  lemma ProfileGate<J>(f: ProfileForm<J>)
    ensures ProfileErrors(f) == map[] <==>
              !MissingOrBlank(f.first_name) && !MissingOrBlank(f.last_name) && !MissingOrBlank(f.email)
  {
    if !MissingOrBlank(f.first_name) && !MissingOrBlank(f.last_name) && !MissingOrBlank(f.email) {
      var errs := ProfileErrors(f);
      assert forall k :: k !in errs;
    }
  }

  /** A successful update puts the returned user in the global store and in
      the form alike. */
  function ProfileUpdated<J>(s: GlobalState, f: ProfileForm<J>, returned: UserView, settings: J)
    : (r: (GlobalState, ProfileForm<J>))
    ensures r.0 == s.(current_user := Some(returned))
    ensures r.1.first_name == Some(returned.first_name) && r.1.last_name == Some(returned.last_name)
    ensures r.1.email == Some(returned.email) && r.1.profile_picture_url == returned.profile_picture_url
  {
    (Reduce(s, SetCurrentUser(Some(returned))),
     ProfileForm(Some(returned.first_name), Some(returned.last_name), Some(returned.email),
                 returned.profile_picture_url, settings))
  }

  /** Editing the settings text: a parse failure records the error and keeps the
      previous settings; a success stores the parsed value and clears the error.
      `parse` is `JSON.parse`. */
  function EditSettings<J>(f: ProfileForm<J>, errs: Errors, text: string, parse: string -> Option<J>)
    : (r: (ProfileForm<J>, Errors))
    ensures parse(text).None? ==> r.0 == f && r.1 == errs[NotificationSettings := "Invalid JSON format"]
    ensures parse(text).Some? ==>
              r.0 == f.(notification_settings := parse(text).value) && r.1 == errs - {NotificationSettings}
    ensures forall k :: k != NotificationSettings ==> (k in r.1 <==> k in errs)
  {
    match parse(text)
    case None => (f, errs[NotificationSettings := "Invalid JSON format"])
    case Some(j) => (f.(notification_settings := j), errs - {NotificationSettings})
  }

  /** A bad edit followed by a good one leaves the settings error cleared and
      the other errors as they were. */
  lemma SettingsRecover<J>(f: ProfileForm<J>, errs: Errors, bad: string, good: string, parse: string -> Option<J>)
    requires parse(bad).None? && parse(good).Some?
    ensures var (f1, e1) := EditSettings(f, errs, bad, parse);
            var (f2, e2) := EditSettings(f1, e1, good, parse);
            f2 == f.(notification_settings := parse(good).value) && e2 == errs - {NotificationSettings}
  {
  }
}

=== FILE: api_props.dfy ===
/** Properties of the API that relate several handlers, or a handler to the
    database constraints: the constraints survive every request, a freshly
    issued token authenticates, registration enables login, milestone
    replacement is exact, and archiving hides a project from the default list. */
module ApiProps {
  import opened Wrappers
  import opened Tables
  import opened Schema
  import opened Api

  /** The constraints the database enforces: primary keys, a unique email per
      user, and every milestone and task belonging to an existing project. */
  ghost predicate Valid(s: Store)
  {
    && UniqueKeys(s.users, UserId) && UniqueKeys(s.users, UserEmail)
    && UniqueKeys(s.invitations, InvitationId) && UniqueKeys(s.projects, ProjectId)
    && UniqueKeys(s.milestones, MilestoneId) && UniqueKeys(s.tasks, TaskId)
    && UniqueKeys(s.comments, CommentId) && UniqueKeys(s.attachments, AttachmentId)
    && UniqueKeys(s.notifications, NotificationId)
    && (forall m :: m in s.milestones ==> HasKey(s.projects, ProjectId, m.project_id))
    && (forall t :: t in s.tasks ==> HasKey(s.projects, ProjectId, t.project_id))
  }

  /** Inserting milestones one by one, each after a key check, keeps keys unique. */
  lemma {:induction false} InsertMilestonesUnique(rows: seq<Milestone>, pid: string, ms: seq<MilestoneInput>,
                                                  uuid: nat -> string, k: nat)
    requires UniqueKeys(rows, MilestoneId)
    ensures UniqueKeys(InsertMilestones(rows, pid, ms, uuid, k).rows, MilestoneId)
    decreases |ms|
  {
    if ms != [] {
      var m := MilestoneRow(uuid(k), pid, ms[0]);
      if !HasKey(rows, MilestoneId, m.id) {
        UniqueAppend(rows, m, MilestoneId);
        InsertMilestonesUnique(rows + [m], pid, ms[1..], uuid, k + 1);
      }
    }
  }

  /** Milestones of the kept rows point where they pointed; the new ones point at `pid`. */
  lemma MilestonesPointAt(rows: seq<Milestone>, added: seq<Milestone>, pid: string, projects: seq<Project>)
    requires forall m :: m in rows ==> HasKey(projects, ProjectId, m.project_id)
    requires HasKey(projects, ProjectId, pid)
    requires forall i :: 0 <= i < |added| ==> added[i].project_id == pid
    ensures forall m :: m in rows + added ==> HasKey(projects, ProjectId, m.project_id)
  {
  }

  lemma CreateProjectValid(s: Store, cr: Crypto, env: Env, header: Option<string>, req: ProjectRequest)
    requires Valid(s)
    ensures Valid(CreateProject(s, cr, env, header, req).store)
  {
    var r := CreateProject(s, cr, env, header, req);
    if Authenticate(cr, header).Authorized? && !HasKey(s.projects, ProjectId, env.uuid(0)) {
      var c := Authenticate(cr, header).claims;
      var id := env.uuid(0);
      var p := Project(id, req.title, OrNull(req.description), req.start_date, req.end_date, 0, c.id,
                       env.now, env.now);
      var projects := s.projects + [p];
      assert r.store.projects == projects;
      UniqueAppend(s.projects, p, ProjectId);
      assert projects[|s.projects|].id == id;
      forall m | m in s.milestones ensures HasKey(projects, ProjectId, m.project_id) {
        var i :| 0 <= i < |s.projects| && s.projects[i].id == m.project_id;
        assert projects[i] == s.projects[i];
      }
      forall t | t in s.tasks ensures HasKey(projects, ProjectId, t.project_id) {
        var i :| 0 <= i < |s.projects| && s.projects[i].id == t.project_id;
        assert projects[i] == s.projects[i];
      }
      if req.milestones.Some? {
        var ins := InsertMilestones(s.milestones, id, req.milestones.value, env.uuid, 1);
        InsertMilestonesUnique(s.milestones, id, req.milestones.value, env.uuid, 1);
        assert r.store.milestones == s.milestones + ins.added;
        MilestonesPointAt(s.milestones, ins.added, id, projects);
      }
    }
  }

  lemma UpdateProjectValid(s: Store, cr: Crypto, env: Env, header: Option<string>, pid: string,
                           patch: ProjectPatch)
    requires Valid(s)
    ensures Valid(UpdateProject(s, cr, env, header, pid, patch).store)
  {
    var r := UpdateProject(s, cr, env, header, pid, patch);
    if Authenticate(cr, header).Authorized? {
      var f := PatchProject(patch, env.now);
      UniqueUpdate(s.projects, ProjectWithId(pid), f, ProjectId);
      var kept := Where(s.milestones, MilestoneElsewhere(pid));
      UniqueWhere(s.milestones, MilestoneElsewhere(pid), MilestoneId);
      assert forall m :: m in kept ==> m in s.milestones;
      if patch.milestones.Some? && HasKey(s.projects, ProjectId, pid) {
        var ms := patch.milestones.value;
        InsertMilestonesUnique(kept, pid, ms, env.uuid, 0);
        var ins := InsertMilestones(kept, pid, ms, env.uuid, 0);
        assert r.store.milestones == kept + ins.added;
        MilestonesPointAt(kept, ins.added, pid, r.store.projects);
      }
    }
  }

  lemma DeleteTaskValid(s: Store, cr: Crypto, header: Option<string>, tid: string)
    requires Valid(s)
    ensures Valid(DeleteTask(s, cr, header, tid).store)
  {
    UniqueWhere(s.tasks, TaskElsewhere(tid), TaskId);
  }

  lemma UpdateUserValid(s: Store, cr: Crypto, env: Env, header: Option<string>, userId: string, patch: UserPatch)
    requires Valid(s)
    ensures Valid(UpdateUser(s, cr, env, header, userId, patch).store)
  {
    var f := PatchUser(patch, env.now);
    UniqueUpdate(s.users, UserWithId(userId), f, UserId);
    UniqueUpdate(s.users, UserWithId(userId), f, UserEmail);
  }

  lemma UpdateTaskValid(s: Store, cr: Crypto, env: Env, header: Option<string>, tid: string, patch: TaskPatch)
    requires Valid(s)
    ensures Valid(UpdateTask(s, cr, env, header, tid, patch).store)
  {
    var r := UpdateTask(s, cr, env, header, tid, patch);
    UniqueUpdate(s.tasks, TaskWithId(tid), PatchTask(patch, env.now), TaskId);
    forall t | t in r.store.tasks ensures HasKey(s.projects, ProjectId, t.project_id) {
      var i :| 0 <= i < |r.store.tasks| && r.store.tasks[i] == t;
      assert s.tasks[i] in s.tasks;
    }
  }

  lemma ArchiveProjectValid(s: Store, cr: Crypto, env: Env, header: Option<string>, pid: string)
    requires Valid(s)
    ensures Valid(ArchiveProject(s, cr, env, header, pid).store)
  {
    UniqueUpdate(s.projects, ProjectWithId(pid), ArchiveRow(env.now), ProjectId);
  }

  lemma MarkNotificationValid(s: Store, cr: Crypto, header: Option<string>, nid: string, readStatus: Option<int>)
    requires Valid(s)
    ensures Valid(MarkNotification(s, cr, header, nid, readStatus).store)
  {
    var r := MarkNotification(s, cr, header, nid, readStatus);
    assert forall i :: 0 <= i < |s.notifications| ==> r.store.notifications[i].id == s.notifications[i].id;
  }

  lemma RegisterValid(s: Store, cr: Crypto, env: Env, req: RegisterRequest)
    requires Valid(s)
    ensures Valid(Register(s, cr, env, req).store)
  {
    var r := Register(s, cr, env, req);
    if r.response.status == 200 {
      var u := r.store.users[|s.users|];
      assert r.store.users == s.users + [u];
      UniqueAppend(s.users, u, UserId);
      UniqueAppend(s.users, u, UserEmail);
    }
  }

  lemma SendInvitationValid(s: Store, cr: Crypto, env: Env, h: Option<string>, req: InvitationRequest)
    requires Valid(s)
    ensures Valid(SendInvitation(s, cr, env, h, req).store)
  {
    var r := SendInvitation(s, cr, env, h, req);
    if r.response.status == 200 {
      UniqueAppend(s.invitations, r.response.body.invitation, InvitationId);
    }
  }

  lemma CreateTaskValid(s: Store, cr: Crypto, env: Env, h: Option<string>, pid: string, req: TaskRequest)
    requires Valid(s)
    ensures Valid(CreateTask(s, cr, env, h, pid, req).store)
  {
    var r := CreateTask(s, cr, env, h, pid, req);
    if r.response.status == 200 {
      UniqueAppend(s.tasks, r.response.body.task, TaskId);
    }
  }

  lemma CreateCommentValid(s: Store, cr: Crypto, env: Env, h: Option<string>, tid: string, text: string)
    requires Valid(s)
    ensures Valid(CreateComment(s, cr, env, h, tid, text).store)
  {
    var r := CreateComment(s, cr, env, h, tid, text);
    if r.response.status == 200 {
      UniqueAppend(s.comments, r.response.body.comment, CommentId);
    }
  }

  lemma UploadAttachmentValid(s: Store, cr: Crypto, env: Env, h: Option<string>, tid: string,
                              file: Option<UploadedFile>, origin: string)
    requires Valid(s)
    ensures Valid(UploadAttachment(s, cr, env, h, tid, file, origin).store)
  {
    var r := UploadAttachment(s, cr, env, h, tid, file, origin);
    if r.response.status == 200 {
      UniqueAppend(s.attachments, r.response.body.attachment, AttachmentId);
    }
  }

  /** Every request leaves the database constraints holding. */
  lemma HandlePreservesValid(s: Store, cr: Crypto, env: Env, rq: Request)
    requires Valid(s)
    ensures Valid(Handle(s, cr, env, rq).store)
  {
    if rq.PostAuthRegister? || rq.PutUserById? || rq.PostInvitations? {
      UserRequestsValid(s, cr, env, rq);
    } else if rq.PostProjects? || rq.PutProjectById? || rq.DeleteProjectById? {
      ProjectRequestsValid(s, cr, env, rq);
    } else {
      OtherRequestsValid(s, cr, env, rq);
    }
  }

  lemma UserRequestsValid(s: Store, cr: Crypto, env: Env, rq: Request)
    requires Valid(s)
    requires rq.PostAuthRegister? || rq.PutUserById? || rq.PostInvitations?
    ensures Valid(Handle(s, cr, env, rq).store)
  {
    match rq
    case PostAuthRegister(req) => RegisterValid(s, cr, env, req);
    case PutUserById(h, uid, patch) => UpdateUserValid(s, cr, env, h, uid, patch);
    case PostInvitations(h, req) => SendInvitationValid(s, cr, env, h, req);
  }

  lemma ProjectRequestsValid(s: Store, cr: Crypto, env: Env, rq: Request)
    requires Valid(s)
    requires rq.PostProjects? || rq.PutProjectById? || rq.DeleteProjectById?
    ensures Valid(Handle(s, cr, env, rq).store)
  {
    match rq
    case PostProjects(h, req) => CreateProjectValid(s, cr, env, h, req);
    case PutProjectById(h, pid, patch) => UpdateProjectValid(s, cr, env, h, pid, patch);
    case DeleteProjectById(h, pid) => ArchiveProjectValid(s, cr, env, h, pid);
  }

  lemma OtherRequestsValid(s: Store, cr: Crypto, env: Env, rq: Request)
    requires Valid(s)
    requires !(rq.PostAuthRegister? || rq.PutUserById? || rq.PostInvitations?)
    requires !(rq.PostProjects? || rq.PutProjectById? || rq.DeleteProjectById?)
    ensures Valid(Handle(s, cr, env, rq).store)
  {
    match rq
    case PostAuthLogin(_, _) =>
    case GetUserById(_, _) =>
    case GetProjects(_, _) =>
    case PostProjectTasks(h, pid, req) => CreateTaskValid(s, cr, env, h, pid, req);
    case GetProjectTasks(_, _) =>
    case PutTaskById(h, tid, patch) => UpdateTaskValid(s, cr, env, h, tid, patch);
    case DeleteTaskById(h, tid) => DeleteTaskValid(s, cr, h, tid);
    case PostTaskComments(h, tid, text) => CreateCommentValid(s, cr, env, h, tid, text);
    case PostTaskAttachments(h, tid, file, origin) => UploadAttachmentValid(s, cr, env, h, tid, file, origin);
    case GetNotifications(_) =>
    case PutNotificationById(h, nid, read) => MarkNotificationValid(s, cr, h, nid, read);
  }

  /** Only creating a task, updating a task and adding a comment broadcast, each
      exactly one event, and only when it answers 200; the log is append-only. */
  lemma HandleEvents(s: Store, cr: Crypto, env: Env, rq: Request)
    ensures var r := Handle(s, cr, env, rq);
            && |s.events| <= |r.store.events|
            && r.store.events[..|s.events|] == s.events
            && |r.store.events| == |s.events| +
                 (if (rq.PostProjectTasks? || rq.PutTaskById? || rq.PostTaskComments?) && r.response.status == 200
                  then 1 else 0)
  {
    var r := Handle(s, cr, env, rq);
    if r.store.events == s.events {
      assert r.store.events[..|s.events|] == s.events;
    }
  }

  /** jsonwebtoken's promise: a signed claim set verifies to itself. */
  ghost predicate SoundJwt(cr: Crypto)
  {
    forall c :: cr.verify(cr.sign(c)) == Some(c)
  }

  /** bcrypt's promise: a password matches its own hash. */
  ghost predicate SoundHash(cr: Crypto)
  {
    forall p :: cr.compare(p, cr.hash(p))
  }

  /** The token a session carries, sent back as `Bearer <token>`, authenticates as
      the user it was issued for. */
  lemma SessionTokenAuthenticates(cr: Crypto, u: User, scheme: string)
    requires SoundJwt(cr)
    requires ' ' !in scheme && ' ' !in TokenFor(cr, u) && TokenFor(cr, u) != ""
    ensures Authenticate(cr, Some(scheme + " " + TokenFor(cr, u))) == Authorized(Claims(u.id, u.email, u.role))
  {
    BearerTokenOfHeader(scheme, TokenFor(cr, u));
  }

  /** A user who has just registered can log in with the same email and
      password, and receives the same session. */
  lemma {:induction false} RegisterThenLogin(s: Store, cr: Crypto, env: Env, req: RegisterRequest)
    requires Valid(s) && SoundHash(cr)
    requires Register(s, cr, env, req).response.status == 200
    ensures var r := Register(s, cr, env, req);
            Login(r.store, cr, req.email, req.password) == r.response
  {
    var r := Register(s, cr, env, req);
    var users := r.store.users;
    var u := users[|s.users|];
    assert users == s.users + [u];
    var k := FirstWhere(users, UserWithEmail(req.email));
    assert UserWithEmail(req.email)(users[|s.users|]);
    assert forall j :: 0 <= j < |s.users| ==> users[j] == s.users[j];
    assert k == Some(|s.users|);
    assert cr.compare(req.password.value, cr.hash(req.password.value));
  }

  /** A socket presenting a freshly issued token is accepted and joins the room of
      its user; one presenting nothing is refused and joins nothing. */
  lemma ConnectWithSessionToken(s: Store, cr: Crypto, u: User, socketId: string, queryToken: Option<string>)
    requires SoundJwt(cr) && TokenFor(cr, u) != ""
    ensures var r := Connect(s, cr, socketId, Some(TokenFor(cr, u)), queryToken);
            && r.result == Accepted(Claims(u.id, u.email, u.role))
            && (socketId, u.id) in r.store.rooms
    ensures Connect(s, cr, socketId, None, None).store.rooms == s.rooms
  {
  }

  /** A profile update answers what a profile read of the same id then shows. */
  lemma UpdateUserThenGetUser(s: Store, cr: Crypto, env: Env, header: Option<string>, userId: string,
                              patch: UserPatch)
    requires Authenticate(cr, header).Authorized? && HasKey(s.users, UserId, userId)
    ensures var r := UpdateUser(s, cr, env, header, userId, patch);
            GetUser(r.store, cr, header, userId) == r.response
  {
    var r := UpdateUser(s, cr, env, header, userId, patch);
    var k :| 0 <= k < |s.users| && UserId(s.users[k]) == userId;
    assert UserWithId(userId)(s.users[k]);
    var i := FirstWhere(s.users, UserWithId(userId)).value;
    FirstWhereAgrees(s.users, r.store.users, UserWithId(userId), i);
    assert HasKey(r.store.users, UserId, userId) by { assert UserId(r.store.users[i]) == userId; }
  }

  /** Repeating a task update with the same fields at the same time changes no
      task row further: every COALESCE is idempotent. */
  lemma UpdateTaskTwice(s: Store, cr: Crypto, env: Env, header: Option<string>, tid: string, patch: TaskPatch)
    ensures var s1 := UpdateTask(s, cr, env, header, tid, patch).store;
            UpdateTask(s1, cr, env, header, tid, patch).store.tasks == s1.tasks
  {
    var s1 := UpdateTask(s, cr, env, header, tid, patch).store;
    var s2 := UpdateTask(s1, cr, env, header, tid, patch).store;
    if Authenticate(cr, header).Authorized? {
      assert s1.tasks == PatchedTasks(s.tasks, tid, patch, env.now);
      assert s2.tasks == PatchedTasks(s1.tasks, tid, patch, env.now);
      PatchedTasksTwice(s.tasks, tid, patch, env.now);
    }
  }

  /** The task UPDATE is idempotent at a fixed clock. */
  lemma PatchedTasksTwice(rows: seq<Task>, tid: string, patch: TaskPatch, now: string)
    ensures var once := PatchedTasks(rows, tid, patch, now);
            PatchedTasks(once, tid, patch, now) == once
  {
    var once := PatchedTasks(rows, tid, patch, now);
    var twice := PatchedTasks(once, tid, patch, now);
    forall i | 0 <= i < |rows| ensures twice[i] == once[i] {
      if rows[i].id == tid {
        assert once[i].id == tid;
      }
    }
  }

  /** A socket that had joined no room leaves none behind: connecting and then
      disconnecting it restores the rooms, whatever the handshake decided. */
  lemma ConnectThenDisconnect(s: Store, cr: Crypto, socketId: string, authToken: Option<string>,
                              queryToken: Option<string>)
    requires forall m :: m in s.rooms ==> m.0 != socketId
    ensures Disconnect(Connect(s, cr, socketId, authToken, queryToken).store, socketId) == s
  {
    var r := Disconnect(Connect(s, cr, socketId, authToken, queryToken).store, socketId);
    assert r.rooms == s.rooms;
  }

  /** With a fresh project id and milestone ids that uuid v4 makes fresh, creating
      a project succeeds and answers every milestone of the request, in order,
      under the new project. */
  lemma CreateProjectInsertsAll(s: Store, cr: Crypto, env: Env, header: Option<string>, req: ProjectRequest)
    requires Authenticate(cr, header).Authorized? && !HasKey(s.projects, ProjectId, env.uuid(0))
    requires FreshIds(env.uuid, 1, |MilestoneInputs(req)|, s.milestones)
    ensures var r := CreateProject(s, cr, env, header, req);
            var ms := MilestoneInputs(req);
            && r.response.status == 200
            && r.response.body.ProjectBody?
            && |r.response.body.project.milestones| == |ms|
            && forall i :: 0 <= i < |ms| ==>
                 r.response.body.project.milestones[i] == MilestoneRow(env.uuid(i + 1), env.uuid(0), ms[i])
  {
    if req.milestones.Some? {
      InsertMilestonesFresh(s.milestones, env.uuid(0), req.milestones.value, env.uuid, 1);
    }
  }

  /** With ids that uuid v4 makes fresh, updating a project with a milestones
      array leaves it with exactly those milestones, in order; an empty array
      leaves it with none. */
  lemma UpdateProjectReplacesMilestones(s: Store, cr: Crypto, env: Env, header: Option<string>, pid: string,
                                        patch: ProjectPatch)
    requires Authenticate(cr, header).Authorized? && HasKey(s.projects, ProjectId, pid)
    requires patch.milestones.Some?
    requires FreshIds(env.uuid, 0, |patch.milestones.value|, s.milestones)
    ensures var r := UpdateProject(s, cr, env, header, pid, patch);
            && r.response.status == 200
            && MilestonesOf(r.store.milestones, pid)
                 == seq(|patch.milestones.value|, i requires 0 <= i < |patch.milestones.value| =>
                          MilestoneRow(env.uuid(i), pid, patch.milestones.value[i]))
    ensures patch.milestones.value == [] ==> MilestonesOf(UpdateProject(s, cr, env, header, pid, patch).store.milestones, pid) == []
  {
    var k :| 0 <= k < |s.projects| && ProjectId(s.projects[k]) == pid;
    assert ProjectWithId(pid)(s.projects[k]);
    var i := FirstWhere(s.projects, ProjectWithId(pid)).value;
    ExistingProjectReplacesMilestones(s, env, pid, patch, i);
    assert UpdateProject(s, cr, env, header, pid, patch) == UpdateExistingProject(s, env, pid, patch, i);
  }

  /** The same for the project's first row `i`, once the caller is authorized. */
  lemma ExistingProjectReplacesMilestones(s: Store, env: Env, pid: string, patch: ProjectPatch, i: nat)
    requires FirstWhere(s.projects, ProjectWithId(pid)) == Some(i)
    requires patch.milestones.Some?
    requires FreshIds(env.uuid, 0, |patch.milestones.value|, s.milestones)
    ensures var r := UpdateExistingProject(s, env, pid, patch, i);
            && r.response.status == 200
            && MilestonesOf(r.store.milestones, pid)
                 == seq(|patch.milestones.value|, j requires 0 <= j < |patch.milestones.value| =>
                          MilestoneRow(env.uuid(j), pid, patch.milestones.value[j]))
  {
    var ms := patch.milestones.value;
    FreshAfterDelete(s.milestones, pid, env.uuid, |ms|);
    InsertMilestonesFresh(Where(s.milestones, MilestoneElsewhere(pid)), pid, ms, env.uuid, 0);
    var m := MilestonesAfterUpdate(s.milestones, pid, patch.milestones, env.uuid);
    assert |m.added| == |ms|;
  }

  /** Ids fresh in the milestone table stay fresh once a project's rows are deleted. */
  lemma FreshAfterDelete(rows: seq<Milestone>, pid: string, uuid: nat -> string, n: nat)
    requires FreshIds(uuid, 0, n, rows)
    ensures FreshIds(uuid, 0, n, Where(rows, MilestoneElsewhere(pid)))
  {
    forall a: nat | 0 <= a < n ensures !HasKey(Where(rows, MilestoneElsewhere(pid)), MilestoneId, uuid(a)) {
      if HasKey(Where(rows, MilestoneElsewhere(pid)), MilestoneId, uuid(a)) {
        WhereKeys(rows, MilestoneElsewhere(pid), MilestoneId, uuid(a));
      }
    }
  }

  /** Archiving a project removes it from the caller's default (unarchived)
      listing, leaves its tasks alone, and the caller who created it finds it
      in the archived listing. */
  lemma ArchiveHidesProject(s: Store, cr: Crypto, env: Env, header: Option<string>, pid: string)
    requires Authenticate(cr, header).Authorized?
    ensures var r := ArchiveProject(s, cr, env, header, pid);
            && r.store.tasks == s.tasks && r.store.milestones == s.milestones
            && (forall p :: p in ProjectsOf(ListProjects(r.store, cr, header, None).body.projects) ==> p.id != pid)
            && (forall i :: 0 <= i < |s.projects| && s.projects[i].id == pid
                            && s.projects[i].created_by == Authenticate(cr, header).claims.id ==>
                  s.projects[i].(archived := 1, updated_at := env.now)
                    in ProjectsOf(ListProjects(r.store, cr, header, Some(1)).body.projects))
  {
    var r := ArchiveProject(s, cr, env, header, pid);
    forall p | p in ProjectsOf(ListProjects(r.store, cr, header, None).body.projects) ensures p.id != pid {
      var i :| 0 <= i < |r.store.projects| && r.store.projects[i] == p;
    }
    forall i | 0 <= i < |s.projects| && s.projects[i].id == pid
               && s.projects[i].created_by == Authenticate(cr, header).claims.id
      ensures s.projects[i].(archived := 1, updated_at := env.now)
                in ProjectsOf(ListProjects(r.store, cr, header, Some(1)).body.projects)
    {
      assert r.store.projects[i] in r.store.projects;
    }
  }
}

=== FILE: client_store.dfy ===
/** The client's global store: the slice state, its reducers, and the
    subscription that opens a realtime socket while a token is held and closes
    it when the token goes away. */
module ClientStore {
  import opened Wrappers
  import opened Tables
  import opened Schema

  /** One entry of the breadcrumb trail. */
  datatype Crumb = Crumb(name: string, url: string)

  /** A realtime connection, numbered in the order it was opened, together with
      the token it authenticated with. */
  datatype Socket = Socket(serial: nat, token: string)

  datatype GlobalState = GlobalState(
    auth_token: string,
    current_user: Option<UserView>,
    is_authenticated: bool,
    notification_list: seq<Notification>,
    unread_notification_count: int,
    is_socket_connected: bool,
    global_search_query: string,
    breadcrumb_path: seq<Crumb>,
    active_nav_item: string,
    socket_instance: Option<Socket>)

  /** The state before anything is dispatched. */
  function InitialState(): (s: GlobalState)
    ensures s.auth_token == "" && s.current_user.None? && !s.is_authenticated
    ensures s.notification_list == [] && s.unread_notification_count == 0
    ensures s.active_nav_item == "dashboard" && s.socket_instance.None? && !s.is_socket_connected
    ensures s.global_search_query == "" && s.breadcrumb_path == []
  {
    GlobalState("", None, false, [], 0, false, "", [], "dashboard", None)
  }

  datatype Action =
    | SetAuthToken(token: string)
    | SetCurrentUser(user: Option<UserView>)
    | SetIsAuthenticated(flag: bool)
    | SetNotificationList(list: seq<Notification>)
    | AddNotification(notification: Notification)
    | MarkNotificationRead(id: string)
    | SetIsSocketConnected(connected: bool)
    | SetGlobalSearchQuery(query: string)
    | SetBreadcrumbPath(path: seq<Crumb>)
    | SetActiveNavItem(item: string)
    | SetSocketInstance(socket: Option<Socket>)

  function IsUnread(n: Notification): bool { n.read_status == 0 }

  /** Number of unread notifications, counted one by one. */
  function CountUnread(list: seq<Notification>): (k: nat)
    ensures k <= |list|
    ensures k == 0 <==> forall i :: 0 <= i < |list| ==> list[i].read_status != 0
  {
    if list == [] then 0 else (if list[0].read_status == 0 then 1 else 0) + CountUnread(list[1..])
  }

  /** `.filter(n => n.read_status === 0).length` is the count of unread entries. */
  lemma {:induction false} UnreadFilterCount(list: seq<Notification>)
    ensures |Where(list, IsUnread)| == CountUnread(list)
  {
    if list != [] {
      UnreadFilterCount(list[1..]);
    }
  }

  /** `list.find(n => n.id === id)`, then `read_status = 1` on what it found:
      only the first entry with the id is marked, and an unknown id changes
      nothing. */
  function MarkFirstRead(list: seq<Notification>, id: string): (r: seq<Notification>)
    ensures (forall i :: 0 <= i < |list| ==> list[i].id != id) ==> r == list
    ensures forall k :: 0 <= k < |list| && list[k].id == id && (forall j :: 0 <= j < k ==> list[j].id != id) ==>
              r == list[k := list[k].(read_status := 1)]
  {
    match FirstWhere(list, (n: Notification) => n.id == id)
    case None => list
    case Some(k) => list[k := list[k].(read_status := 1)]
  }

  function UnreadAfter(list: seq<Notification>): int
  {
    |Where(list, IsUnread)|
  }

  /** The slice's reducers. The three notification reducers recount the unread
      entries of the list they leave behind. */
  function Reduce(s: GlobalState, a: Action): (r: GlobalState)
    ensures (a.SetNotificationList? || a.AddNotification? || a.MarkNotificationRead?) ==>
              r.unread_notification_count == CountUnread(r.notification_list)
    ensures a.AddNotification? ==>
              && |r.notification_list| == |s.notification_list| + 1
              && r.notification_list[..|s.notification_list|] == s.notification_list
              && r.notification_list[|s.notification_list|] == a.notification
  {
    match a
    case SetAuthToken(t) => s.(auth_token := t)
    case SetCurrentUser(u) => s.(current_user := u)
    case SetIsAuthenticated(b) => s.(is_authenticated := b)
    case SetNotificationList(list) =>
      UnreadFilterCount(list);
      s.(notification_list := list, unread_notification_count := UnreadAfter(list))
    case AddNotification(n) =>
      var list := s.notification_list + [n];
      UnreadFilterCount(list);
      assert list[..|s.notification_list|] == s.notification_list;
      s.(notification_list := list, unread_notification_count := UnreadAfter(list))
    case MarkNotificationRead(id) =>
      var list := MarkFirstRead(s.notification_list, id);
      UnreadFilterCount(list);
      s.(notification_list := list, unread_notification_count := UnreadAfter(list))
    case SetIsSocketConnected(b) => s.(is_socket_connected := b)
    case SetGlobalSearchQuery(q) => s.(global_search_query := q)
    case SetBreadcrumbPath(p) => s.(breadcrumb_path := p)
    case SetActiveNavItem(item) => s.(active_nav_item := item)
    case SetSocketInstance(sock) => s.(socket_instance := sock)
  }

  /** The fields of the slice state, to say which ones an action writes. */
  datatype Field =
    | AuthToken | CurrentUser | IsAuthenticated | Notifications | UnreadCount
    | IsSocketConnected | GlobalSearchQuery | BreadcrumbPath | ActiveNavItem | SocketInstance

  predicate Same(s: GlobalState, t: GlobalState, f: Field)
  {
    match f
    case AuthToken => s.auth_token == t.auth_token
    case CurrentUser => s.current_user == t.current_user
    case IsAuthenticated => s.is_authenticated == t.is_authenticated
    case Notifications => s.notification_list == t.notification_list
    case UnreadCount => s.unread_notification_count == t.unread_notification_count
    case IsSocketConnected => s.is_socket_connected == t.is_socket_connected
    case GlobalSearchQuery => s.global_search_query == t.global_search_query
    case BreadcrumbPath => s.breadcrumb_path == t.breadcrumb_path
    case ActiveNavItem => s.active_nav_item == t.active_nav_item
    case SocketInstance => s.socket_instance == t.socket_instance
  }

  /** The fields an action is declared to write: one for each setter, the list
      and the count for the notification reducers. */
  function Writes(a: Action): set<Field>
  {
    match a
    case SetAuthToken(_) => {AuthToken}
    case SetCurrentUser(_) => {CurrentUser}
    case SetIsAuthenticated(_) => {IsAuthenticated}
    case SetNotificationList(_) => {Notifications, UnreadCount}
    case AddNotification(_) => {Notifications, UnreadCount}
    case MarkNotificationRead(_) => {Notifications, UnreadCount}
    case SetIsSocketConnected(_) => {IsSocketConnected}
    case SetGlobalSearchQuery(_) => {GlobalSearchQuery}
    case SetBreadcrumbPath(_) => {BreadcrumbPath}
    case SetActiveNavItem(_) => {ActiveNavItem}
    case SetSocketInstance(_) => {SocketInstance}
  }

  /** Every reducer leaves each field it does not write as it was. */
  lemma ReduceFrame(s: GlobalState, a: Action)
    ensures forall f: Field :: f !in Writes(a) ==> Same(s, Reduce(s, a), f)
  {
  }

  // ----- the socket lifecycle -----

  /** What the subscription does to the outside world. */
  datatype Effect = Open(socket: Socket) | Close(socket: Socket)

  /** The store together with the number of sockets opened so far (the next serial) and the
      effects performed so far. */
  datatype Client = Client(state: GlobalState, serials: nat, effects: seq<Effect>)

  function InitialClient(): Client
  {
    Client(InitialState(), 0, [])
  }

  /** A socket is held exactly while a token is. */
  predicate Consistent(s: GlobalState)
  {
    s.socket_instance.Some? <==> s.auth_token != ""
  }

  /** The listener run after every dispatch: with a token and no socket it opens
      one authenticated with that token; without a token but with a socket it
      disconnects it and clears the socket and the connected flag. The nested
      dispatches it makes re-run it with nothing left to do (SubscribeIdempotent). */
  function Subscribe(c: Client): (r: Client)
    ensures Consistent(r.state)
    ensures r.state.auth_token == c.state.auth_token
    ensures r.state.notification_list == c.state.notification_list
    ensures r.state.unread_notification_count == c.state.unread_notification_count
    ensures Consistent(c.state) ==> r == c
  {
    var token := c.state.auth_token;
    var socket := c.state.socket_instance;
    if token != "" && socket.None? then
      var next := Socket(c.serials, token);
      Client(Reduce(c.state, SetSocketInstance(Some(next))), c.serials + 1, c.effects + [Open(next)])
    else if token == "" && socket.Some? then
      var s1 := Reduce(c.state, SetSocketInstance(None));
      Client(Reduce(s1, SetIsSocketConnected(false)), c.serials, c.effects + [Close(socket.value)])
    else c
  }

  /** Running the listener again after it has acted changes nothing. */
  lemma SubscribeIdempotent(c: Client)
    ensures Subscribe(Subscribe(c)) == Subscribe(c)
  {
  }

  /** `store.dispatch(a)`: the reducer, then the listener. */
  function Dispatch(c: Client, a: Action): (r: Client)
    ensures Consistent(r.state)
    ensures |c.effects| <= |r.effects| <= |c.effects| + 1 && r.effects[..|c.effects|] == c.effects
  {
    var r := Subscribe(c.(state := Reduce(c.state, a)));
    assert r.effects[..|c.effects|] == c.effects;
    r
  }

  /** Setting a token while no socket exists opens exactly one socket,
      authenticated with that token. */
  lemma LoginOpensOneSocket(c: Client, t: string)
    requires c.state.socket_instance.None? && t != ""
    ensures var r := Dispatch(c, SetAuthToken(t));
            && r.effects == c.effects + [Open(Socket(c.serials, t))]
            && r.state.socket_instance == Some(Socket(c.serials, t))
            && r.serials == c.serials + 1
  {
  }

  /** Switching to another non-empty token while a socket exists opens no new
      socket: the existing one keeps the token it was opened with. */
  lemma TokenChangeKeepsSocket(c: Client, t: string)
    requires c.state.socket_instance.Some? && t != ""
    ensures var r := Dispatch(c, SetAuthToken(t));
            && r.effects == c.effects && r.serials == c.serials
            && r.state.socket_instance == c.state.socket_instance
  {
  }

  /** Clearing the token while a socket exists disconnects that socket and
      resets the socket fields. */
  lemma LogoutClosesSocket(c: Client)
    requires c.state.socket_instance.Some?
    ensures var r := Dispatch(c, SetAuthToken(""));
            && r.effects == c.effects + [Close(c.state.socket_instance.value)]
            && r.state.socket_instance.None? && !r.state.is_socket_connected
  {
  }

  /** Events arriving on the socket. `task_update_event` and `comment_event` are
      only logged to the console. */
  datatype SocketEvent = Connected | Disconnected | NotificationArrived(n: Notification) | TaskUpdated | CommentAdded

  function OnSocketEvent(c: Client, e: SocketEvent): (r: Client)
    ensures Consistent(c.state) ==> Consistent(r.state)
    ensures |c.effects| <= |r.effects| && r.effects[..|c.effects|] == c.effects
  {
    match e
    case Connected => Dispatch(c, SetIsSocketConnected(true))
    case Disconnected => Dispatch(c, SetIsSocketConnected(false))
    case NotificationArrived(n) => Dispatch(c, AddNotification(n))
    case TaskUpdated => c
    case CommentAdded => c
  }

  /** On a consistent client, connect and disconnect set the flag, a
      notification is appended and counted, and the other events change nothing. */
  lemma SocketEventEffects(c: Client, e: SocketEvent)
    requires Consistent(c.state)
    ensures e.Connected? ==> OnSocketEvent(c, e).state == c.state.(is_socket_connected := true)
    ensures e.Disconnected? ==> OnSocketEvent(c, e).state == c.state.(is_socket_connected := false)
    ensures e.NotificationArrived? ==>
              && OnSocketEvent(c, e).state.notification_list == c.state.notification_list + [e.n]
              && OnSocketEvent(c, e).state.unread_notification_count
                   == CountUnread(c.state.notification_list + [e.n])
    ensures (e.TaskUpdated? || e.CommentAdded?) ==> OnSocketEvent(c, e) == c
  {
  }
}

=== FILE: form_keys.dfy ===
/** What the client's forms share: the keys of their validation-error records,
    and the index-based list edits they apply to milestone and subtask lists. */
module FormKeys {
  import opened Text

  /** A key of a form's error record. The indexed keys carry the position of the
      milestone they complain about. */
  datatype ErrKey =
    | Title
    | StartDate
    | EndDate
    | DateOrder
    | Date
    | MilestoneTitle(index: nat)
    | MilestoneDueDate(index: nat)
    | MilestoneAt(index: nat)
    | Submit
    | Api
    | Name
    | FirstName
    | LastName
    | Email
    | InviteEmail
    | NotificationSettings

  /** An error record: key to message. A key is present exactly when the form
      reports that error. */
  type Errors = map<ErrKey, string>

  predicate Indexed(k: ErrKey)
  {
    k.MilestoneTitle? || k.MilestoneDueDate? || k.MilestoneAt?
  }

  /** The property name the record uses for a key, the indexed ones written with
      a template literal. */
  function KeyName(k: ErrKey): (name: string)
    ensures name != [] && (Indexed(k) <==> name[0] == 'm')
  {
    match k
    case Title => "title"
    case StartDate => "start_date"
    case EndDate => "end_date"
    case DateOrder => "date_order"
    case Date => "date"
    case MilestoneTitle(i) => "milestone_title_" + NatToString(i)
    case MilestoneDueDate(i) => "milestone_due_date_" + NatToString(i)
    case MilestoneAt(i) => "milestone_" + NatToString(i)
    case Submit => "submit"
    case Api => "api"
    case Name => "name"
    case FirstName => "first_name"
    case LastName => "last_name"
    case Email => "email"
    case InviteEmail => "invite_email"
    case NotificationSettings => "notification_settings"
  }

  lemma IndexedNamesDiffer(a: ErrKey, b: ErrKey)
    requires Indexed(a) && Indexed(b) && KeyName(a) == KeyName(b)
    ensures a == b
  {
    var n := KeyName(a);
    if a.MilestoneAt? {
      assert '0' <= n[10] <= '9';
      assert b.MilestoneAt?;
      assert n[10..] == NatToString(a.index) == NatToString(b.index);
      NatToStringInjective(a.index, b.index);
    } else if a.MilestoneTitle? {
      assert n[10] == 't';
      assert b.MilestoneTitle?;
      assert n[16..] == NatToString(a.index) == NatToString(b.index);
      NatToStringInjective(a.index, b.index);
    } else {
      assert n[10] == 'd';
      assert b.MilestoneDueDate?;
      assert n[19..] == NatToString(a.index) == NatToString(b.index);
      NatToStringInjective(a.index, b.index);
    }
  }

  /** Distinct keys name distinct properties, so a record keyed by `ErrKey`
      holds what the record keyed by property names holds. */
  lemma KeyNameInjective(a: ErrKey, b: ErrKey)
    requires KeyName(a) == KeyName(b)
    ensures a == b
  {
    if Indexed(a) {
      IndexedNamesDiffer(a, b);
    }
  }

  // ----- list edits -----

  /** `list.filter((_, j) => j !== i)`: drops position `i` if there is one. */
  function RemoveAt<T>(s: seq<T>, i: int): (r: seq<T>)
    ensures 0 <= i < |s| ==> r == s[..i] + s[i + 1..]
    ensures !(0 <= i < |s|) ==> r == s
  {
    if s == [] then []
    else
      var rest := RemoveAt(s[1..], i - 1);
      var r := (if i == 0 then [] else [s[0]]) + rest;
      assert 0 < i < |s| ==> r == s[..i] + s[i + 1..] by {
        if 0 < i < |s| {
          assert s[1..][..i - 1] == s[1..i];
          assert s[1..][i..] == s[i + 1..];
          assert [s[0]] + s[1..i] == s[..i];
        }
      }
      assert !(0 <= i < |s|) ==> r == s by {
        if !(0 <= i < |s|) {
          assert [s[0]] + s[1..] == s;
        }
      }
      r
  }

  /** `list.splice(i, 1)` on a copy, for a position the view supplies. */
  function Splice<T>(s: seq<T>, i: nat): seq<T>
  {
    if i < |s| then s[..i] + s[i + 1..] else s
  }

  /** Splicing one element out and filtering its index out agree. */
  lemma SpliceIsRemoveAt<T>(s: seq<T>, i: nat)
    ensures Splice(s, i) == RemoveAt(s, i)
  {
  }

  /** After an append, removing the new last element gives the list back. */
  lemma RemoveAppended<T>(s: seq<T>, x: T)
    ensures RemoveAt(s + [x], |s|) == s
  {
    assert (s + [x])[..|s|] == s;
  }
}

=== FILE: ordering.dfy ===
/** `ORDER BY <text column> [DESC]`: a stable insertion sort on a string key, with
    the order a sorted result satisfies and the fact that no row is lost or added. */
module Ordering {
  import opened Text

  /** Whether a row keyed `x` may precede a row keyed `y` in the requested direction. */
  predicate InOrder(desc: bool, x: string, y: string)
  {
    if desc then !StrLess(x, y) else !StrLess(y, x)
  }

  lemma InOrderTotal(desc: bool, x: string, y: string)
    ensures InOrder(desc, x, y) || InOrder(desc, y, x)
  {
    if StrLess(x, y) && StrLess(y, x) {
      StrLessTransitive(x, y, x);
      StrLessIrreflexive(x);
    }
  }

  lemma InOrderTransitive(desc: bool, x: string, y: string, z: string)
    requires InOrder(desc, x, y) && InOrder(desc, y, z)
    ensures InOrder(desc, x, z)
  {
    if desc && StrLess(x, z) {
      if x == y {
      } else {
        StrLessTotal(x, y);
        StrLessTransitive(y, x, z);
      }
    } else if !desc && StrLess(z, x) {
      if x == y {
      } else {
        StrLessTotal(x, y);
        StrLessTransitive(z, x, y);
      }
    }
  }

  /** Each row may precede its successor. */
  ghost predicate AdjacentSorted<T>(xs: seq<T>, key: T -> string, desc: bool)
  {
    forall i :: 0 <= i < |xs| - 1 ==> InOrder(desc, key(xs[i]), key(xs[i + 1]))
  }

  /** Every row may precede every later row: the promise of ORDER BY. */
  ghost predicate Sorted<T>(xs: seq<T>, key: T -> string, desc: bool)
  {
    forall i, j :: 0 <= i < j < |xs| ==> InOrder(desc, key(xs[i]), key(xs[j]))
  }

  /** A row that may precede the head of a sorted list extends it. */
  lemma ConsSorted<T>(y: T, rest: seq<T>, key: T -> string, desc: bool)
    requires AdjacentSorted(rest, key, desc)
    requires rest == [] || InOrder(desc, key(y), key(rest[0]))
    ensures AdjacentSorted([y] + rest, key, desc)
  {
    var r := [y] + rest;
    forall i | 0 <= i < |r| - 1 ensures InOrder(desc, key(r[i]), key(r[i + 1])) {
      if i > 0 {
        assert r[i] == rest[i - 1] && r[i + 1] == rest[i];
      }
    }
  }

  /** Places `x` before the first row it may precede. */
  function Insert<T(==)>(x: T, xs: seq<T>, key: T -> string, desc: bool): (r: seq<T>)
    requires AdjacentSorted(xs, key, desc)
    ensures multiset(r) == multiset(xs) + multiset{x}
    ensures AdjacentSorted(r, key, desc)
    ensures |r| == |xs| + 1
    ensures r[0] == x || (|xs| > 0 && r[0] == xs[0])
  {
    if xs == [] then [x]
    else if InOrder(desc, key(x), key(xs[0])) then
      ConsSorted(x, xs, key, desc);
      [x] + xs
    else
      InOrderTotal(desc, key(x), key(xs[0]));
      var tail := xs[1..];
      assert AdjacentSorted(tail, key, desc) by {
        forall i | 0 <= i < |tail| - 1 ensures InOrder(desc, key(tail[i]), key(tail[i + 1])) {
          assert tail[i] == xs[i + 1] && tail[i + 1] == xs[i + 2];
        }
      }
      var rest := Insert(x, tail, key, desc);
      ConsSorted(xs[0], rest, key, desc);
      assert xs == [xs[0]] + tail;
      [xs[0]] + rest
  }

  /** The rows of `xs` rearranged into the requested order. */
  function SortBy<T(==)>(xs: seq<T>, key: T -> string, desc: bool): (r: seq<T>)
    ensures multiset(r) == multiset(xs)
    ensures AdjacentSorted(r, key, desc)
  {
    if xs == [] then []
    else
      assert xs == [xs[0]] + xs[1..];
      Insert(xs[0], SortBy(xs[1..], key, desc), key, desc)
  }

  /** Neighbour-by-neighbour order gives the order between any two rows. */
  lemma {:induction false} AdjacentSortedIsSorted<T>(xs: seq<T>, key: T -> string, desc: bool)
    requires AdjacentSorted(xs, key, desc)
    ensures Sorted(xs, key, desc)
  {
    forall i, j | 0 <= i < j < |xs|
      ensures InOrder(desc, key(xs[i]), key(xs[j]))
    {
      ChainInOrder(xs, key, desc, i, j);
    }
  }

  lemma {:induction false} ChainInOrder<T>(xs: seq<T>, key: T -> string, desc: bool, i: nat, j: nat)
    requires AdjacentSorted(xs, key, desc)
    requires i < j < |xs|
    ensures InOrder(desc, key(xs[i]), key(xs[j]))
    decreases j - i
  {
    if j > i + 1 {
      ChainInOrder(xs, key, desc, i + 1, j);
      InOrderTransitive(desc, key(xs[i]), key(xs[i + 1]), key(xs[j]));
    }
  }

  /** Sorting keeps exactly the rows it was given and puts them in order. */
  lemma SortBySpec<T>(xs: seq<T>, key: T -> string, desc: bool)
    ensures Sorted(SortBy(xs, key, desc), key, desc)
    ensures multiset(SortBy(xs, key, desc)) == multiset(xs)
    ensures forall x :: x in SortBy(xs, key, desc) <==> x in xs
  {
    var r := SortBy(xs, key, desc);
    AdjacentSortedIsSorted(r, key, desc);
    forall x ensures x in r <==> x in xs {
      assert x in r <==> x in multiset(r);
      assert x in xs <==> x in multiset(xs);
    }
  }
}

=== FILE: project_forms.dfy ===
/** The create-project and edit-project modals: their form records, the
    validation that decides whether a request is sent, and the milestone list
    editors. */
module ProjectForms {
  import opened Wrappers
  import opened Text
  import opened Tables
  import opened Schema
  import opened FormKeys
  import Api
  import ApiProps

  /** A milestone row of the form. Rows prefilled from the server may carry a
      null description. */
  datatype MilestoneForm = MilestoneForm(title: string, due_date: string, description: Option<string>)

  datatype ProjectForm = ProjectForm(
    title: string,
    description: string,
    start_date: string,
    end_date: string,
    milestones: seq<MilestoneForm>)

  const EmptyMilestone: MilestoneForm := MilestoneForm("", "", Some(""))

  const EmptyProjectForm: ProjectForm := ProjectForm("", "", "", "", [])

  // ----- milestone list editors (both modals) -----

  /** The "Add Milestone" button. */
  function AddMilestone(f: ProjectForm): (r: ProjectForm)
    ensures r == f.(milestones := r.milestones)
    ensures |r.milestones| == |f.milestones| + 1
    ensures r.milestones[..|f.milestones|] == f.milestones
    ensures r.milestones[|f.milestones|] == EmptyMilestone
  {
    f.(milestones := f.milestones + [EmptyMilestone])
  }

  /** The "Remove" button of milestone `i`. */
  function RemoveMilestone(f: ProjectForm, i: nat): (r: ProjectForm)
    ensures r == f.(milestones := RemoveAt(f.milestones, i))
  {
    f.(milestones := RemoveAt(f.milestones, i))
  }

  /** Removing the milestone just added restores the form. */
  lemma AddThenRemove(f: ProjectForm)
    ensures RemoveMilestone(AddMilestone(f), |f.milestones|) == f
  {
    RemoveAppended(f.milestones, EmptyMilestone);
  }

  /** Removing an existing milestone shortens the list by one and keeps the
      others in order. */
  lemma RemoveMilestoneKeepsOthers(f: ProjectForm, i: nat)
    requires i < |f.milestones|
    ensures |RemoveMilestone(f, i).milestones| == |f.milestones| - 1
    ensures forall j :: 0 <= j < i ==> RemoveMilestone(f, i).milestones[j] == f.milestones[j]
    ensures forall j :: i <= j < |f.milestones| - 1 ==> RemoveMilestone(f, i).milestones[j] == f.milestones[j + 1]
  {
  }

  datatype MilestoneField = TitleField | DueDateField | DescriptionField

  /** `handleMilestoneChange(i, field, value)`. */
  function ChangeMilestone(f: ProjectForm, i: nat, field: MilestoneField, value: string): (r: ProjectForm)
    requires i < |f.milestones|
    ensures r == f.(milestones := r.milestones)
    ensures |r.milestones| == |f.milestones|
    ensures forall j :: 0 <= j < |f.milestones| && j != i ==> r.milestones[j] == f.milestones[j]
    ensures var old_, new_ := f.milestones[i], r.milestones[i];
            match field
            case TitleField => new_ == old_.(title := value)
            case DueDateField => new_ == old_.(due_date := value)
            case DescriptionField => new_ == old_.(description := Some(value))
  {
    var m := f.milestones[i];
    var m' := match field
      case TitleField => m.(title := value)
      case DueDateField => m.(due_date := value)
      case DescriptionField => m.(description := Some(value));
    f.(milestones := f.milestones[i := m'])
  }

  // ----- the create-project validation -----

  /** Which errors the create form reports, stated key by key. */
  predicate CreateViolation(f: ProjectForm, k: ErrKey)
  {
    CreateHeaderViolation(f, k) || CreateMilestoneViolation(f.milestones, 0, k)
  }

  /** The errors about the title and the dates. */
  predicate CreateHeaderViolation(f: ProjectForm, k: ErrKey)
  {
    || (k == Title && IsBlank(f.title))
    || (k == StartDate && f.start_date == "")
    || (k == EndDate && f.end_date == "")
    || (k == DateOrder && f.start_date != "" && f.end_date != "" && StrLess(f.end_date, f.start_date))
  }

  function CreateMessage(k: ErrKey): string
  {
    match k
    case Title => "Project title is required"
    case StartDate => "Start date is required"
    case EndDate => "End date is required"
    case DateOrder => "Start date cannot be later than end date"
    case MilestoneTitle(_) => "Milestone title is required"
    case MilestoneDueDate(_) => "Milestone due date is required"
    case _ => ""
  }

  /** The errors the create form reports about milestone rows from `i` on. */
  predicate CreateMilestoneViolation(ms: seq<MilestoneForm>, i: nat, k: ErrKey)
  {
    || (k.MilestoneTitle? && i <= k.index < |ms| && IsBlank(ms[k.index].title))
    || (k.MilestoneDueDate? && i <= k.index < |ms| && ms[k.index].due_date == "")
  }

  /** Every message of the record is the create form's message for its key. */
  predicate CreateMessages(errs: Errors)
  {
    forall k :: k in errs ==> errs[k] == CreateMessage(k)
  }

  /** `if (cond) newErrors[k] = <message>`. */
  function AddIf(errs: Errors, k: ErrKey, cond: bool): (r: Errors)
    requires CreateMessages(errs)
    ensures forall j :: j in r <==> j in errs || (cond && j == k)
    ensures CreateMessages(r)
  {
    if cond then errs[k := CreateMessage(k)] else errs
  }

  /** The checks of one milestone row, added to `errs`. */
  function CreateMilestoneCheck(m: MilestoneForm, i: nat, errs: Errors): (r: Errors)
    requires CreateMessages(errs)
    ensures forall k :: k in r <==>
              k in errs || (k == MilestoneTitle(i) && IsBlank(m.title)) || (k == MilestoneDueDate(i) && m.due_date == "")
    ensures CreateMessages(r)
  {
    AddIf(AddIf(errs, MilestoneTitle(i), IsBlank(m.title)), MilestoneDueDate(i), m.due_date == "")
  }

  /** The per-milestone loop from position `i` on, adding to `errs`. */
  function CreateMilestoneChecks(ms: seq<MilestoneForm>, i: nat, errs: Errors): (r: Errors)
    requires i <= |ms| && CreateMessages(errs)
    ensures forall k :: k in r <==> k in errs || CreateMilestoneViolation(ms, i, k)
    ensures CreateMessages(r)
    decreases |ms| - i
  {
    if i == |ms| then errs
    else
      var e2 := CreateMilestoneCheck(ms[i], i, errs);
      CreateMilestoneChecks(ms, i + 1, e2)
  }

  /** The checks of the title and the dates, in the order `validateForm` runs them. */
  function CreateHeaderErrors(f: ProjectForm): (errs: Errors)
    ensures forall k :: k in errs <==> CreateHeaderViolation(f, k)
    ensures CreateMessages(errs)
  {
    var e1 := AddIf(map[], Title, IsBlank(f.title));
    var e2 := AddIf(e1, StartDate, f.start_date == "");
    var e3 := AddIf(e2, EndDate, f.end_date == "");
    AddIf(e3, DateOrder, f.start_date != "" && f.end_date != "" && StrLess(f.end_date, f.start_date))
  }

  /** `validateForm` of the create modal: the error record it builds. */
  function CreateErrors(f: ProjectForm): (errs: Errors)
    ensures forall k :: k in errs <==> CreateViolation(f, k)
    ensures forall k :: k in errs ==> errs[k] == CreateMessage(k)
  {
    CreateMilestoneChecks(f.milestones, 0, CreateHeaderErrors(f))
  }

  /** The create form in words: a title, both dates in order, and every
      milestone with a title and a due date. */
  predicate CreateValid(f: ProjectForm)
  {
    && !IsBlank(f.title) && f.start_date != "" && f.end_date != ""
    && !StrLess(f.end_date, f.start_date)
    && forall i :: 0 <= i < |f.milestones| ==> !IsBlank(f.milestones[i].title) && f.milestones[i].due_date != ""
  }

  /** Any reported error names a rule the form breaks. */
  lemma ViolationBreaksValid(f: ProjectForm, k: ErrKey)
    requires CreateViolation(f, k)
    ensures !CreateValid(f)
  {
    if CreateMilestoneViolation(f.milestones, 0, k) {
      var i := k.index;
      assert !IsBlank(f.milestones[i].title) && f.milestones[i].due_date != "" ==> false;
    }
  }

  /** `validateForm()` is true exactly when the record is empty, which is exactly
      when the form is valid. */
  lemma CreateErrorsEmptyIffValid(f: ProjectForm)
    ensures CreateErrors(f) == map[] <==> CreateValid(f)
  {
    var errs := CreateErrors(f);
    if errs == map[] {
      NoErrorsValid(f);
    } else {
      var k :| k in errs;
      ViolationBreaksValid(f, k);
    }
  }

  lemma NoErrorsValid(f: ProjectForm)
    ensures CreateErrors(f) == map[] ==> CreateValid(f)
  {
    if CreateErrors(f) == map[] {
      var errs := CreateErrors(f);
      assert Title !in errs && StartDate !in errs && EndDate !in errs && DateOrder !in errs;
      forall i | 0 <= i < |f.milestones|
        ensures !IsBlank(f.milestones[i].title) && f.milestones[i].due_date != ""
      {
        NoMilestoneErrors(f, i);
      }
    }
  }

  lemma NoMilestoneErrors(f: ProjectForm, i: nat)
    requires i < |f.milestones|
    ensures CreateErrors(f) == map[] ==> !IsBlank(f.milestones[i].title) && f.milestones[i].due_date != ""
  {
    var errs := CreateErrors(f);
    assert MilestoneTitle(i) !in errs <==> !CreateMilestoneViolation(f.milestones, 0, MilestoneTitle(i));
    assert MilestoneDueDate(i) !in errs <==> !CreateMilestoneViolation(f.milestones, 0, MilestoneDueDate(i));
  }

  /** Equal start and end dates are accepted. */
  lemma SameDayAccepted(f: ProjectForm)
    requires f.start_date == f.end_date
    ensures DateOrder !in CreateErrors(f)
  {
    StrLessIrreflexive(f.start_date);
    assert !CreateHeaderViolation(f, DateOrder);
    assert !CreateMilestoneViolation(f.milestones, 0, DateOrder);
  }

  /** The create modal's submit: no request unless the form is valid, and then
      the whole form is posted. */
  function SubmitCreate(f: ProjectForm): (r: (Errors, Option<ProjectForm>))
    ensures r.0 == CreateErrors(f)
    ensures r.1.Some? <==> CreateValid(f)
    ensures r.1.Some? ==> r.1.value == f
  {
    var errs := CreateErrors(f);
    CreateErrorsEmptyIffValid(f);
    (errs, if |errs| == 0 then Some(f) else None)
  }

  // ----- the edit-project validation -----

  /** `new Date(s)`: the instant a date string denotes, or None for an
      invalid date (whose comparisons are all false). */
  type DateParser = string -> Option<int>

  /** Which errors the edit form reports: its own keys, no due-date check. */
  predicate EditViolation(f: ProjectForm, parse: DateParser, k: ErrKey)
  {
    EditHeaderViolation(f, parse, k) || EditMilestoneViolation(f.milestones, 0, k)
  }

  predicate EditHeaderViolation(f: ProjectForm, parse: DateParser, k: ErrKey)
  {
    || (k == Title && IsBlank(f.title))
    || (k == StartDate && f.start_date == "")
    || (k == EndDate && f.end_date == "")
    || (k == Date && EditDatesOutOfOrder(f, parse))
  }

  /** `new Date(start) > new Date(end)` with both dates filled in. */
  predicate EditDatesOutOfOrder(f: ProjectForm, parse: DateParser)
  {
    && f.start_date != "" && f.end_date != ""
    && parse(f.start_date).Some? && parse(f.end_date).Some?
    && parse(f.start_date).value > parse(f.end_date).value
  }

  predicate EditMilestoneViolation(ms: seq<MilestoneForm>, i: nat, k: ErrKey)
  {
    k.MilestoneAt? && i <= k.index < |ms| && IsBlank(ms[k.index].title)
  }

  function EditMilestoneCheck(m: MilestoneForm, i: nat, errs: Errors): (r: Errors)
    ensures forall k :: k in r <==> k in errs || (k == MilestoneAt(i) && IsBlank(m.title))
  {
    if IsBlank(m.title) then errs[MilestoneAt(i) := "Milestone title is required."] else errs
  }

  function EditMilestoneChecks(ms: seq<MilestoneForm>, i: nat, errs: Errors): (r: Errors)
    requires i <= |ms|
    ensures forall k :: k in r <==> k in errs || EditMilestoneViolation(ms, i, k)
    decreases |ms| - i
  {
    if i == |ms| then errs
    else
      var e := EditMilestoneCheck(ms[i], i, errs);
      var r := EditMilestoneChecks(ms, i + 1, e);
      r
  }

  /** `if (cond) newErrors[k] = message`. */
  function PutIf(errs: Errors, k: ErrKey, message: string, cond: bool): (r: Errors)
    ensures forall j :: j in r <==> j in errs || (cond && j == k)
    ensures cond ==> r[k] == message
  {
    if cond then errs[k := message] else errs
  }

  /** The title and date checks at the top of `submitProjectUpdate`. */
  function EditHeaderErrors(f: ProjectForm, parse: DateParser): (errs: Errors)
    ensures forall k :: k in errs <==> EditHeaderViolation(f, parse, k)
  {
    var e1 := PutIf(map[], Title, "Title is required.", IsBlank(f.title));
    var e2 := PutIf(e1, StartDate, "Start date is required.", f.start_date == "");
    var e3 := PutIf(e2, EndDate, "End date is required.", f.end_date == "");
    PutIf(e3, Date, "Start date must be before end date.", EditDatesOutOfOrder(f, parse))
  }

  /** The checks of `submitProjectUpdate`. */
  function EditErrors(f: ProjectForm, parse: DateParser): (errs: Errors)
    ensures forall k :: k in errs <==> EditViolation(f, parse, k)
  {
    EditMilestoneChecks(f.milestones, 0, EditHeaderErrors(f, parse))
  }

  /** The edit form never reports the create form's date-order or milestone
      keys: a milestone without a due date passes. */
  lemma EditKeysDiffer(f: ProjectForm, parse: DateParser, i: nat)
    ensures DateOrder !in EditErrors(f, parse)
    ensures MilestoneDueDate(i) !in EditErrors(f, parse) && MilestoneTitle(i) !in EditErrors(f, parse)
  {
    assert !EditHeaderViolation(f, parse, DateOrder) && !EditMilestoneViolation(f.milestones, 0, DateOrder);
    assert !EditHeaderViolation(f, parse, MilestoneDueDate(i));
    assert !EditMilestoneViolation(f.milestones, 0, MilestoneDueDate(i));
    assert !EditHeaderViolation(f, parse, MilestoneTitle(i));
    assert !EditMilestoneViolation(f.milestones, 0, MilestoneTitle(i));
  }

  /** Milestone `i` is reported under `milestone_<i>` exactly when its title is blank. */
  lemma EditMilestoneKey(f: ProjectForm, parse: DateParser, i: nat)
    requires i < |f.milestones|
    ensures MilestoneAt(i) in EditErrors(f, parse) <==> IsBlank(f.milestones[i].title)
  {
    assert !EditHeaderViolation(f, parse, MilestoneAt(i));
    assert EditMilestoneViolation(f.milestones, 0, MilestoneAt(i)) <==> IsBlank(f.milestones[i].title);
  }

  /** The PUT body of the edit modal. */
  datatype ProjectUpdate = ProjectUpdate(
    title: string,
    description: string,
    start_date: string,
    end_date: string,
    milestones: seq<MilestoneForm>)

  /** Any error blocks the PUT; a valid form sends the whole milestone list. */
  function SubmitEdit(f: ProjectForm, parse: DateParser): (r: (Errors, Option<ProjectUpdate>))
    ensures r.1.Some? <==> EditErrors(f, parse) == map[]
    ensures r.1.None? ==> r.0 == EditErrors(f, parse)
    ensures r.1.Some? ==>
              && r.0 == map[]
              && r.1.value.title == f.title && r.1.value.description == f.description
              && r.1.value.start_date == f.start_date && r.1.value.end_date == f.end_date
              && r.1.value.milestones == f.milestones
  {
    var errs := EditErrors(f, parse);
    if |errs| > 0 then (errs, None)
    else (map[], Some(ProjectUpdate(f.title, f.description, f.start_date, f.end_date, f.milestones)))
  }

  /** The milestone input the server reads from a form row. */
  function AsInput(m: MilestoneForm): Api.MilestoneInput
  {
    Api.MilestoneInput(m.title, m.due_date, m.description)
  }

  function AsInputs(ms: seq<MilestoneForm>): (r: seq<Api.MilestoneInput>)
    ensures |r| == |ms|
    ensures forall i :: 0 <= i < |ms| ==> r[i] == AsInput(ms[i])
  {
    if ms == [] then [] else [AsInput(ms[0])] + AsInputs(ms[1..])
  }

  /** The patch the server receives from a valid edit: every field supplied,
      milestones included, so the project's milestone set is replaced. */
  function AsPatch(u: ProjectUpdate): (p: Api.ProjectPatch)
    ensures p.milestones == Some(AsInputs(u.milestones))
  {
    Api.ProjectPatch(Some(u.title), Some(u.description), Some(u.start_date), Some(u.end_date),
                     Some(AsInputs(u.milestones)))
  }

  /** The update a valid edit sends replaces the project's milestones on the
      server by exactly the form's rows (`SubmitEdit` sends them all), in form
      order, an empty description stored as null; an edit with no rows leaves
      the project with none. */
  lemma EditReplacesMilestones(u: ProjectUpdate, s: Store, cr: Crypto, env: Env,
                               header: Option<string>, pid: string)
    requires Api.Authenticate(cr, header).Authorized? && HasKey(s.projects, Api.ProjectId, pid)
    requires Api.FreshIds(env.uuid, 0, |u.milestones|, s.milestones)
    ensures var r := Api.UpdateProject(s, cr, env, header, pid, AsPatch(u));
            var ms := Api.MilestonesOf(r.store.milestones, pid);
            && r.response.status == 200
            && |ms| == |u.milestones|
            && forall i :: 0 <= i < |ms| ==>
                 && ms[i].title == u.milestones[i].title
                 && ms[i].due_date == u.milestones[i].due_date
                 && ms[i].description == OrNull(u.milestones[i].description)
  {
    var patch := AsPatch(u);
    ApiProps.UpdateProjectReplacesMilestones(s, cr, env, header, pid, patch);
    var ms := Api.MilestonesOf(Api.UpdateProject(s, cr, env, header, pid, patch).store.milestones, pid);
    forall i | 0 <= i < |ms|
      ensures ms[i] == Api.MilestoneRow(env.uuid(i), pid, AsInput(u.milestones[i]))
    {
      assert patch.milestones.value[i] == AsInput(u.milestones[i]);
    }
  }

  // ----- the edit-project prefill -----

  /** The fetch that fills the form runs only while the modal is open, a project
      id is in the path and the title is still empty. */
  predicate ShouldPrefill(isOpen: bool, project_id: Option<string>, f: ProjectForm)
  {
    isOpen && Truthy(project_id) && f.title == ""
  }

  function ProjectWithId(id: string): ProjectView -> bool
  {
    (v: ProjectView) => v.project.id == id
  }

  function FormOfMilestone(m: Milestone): MilestoneForm
  {
    MilestoneForm(m.title, m.due_date, m.description)
  }

  function FormsOfMilestones(ms: seq<Milestone>): (r: seq<MilestoneForm>)
    ensures |r| == |ms|
    ensures forall i :: 0 <= i < |ms| ==> r[i] == FormOfMilestone(ms[i])
  {
    if ms == [] then [] else [FormOfMilestone(ms[0])] + FormsOfMilestones(ms[1..])
  }

  /** The form built from the first listed project with the id; None (form left
      as it was) when the list has no such project. */
  function Prefill(list: seq<ProjectView>, id: string): (r: Option<ProjectForm>)
    ensures r.None? <==> forall i :: 0 <= i < |list| ==> list[i].project.id != id
    ensures r.Some? ==>
              exists i :: 0 <= i < |list| && list[i].project.id == id
                && (forall j :: 0 <= j < i ==> list[j].project.id != id)
                && r.value.title == list[i].project.title
                && r.value.start_date == list[i].project.start_date
                && r.value.end_date == list[i].project.end_date
                && r.value.description == list[i].project.description.GetOr("")
                && r.value.milestones == FormsOfMilestones(list[i].milestones)
  {
    match FirstWhere(list, ProjectWithId(id))
    case None => None
    case Some(k) =>
      var p := list[k];
      Some(ProjectForm(p.project.title, p.project.description.GetOr(""), p.project.start_date,
                       p.project.end_date, FormsOfMilestones(p.milestones)))
  }

  /** The effect on the form: refilled when the fetch runs and finds the
      project, left as it was otherwise. */
  function OpenPrefill(isOpen: bool, project_id: Option<string>, f: ProjectForm,
                       list: seq<ProjectView>): (r: ProjectForm)
    ensures !ShouldPrefill(isOpen, project_id, f) ==> r == f
    ensures ShouldPrefill(isOpen, project_id, f) && Prefill(list, project_id.value).None? ==> r == f
    ensures ShouldPrefill(isOpen, project_id, f) && Prefill(list, project_id.value).Some? ==>
              r == Prefill(list, project_id.value).value
  {
    if ShouldPrefill(isOpen, project_id, f) then
      match Prefill(list, project_id.value)
      case None => f
      case Some(g) => g
    else f
  }

  /** App.tsx mounts the modal after its `<Routes>`, where `useParams` supplies
      no `project_id`: as mounted, the modal never prefills. */
  lemma MountedModalNeverPrefills(isOpen: bool, f: ProjectForm, list: seq<ProjectView>)
    ensures OpenPrefill(isOpen, None, f, list) == f
  {
  }

  /** As mounted, the modal's PUT goes to `/api/projects/undefined`. Unless a
      project bears that id, the server answers 500, changes no project and
      leaves every other project's milestones alone. */
  lemma MountedEditFails(u: ProjectUpdate, s: Store, cr: Crypto, env: Env, header: Option<string>)
    requires Api.Authenticate(cr, header).Authorized? && !HasKey(s.projects, Api.ProjectId, "undefined")
    ensures var r := Api.UpdateProject(s, cr, env, header, "undefined", AsPatch(u));
            && r.response == Api.ServerError("Failed to update project")
            && r.store.projects == s.projects
            && Where(r.store.milestones, Api.MilestoneElsewhere("undefined"))
                 == Where(s.milestones, Api.MilestoneElsewhere("undefined"))
  {
    var r := Api.UpdateProject(s, cr, env, header, "undefined", AsPatch(u));
    forall i | 0 <= i < |s.projects|
      ensures r.store.projects[i] == s.projects[i]
    {
      assert Api.ProjectId(s.projects[i]) != "undefined";
    }
  }

  /** The prefill fetch asks for the unarchived listing, so the form of an
      archived project is never filled. */
  lemma ArchivedNeverPrefills(s: Store, cr: Crypto, header: Option<string>, pid: string)
    requires Api.Authenticate(cr, header).Authorized?
    requires forall p :: p in s.projects && p.id == pid ==> p.archived != 0
    ensures Prefill(Api.ListProjects(s, cr, header, Some(0)).body.projects, pid).None?
  {
    var views := Api.ListProjects(s, cr, header, Some(0)).body.projects;
    forall i | 0 <= i < |views|
      ensures views[i].project.id != pid
    {
      assert Api.ProjectsOf(views)[i] == views[i].project;
      assert views[i].project in Api.ProjectsOf(views);
    }
  }
}

=== FILE: routes.dfy ===
/** Client-side paths: the breadcrumb trail computed from a pathname, when the
    trail is shown, which page a path renders, and where notifications and the
    navigation bar lead. */
module Routes {
  import opened Wrappers
  import opened Text
  import opened Schema
  import opened ClientStore
  import opened Tables

  const DashboardCrumb: Crumb := Crumb("Dashboard", "/dashboard")

  // ----- the breadcrumb trail -----

  /** The trail the breadcrumb bar stores for a pathname. */
  function Breadcrumbs(path: string): (crumbs: seq<Crumb>)
    ensures crumbs == [] <==> !StartsWith(path, "/profile") && !StartsWith(path, "/projects/")
    ensures crumbs != [] ==> crumbs[0] == DashboardCrumb && 2 <= |crumbs| <= 3
    ensures StartsWith(path, "/profile") ==> crumbs == [DashboardCrumb, Crumb("Profile", "/profile")]
    ensures StartsWith(path, "/projects/") && !StartsWith(path, "/profile") ==> crumbs[|crumbs| - 1].url == path
  {
    if StartsWith(path, "/profile") then [DashboardCrumb, Crumb("Profile", "/profile")]
    else if StartsWith(path, "/projects/") then
      var seg := Segments(path);
      if |seg| == 2 then [DashboardCrumb, Crumb("Project " + seg[1], path)]
      else if |seg| == 4 && seg[2] == "tasks" then
        [DashboardCrumb, Crumb("Project " + seg[1], "/projects/" + seg[1]), Crumb("Task " + seg[3], path)]
      else [DashboardCrumb, Crumb(path, path)]
    else []
  }

  /** `/projects/<p>` as the client builds it. */
  function ProjectPath(p: string): string
  {
    "/projects/" + p
  }

  /** `/projects/<p>/tasks/<t>` as the client builds it. */
  function TaskPath(p: string, t: string): string
  {
    "/projects/" + p + "/tasks/" + t
  }

  /** A segment-free word splits to itself. */
  lemma SegmentsOfWord(w: string)
    requires '/' !in w
    ensures Segments(w) == if w == "" then [] else [w]
  {
  }

  /** A leading part and a '/' contribute that part, if non-empty, and then the
      rest's segments. */
  lemma SegmentsCons(a: string, rest: string)
    requires '/' !in a
    ensures Segments(a + "/" + rest) == (if a == "" then [] else [a]) + Segments(rest)
  {
    SplitCons(a, '/', rest);
    var parts := [a] + Split(rest, '/');
    assert parts[1..] == Split(rest, '/');
  }

  /** `/<w>/<p>/` followed by `rest` has segments w, p, then those of `rest`. */
  lemma {:induction false} TwoSegmentsThen(w: string, p: string, rest: string)
    requires w != "" && '/' !in w && p != "" && '/' !in p
    ensures Segments("/" + w + "/" + p + "/" + rest) == [w, p] + Segments(rest)
  {
    var inner := p + "/" + rest;
    var mid := w + "/" + inner;
    assert "/" + w + "/" + p + "/" + rest == "" + "/" + mid;
    SegmentsCons(p, rest);
    SegmentsCons(w, inner);
    SegmentsCons("", mid);
  }

  /** `/projects/<p>` followed by `rest` has segments "projects", p, then
      those of `rest`. */
  lemma {:induction false} ProjectPathThen(p: string, rest: string)
    requires p != "" && '/' !in p
    ensures Segments(ProjectPath(p) + "/" + rest) == ["projects", p] + Segments(rest)
  {
    assert "/" + "projects" + "/" == "/projects/";
    assert ProjectPath(p) + "/" + rest == "/" + "projects" + "/" + p + "/" + rest;
    TwoSegmentsThen("projects", p, rest);
  }

  lemma {:induction false} ProjectPathSegments(p: string)
    requires p != "" && '/' !in p
    ensures Segments(ProjectPath(p)) == ["projects", p]
  {
    var mid := "projects" + "/" + p;
    assert ProjectPath(p) == "" + "/" + mid;
    SegmentsOfWord(p);
    SegmentsCons("projects", p);
    assert Segments(mid) == ["projects", p];
    SegmentsCons("", mid);
    assert Segments("" + "/" + mid) == Segments(mid);
  }

  lemma {:induction false} ProjectSlashSegments(p: string)
    requires p != "" && '/' !in p
    ensures Segments(ProjectPath(p) + "/") == ["projects", p]
  {
    ProjectPathThen(p, "");
    SegmentsOfWord("");
    assert ProjectPath(p) + "/" == ProjectPath(p) + "/" + "";
  }

  lemma {:induction false} GanttPathSegments(p: string)
    requires p != "" && '/' !in p
    ensures Segments(ProjectPath(p) + "/gantt") == ["projects", p, "gantt"]
  {
    assert ProjectPath(p) + "/gantt" == ProjectPath(p) + "/" + "gantt";
    ProjectPathThen(p, "gantt");
    SegmentsOfWord("gantt");
    assert Segments("gantt") == ["gantt"];
  }

  lemma {:induction false} TaskPathSegments(p: string, t: string)
    requires p != "" && '/' !in p && t != "" && '/' !in t
    ensures Segments(TaskPath(p, t)) == ["projects", p, "tasks", t]
  {
    assert TaskPath(p, t) == ProjectPath(p) + "/" + ("tasks" + "/" + t);
    ProjectPathThen(p, "tasks" + "/" + t);
    SegmentsCons("tasks", t);
    SegmentsOfWord(t);
  }

  lemma ProjectPathPrefix(p: string, rest: string)
    ensures StartsWith(ProjectPath(p) + rest, "/projects/")
    ensures !StartsWith(ProjectPath(p) + rest, "/profile")
  {
    var s := ProjectPath(p) + rest;
    assert s[..10] == "/projects/";
    assert s[4] == 'j';
  }

  /** A project page's trail names the project and links to the page itself,
      with or without a trailing slash. */
  lemma {:induction false} ProjectPageCrumbs(p: string)
    requires p != "" && '/' !in p
    ensures Breadcrumbs(ProjectPath(p)) == [DashboardCrumb, Crumb("Project " + p, ProjectPath(p))]
    ensures Breadcrumbs(ProjectPath(p) + "/") == [DashboardCrumb, Crumb("Project " + p, ProjectPath(p) + "/")]
  {
    ProjectPathPrefix(p, "");
    assert ProjectPath(p) + "" == ProjectPath(p);
    ProjectPathPrefix(p, "/");
    ProjectPathSegments(p);
    ProjectSlashSegments(p);
  }

  /** A task page's trail has three crumbs: the project crumb links to the
      project page and the last one to the task page. */
  lemma {:induction false} TaskPageCrumbs(p: string, t: string)
    requires p != "" && '/' !in p && t != "" && '/' !in t
    ensures Breadcrumbs(TaskPath(p, t))
              == [DashboardCrumb, Crumb("Project " + p, ProjectPath(p)), Crumb("Task " + t, TaskPath(p, t))]
  {
    assert TaskPath(p, t) == ProjectPath(p) + ("/tasks/" + t);
    ProjectPathPrefix(p, "/tasks/" + t);
    TaskPathSegments(p, t);
  }

  /** A Gantt path matches neither pattern and falls back to the raw pathname. */
  lemma {:induction false} GanttPageCrumbs(p: string)
    requires p != "" && '/' !in p
    ensures var path := ProjectPath(p) + "/gantt";
            Breadcrumbs(path) == [DashboardCrumb, Crumb(path, path)]
  {
    ProjectPathPrefix(p, "/gantt");
    GanttPathSegments(p);
  }

  // ----- App: when the trail is shown, which page renders -----

  /** Breadcrumbs are shown on the profile page and on project pages other than
      the Gantt chart. */
  predicate ShowBreadcrumbs(path: string)
  {
    StartsWith(path, "/profile") || (StartsWith(path, "/projects/") && !EndsWith(path, "/gantt"))
  }

  /** The bar is shown only where the trail is non-empty; the one place a
      non-empty trail is computed but hidden is a project path ending in
      "/gantt". */
  lemma ShownTrailIsNonEmpty(path: string)
    ensures ShowBreadcrumbs(path) ==> Breadcrumbs(path) != []
    ensures !ShowBreadcrumbs(path) && Breadcrumbs(path) != [] <==>
              !StartsWith(path, "/profile") && StartsWith(path, "/projects/") && EndsWith(path, "/gantt")
  {
  }

  /** What the router renders for a path. */
  datatype Page =
    | LoginPage
    | RegisterPage
    | DashboardPage
    | ProjectDetailPage(project_id: string)
    | TaskDetailPage(project_id: string, task_id: string)
    | ProfilePage
    | GanttPage(project_id: string)
    | Redirect(to: string)

  /** The route table, matched on the non-empty path segments: "/" redirects by
      authentication, unknown paths redirect to "/". */
  function Resolve(path: string, authenticated: bool): (page: Page)
    ensures Segments(path) == [] ==> page == Redirect(if authenticated then "/dashboard" else "/login")
    ensures page.Redirect? ==> page.to in {"/", "/dashboard", "/login"}
  {
    var seg := Segments(path);
    if seg == [] then Redirect(if authenticated then "/dashboard" else "/login")
    else if seg == ["login"] then LoginPage
    else if seg == ["register"] then RegisterPage
    else if seg == ["dashboard"] then DashboardPage
    else if seg == ["profile"] then ProfilePage
    else if |seg| == 2 && seg[0] == "projects" then ProjectDetailPage(seg[1])
    else if |seg| == 4 && seg[0] == "projects" && seg[2] == "tasks" then TaskDetailPage(seg[1], seg[3])
    else if |seg| == 3 && seg[0] == "projects" && seg[2] == "gantt" then GanttPage(seg[1])
    else Redirect("/")
  }

  lemma SegmentsOfTop(w: string)
    requires '/' !in w
    ensures Segments("/" + w) == if w == "" then [] else [w]
  {
    assert "/" + w == "" + "/" + w;
    SegmentsCons("", w);
    SegmentsOfWord(w);
  }

  /** "/" goes to the dashboard or the login page by authentication. */
  lemma {:induction false} RootRedirect(authenticated: bool)
    ensures Resolve("/", authenticated) == Redirect(if authenticated then "/dashboard" else "/login")
  {
    SegmentsOfTop("");
    assert "/" + "" == "/";
  }

  lemma {:induction false} TopPages(authenticated: bool)
    ensures Resolve("/dashboard", authenticated) == DashboardPage
    ensures Resolve("/login", authenticated) == LoginPage
  {
    SegmentsOfTop("dashboard");
    SegmentsOfTop("login");
  }

  /** Every redirect target is "/", "/dashboard" or "/login", so at most two
      redirects lead to a page. */
  lemma {:induction false} RedirectsSettle(path: string, authenticated: bool)
    ensures Resolve(path, authenticated).Redirect? ==>
              var next := Resolve(Resolve(path, authenticated).to, authenticated);
              next.Redirect? ==> next.to != "/" && !Resolve(next.to, authenticated).Redirect?
  {
    RootRedirect(authenticated);
    TopPages(authenticated);
  }

  /** The pages the client links to render what their paths say. */
  lemma {:induction false} LinksResolve(p: string, t: string, authenticated: bool)
    requires p != "" && '/' !in p && t != "" && '/' !in t
    ensures Resolve(ProjectPath(p), authenticated) == ProjectDetailPage(p)
    ensures Resolve(TaskPath(p, t), authenticated) == TaskDetailPage(p, t)
    ensures Resolve(ProjectPath(p) + "/gantt", authenticated) == GanttPage(p)
  {
    ProjectPathSegments(p);
    TaskPathSegments(p, t);
    GanttPathSegments(p);
  }

  /** The modal views, mounted only for an authenticated user. */
  datatype Modal = CreateProjectModal | EditProjectModal | CreateTaskModal | EditTaskModal | InvitationModal | Onboarding

  function MountedModals(authenticated: bool): (ms: set<Modal>)
    ensures !authenticated <==> ms == {}
  {
    if authenticated then {CreateProjectModal, EditProjectModal, CreateTaskModal, EditTaskModal, InvitationModal, Onboarding}
    else {}
  }

  /** Every modal is mounted once the user is authenticated. */
  lemma EveryModalMounted(m: Modal)
    ensures m in MountedModals(true)
    ensures m !in MountedModals(false)
  {
  }

  // ----- notifications: destination, icon, weight -----

  /** The dropdown's link target: the task page when both related ids are set,
      the project page when only the project is, "#" otherwise. */
  function Destination(n: Notification): (d: string)
  {
    if Truthy(n.related_task_id) && Truthy(n.related_project_id) then
      TaskPath(n.related_project_id.value, n.related_task_id.value)
    else if Truthy(n.related_project_id) then ProjectPath(n.related_project_id.value)
    else "#"
  }

  /** The navigation bar's notification click: where it navigates, if anywhere. */
  function NotificationTarget(n: Notification): (r: Option<string>)
  {
    if Truthy(n.related_task_id) && Truthy(n.related_project_id) then
      Some(TaskPath(n.related_project_id.value, n.related_task_id.value))
    else if Truthy(n.related_project_id) then Some(ProjectPath(n.related_project_id.value))
    else None
  }

  /** The dropdown and the navigation bar send a notification to the same place:
      "#" exactly when the bar does not navigate; and the place renders the
      related task or project. */
  lemma NotificationDestinations(n: Notification, authenticated: bool)
    ensures Destination(n) == "#" <==> NotificationTarget(n).None?
    ensures NotificationTarget(n).Some? ==> Destination(n) == NotificationTarget(n).value
    ensures Truthy(n.related_task_id) && Truthy(n.related_project_id)
            && '/' !in n.related_project_id.value && '/' !in n.related_task_id.value ==>
              Resolve(Destination(n), authenticated)
                == TaskDetailPage(n.related_project_id.value, n.related_task_id.value)
    ensures !Truthy(n.related_task_id) && Truthy(n.related_project_id) && '/' !in n.related_project_id.value ==>
              Resolve(Destination(n), authenticated) == ProjectDetailPage(n.related_project_id.value)
  {
    if Truthy(n.related_project_id) {
      var p := n.related_project_id.value;
      assert ProjectPath(p)[0] == '/';
      if Truthy(n.related_task_id) {
        assert TaskPath(p, n.related_task_id.value)[0] == '/';
        if '/' !in p && '/' !in n.related_task_id.value {
          LinksResolve(p, n.related_task_id.value, authenticated);
        }
      } else if '/' !in p {
        LinksResolve(p, "t", authenticated);
      }
    }
  }

  datatype Icon = Memo | Cycle | AlarmClock | Bell

  /** The icon shown for a notification type; the bell for any other type. */
  function IconFor(kind: string): (icon: Icon)
    ensures icon == Bell <==> kind !in {"task_assignment", "status_update", "deadline_alert"}
  {
    if kind == "task_assignment" then Memo
    else if kind == "status_update" then Cycle
    else if kind == "deadline_alert" then AlarmClock
    else Bell
  }

  /** The dropdown sets unread entries in bold. After any notification reducer,
      the badge's number is the number of bold entries. */
  lemma BoldMatchesBadge(s: GlobalState, a: Action)
    requires a.SetNotificationList? || a.AddNotification? || a.MarkNotificationRead?
    ensures |Where(Reduce(s, a).notification_list, IsUnread)| == Reduce(s, a).unread_notification_count
  {
    UnreadFilterCount(Reduce(s, a).notification_list);
  }

  // ----- the notification dropdown -----

  function ToggleDropdown(visible: bool): (r: bool)
    ensures r != visible
  {
    !visible
  }

  /** A click on a notification: the PUT marks it read on the server; only when
      that succeeds is it marked read in the store. The dropdown closes either
      way. */
  function ClickNotification(s: GlobalState, id: string, putSucceeded: bool): (r: (GlobalState, bool))
    ensures !r.1
    ensures !putSucceeded ==> r.0 == s
    ensures putSucceeded ==> r.0.notification_list == MarkFirstRead(s.notification_list, id)
    ensures putSucceeded ==>
              r.0 == s.(notification_list := r.0.notification_list,
                        unread_notification_count := CountUnread(r.0.notification_list))
  {
    var state := if putSucceeded then Reduce(s, MarkNotificationRead(id)) else s;
    (state, false)
  }

  // ----- the top navigation bar -----

  /** A navigation link: always records the item; three items navigate. */
  function NavClick(s: GlobalState, item: string): (r: (GlobalState, Option<string>))
    ensures r.0 == s.(active_nav_item := item)
    ensures r.1.Some? <==> item in {"dashboard", "projects", "tasks"}
    ensures r.1.Some? ==> StartsWith(r.1.value, "/dashboard")
    ensures item == "dashboard" ==> r.1 == Some("/dashboard")
    ensures item == "projects" ==> r.1 == Some("/dashboard?view=projects")
    ensures item == "tasks" ==> r.1 == Some("/dashboard?view=tasks")
  {
    var state := Reduce(s, SetActiveNavItem(item));
    var target :=
      if item == "dashboard" then Some("/dashboard")
      else if item == "projects" then Some("/dashboard?view=projects")
      else if item == "tasks" then Some("/dashboard?view=tasks")
      else None;
    assert target.Some? ==> target.value[..10] == "/dashboard";
    (state, target)
  }

  /** The logo does what the "dashboard" link does. */
  lemma LogoIsDashboardLink(s: GlobalState)
    ensures NavClick(s, "dashboard") == (s.(active_nav_item := "dashboard"), Some("/dashboard"))
  {
  }

  /** A notification click in the bar: navigate to its target, close the list.
      It navigates exactly when the notification names a project, and the
      signed-in router then shows the related task, or else the project. */
  function BarNotificationClick(n: Notification): (r: (Option<string>, bool))
    ensures !r.1
    ensures r.0.Some? <==> Truthy(n.related_project_id)
    ensures Truthy(n.related_task_id) && Truthy(n.related_project_id)
            && '/' !in n.related_project_id.value && '/' !in n.related_task_id.value ==>
              && r.0.Some?
              && Resolve(r.0.value, true) == TaskDetailPage(n.related_project_id.value, n.related_task_id.value)
    ensures !Truthy(n.related_task_id) && Truthy(n.related_project_id) && '/' !in n.related_project_id.value ==>
              && r.0.Some?
              && Resolve(r.0.value, true) == ProjectDetailPage(n.related_project_id.value)
  {
    NotificationDestinations(n, true);
    (NotificationTarget(n), false)
  }

  predicate ShowBadge(s: GlobalState)
  {
    s.unread_notification_count > 0
  }

  /** The badge is shown exactly while some listed notification is unread, in
      any state a notification reducer left behind. */
  lemma BadgeMeansUnread(s: GlobalState, a: Action)
    requires a.SetNotificationList? || a.AddNotification? || a.MarkNotificationRead?
    ensures ShowBadge(Reduce(s, a)) <==>
              exists i :: 0 <= i < |Reduce(s, a).notification_list| && Reduce(s, a).notification_list[i].read_status == 0
  {
  }

  datatype Avatar = Picture(url: string) | Initial(text: string)

  /** The profile button: the picture when the user has one, else the user's
      initial upper-cased, else "P". */
  function AvatarFor(user: Option<UserView>): (a: Avatar)
    ensures user.None? ==> a == Initial("P")
    ensures user.Some? && Truthy(user.value.profile_picture_url) ==> a == Picture(user.value.profile_picture_url.value)
    ensures user.Some? && !Truthy(user.value.profile_picture_url) ==>
              a.Initial? && |a.text| <= 1
              && (user.value.first_name == "" <==> a.text == "")
              && (a.text != "" ==> a.text[0] == ToUpperAscii(user.value.first_name[0]))
  {
    match user
    case None => Initial("P")
    case Some(u) =>
      if Truthy(u.profile_picture_url) then Picture(u.profile_picture_url.value)
      else if u.first_name == "" then Initial("")
      else Initial([ToUpperAscii(u.first_name[0])])
  }

  /** Typing in the search box: the box and the store hold the same text. */
  function SearchInput(s: GlobalState, value: string): (r: (string, GlobalState))
    ensures r.0 == r.1.global_search_query == value
    ensures r.1 == s.(global_search_query := value)
  {
    (value, Reduce(s, SetGlobalSearchQuery(value)))
  }

  // ----- the project page's trail -----

  /** The trail the project page stores once its project has loaded: the
      project title, or "Project Detail" when it has none, linking to the page. */
  function ProjectDetailTrail(title: Option<string>, p: string): (crumbs: seq<Crumb>)
    ensures |crumbs| == 2 && crumbs[0] == DashboardCrumb
    ensures crumbs[1].url == ProjectPath(p)
    ensures crumbs[1].name == if Truthy(title) then title.value else "Project Detail"
  {
    [DashboardCrumb, Crumb(if Truthy(title) then title.value else "Project Detail", ProjectPath(p))]
  }

  /** The page's own trail links where the path-derived trail does; only the
      project's name differs. */
  lemma ProjectTrailsAgree(title: Option<string>, p: string)
    requires p != "" && '/' !in p
    ensures ProjectDetailTrail(title, p)[1].url == Breadcrumbs(ProjectPath(p))[1].url
    ensures |ProjectDetailTrail(title, p)| == |Breadcrumbs(ProjectPath(p))|
  {
    ProjectPageCrumbs(p);
  }
}

=== FILE: schema.dfy ===
/** The rows of the relational store behind the REST API, the in-memory realtime
    state (event log and room memberships), and the shapes of responses. */
module Schema {
  import opened Wrappers

  /** The claim set signed into a bearer token: `{id, email, role}`. */
  datatype Claims = Claims(id: string, email: string, role: string)

  /** A row of `users`, including the password hash. */
  datatype User = User(
    id: string,
    first_name: string,
    last_name: string,
    email: string,
    password_hash: string,
    profile_picture_url: Option<string>,
    role: string,
    notification_settings: string,
    created_at: string,
    updated_at: string)

  /** A user as any response carries it: every column except the password hash. */
  datatype UserView = UserView(
    id: string,
    first_name: string,
    last_name: string,
    email: string,
    profile_picture_url: Option<string>,
    role: string,
    notification_settings: string,
    created_at: string,
    updated_at: string)

  /** A row of `user_invitations`. */
  datatype Invitation = Invitation(
    id: string,
    inviter_id: string,
    invitee_email: string,
    role: string,
    status: string,
    created_at: string)

  /** A row of `projects`; `archived` is 0 or 1. */
  datatype Project = Project(
    id: string,
    title: string,
    description: Option<string>,
    start_date: string,
    end_date: string,
    archived: int,
    created_by: string,
    created_at: string,
    updated_at: string)

  /** A row of `project_members`. */
  datatype Member = Member(project_id: string, user_id: string)

  /** A row of `milestones`. */
  datatype Milestone = Milestone(
    id: string,
    project_id: string,
    title: string,
    due_date: string,
    description: Option<string>)

  /** A row of `tasks`; `parent_task_id` makes it a subtask. */
  datatype Task = Task(
    id: string,
    project_id: string,
    parent_task_id: Option<string>,
    name: string,
    description: Option<string>,
    assignee_id: Option<string>,
    due_date: string,
    priority: string,
    status: string,
    created_at: string,
    updated_at: string)

  /** A row of `task_comments`. */
  datatype Comment = Comment(
    id: string,
    task_id: string,
    user_id: string,
    comment_text: string,
    created_at: string)

  /** A row of `task_attachments`. */
  datatype Attachment = Attachment(
    id: string,
    task_id: string,
    user_id: string,
    file_name: string,
    file_url: string,
    file_type: string,
    uploaded_at: string)

  /** A row of `notifications`; `read_status` 0 means unread. */
  datatype Notification = Notification(
    id: string,
    user_id: string,
    kind: string,
    message: string,
    related_project_id: Option<string>,
    related_task_id: Option<string>,
    read_status: int,
    created_at: string)

  /** A project with its milestones attached, as the project endpoints return it. */
  datatype ProjectView = ProjectView(project: Project, milestones: seq<Milestone>)

  /** A realtime event broadcast to every connected client. An update of a task
      that does not exist broadcasts `task_update_event` with no payload. */
  datatype Event =
    | TaskUpdateEvent(task: Option<Task>)
    | CommentEvent(comment: Comment)

  /** The whole server state: the tables, the broadcast log and the set of
      (socket, room) memberships. */
  datatype Store = Store(
    users: seq<User>,
    invitations: seq<Invitation>,
    projects: seq<Project>,
    members: seq<Member>,
    milestones: seq<Milestone>,
    tasks: seq<Task>,
    comments: seq<Comment>,
    attachments: seq<Attachment>,
    notifications: seq<Notification>,
    events: seq<Event>,
    rooms: set<(string, string)>)

  /** JSON response bodies. `NoBody` is `res.json(undefined)`: a query that
      matched no row. */
  datatype Body =
    | ErrorBody(error: string)
    | MessageBody(message: string)
    | Session(token: string, user: UserView)
    | UserBody(user: UserView)
    | InvitationBody(invitation: Invitation)
    | ProjectBody(project: ProjectView)
    | ProjectList(projects: seq<ProjectView>)
    | TaskBody(task: Task)
    | TaskList(tasks: seq<Task>)
    | CommentBody(comment: Comment)
    | AttachmentBody(attachment: Attachment)
    | NotificationList(notifications: seq<Notification>)
    | NotificationBody(notification: Notification)
    | NoBody

  datatype Response = Response(status: int, body: Body)

  /** The outcome of a handler: the store after it and the response it sends. */
  datatype Step = Step(store: Store, response: Response)

  /** bcrypt, jsonwebtoken and the secret, left uninterpreted: `compare(plain, hash)`,
      `verify(token)` gives the decoded claims or fails. */
  datatype Crypto = Crypto(
    hash: string -> string,
    compare: (string, string) -> bool,
    sign: Claims -> string,
    verify: string -> Option<Claims>)

  /** Per-request inputs from the environment: the wall clock (`toISOString()`) and
      the uuid generator, `uuid(k)` being the k-th id minted during the request. */
  datatype Env = Env(now: string, uuid: nat -> string)

  /** What JSON.stringify({}) stores as the default notification settings. */
  const EmptySettings: string := "{}"

  function Public(u: User): (v: UserView)
    ensures v.id == u.id && v.email == u.email && v.role == u.role
  {
    UserView(u.id, u.first_name, u.last_name, u.email, u.profile_picture_url, u.role,
             u.notification_settings, u.created_at, u.updated_at)
  }

  /** JavaScript `x || null` on a string: an empty or absent string becomes null. */
  function OrNull(x: Option<string>): (r: Option<string>)
    ensures r.Some? <==> x.Some? && x.value != ""
    ensures r.Some? ==> r == x
  {
    if x.Some? && x.value != "" then x else None
  }

  function EmptyStore(): Store
  {
    Store([], [], [], [], [], [], [], [], [], [], {})
  }
}

=== FILE: server.dfy ===
/** The REST handlers and the realtime handshake of the API server, each a pure
    transition on the abstract store. Every protected handler first runs the
    bearer-token check; SQL `RETURNING` becomes the post-state row. */
module Api {
  import opened Wrappers
  import opened Text
  import opened Tables
  import opened Ordering
  import opened Schema

  // ----- keys and row predicates, named so that every mention is the same term -----

  function UserId(u: User): string { u.id }
  function UserEmail(u: User): string { u.email }
  function InvitationId(i: Invitation): string { i.id }
  function ProjectId(p: Project): string { p.id }
  function ProjectCreatedAt(p: Project): string { p.created_at }
  function MilestoneId(m: Milestone): string { m.id }
  function TaskId(t: Task): string { t.id }
  function TaskCreatedAt(t: Task): string { t.created_at }
  function CommentId(c: Comment): string { c.id }
  function AttachmentId(a: Attachment): string { a.id }
  function NotificationId(n: Notification): string { n.id }
  function NotificationCreatedAt(n: Notification): string { n.created_at }

  function UserWithId(id: string): User -> bool { (u: User) => u.id == id }
  function UserWithEmail(email: string): User -> bool { (u: User) => u.email == email }
  function ProjectWithId(id: string): Project -> bool { (p: Project) => p.id == id }
  function TaskWithId(id: string): Task -> bool { (t: Task) => t.id == id }
  function TaskElsewhere(id: string): Task -> bool { (t: Task) => t.id != id }
  function TaskOfProject(pid: string): Task -> bool { (t: Task) => t.project_id == pid }
  function MilestoneOfProject(pid: string): Milestone -> bool { (m: Milestone) => m.project_id == pid }
  function MilestoneElsewhere(pid: string): Milestone -> bool { (m: Milestone) => m.project_id != pid }
  function NotificationWithId(id: string): Notification -> bool { (n: Notification) => n.id == id }
  function NotificationForUser(uid: string): Notification -> bool { (n: Notification) => n.user_id == uid }

  /** `SELECT * FROM milestones WHERE project_id = $1`. */
  function MilestonesOf(rows: seq<Milestone>, pid: string): seq<Milestone>
  {
    Where(rows, MilestoneOfProject(pid))
  }

  function ServerError(message: string): Response
  {
    Response(500, ErrorBody(message))
  }

  // ----- authenticateToken -----

  /** `authHeader.split(" ")[1]` when the header is present and that field is a
      non-empty string. The first field (the scheme word) is never looked at. */
  function BearerToken(header: Option<string>): Option<string>
  {
    if header.None? then None
    else
      var parts := Split(header.value, ' ');
      if |parts| < 2 || parts[1] == "" then None else Some(parts[1])
  }

  datatype Auth = Authorized(claims: Claims) | Denied(response: Response)

  const MissingToken: Response := Response(401, ErrorBody("Missing token"))
  const InvalidToken: Response := Response(403, ErrorBody("Invalid token"))

  /** The middleware: 401 without a token, 403 when verification fails, else the
      decoded claims become `req.user`. */
  function Authenticate(cr: Crypto, header: Option<string>): (a: Auth)
    ensures BearerToken(header).None? ==> a == Denied(MissingToken)
    ensures (BearerToken(header).Some? && cr.verify(BearerToken(header).value).None?) ==>
              a == Denied(InvalidToken)
    ensures a.Authorized? <==> BearerToken(header).Some? && cr.verify(BearerToken(header).value).Some?
    ensures a.Authorized? ==> cr.verify(BearerToken(header).value) == Some(a.claims)
  {
    match BearerToken(header)
    case None => Denied(MissingToken)
    case Some(token) =>
      match cr.verify(token)
      case None => Denied(InvalidToken)
      case Some(claims) => Authorized(claims)
  }

  /** A header `<scheme> <token>` yields the token whatever the scheme word is. */
  lemma BearerTokenOfHeader(scheme: string, token: string)
    requires ' ' !in scheme && ' ' !in token && token != ""
    ensures BearerToken(Some(scheme + " " + token)) == Some(token)
  {
    SplitCons(scheme, ' ', token);
    assert Split(token, ' ') == [token];
  }

  /** Fields after the token are ignored. */
  lemma BearerTokenIgnoresRest(scheme: string, token: string, rest: string)
    requires ' ' !in scheme && ' ' !in token && token != ""
    ensures BearerToken(Some(scheme + " " + token + " " + rest)) == Some(token)
  {
    var tail := token + [' '] + rest;
    assert scheme + " " + token + " " + rest == scheme + [' '] + tail;
    SplitCons(scheme, ' ', tail);
    SplitCons(token, ' ', rest);
  }

  /** A header with no second field, or with an empty one, yields no token. */
  lemma BearerTokenMissing(scheme: string, rest: string)
    requires ' ' !in scheme
    ensures BearerToken(Some(scheme)) == None
    ensures BearerToken(Some(scheme + "  " + rest)) == None
  {
    assert Split(scheme, ' ') == [scheme];
    var tail := [] + [' '] + rest;
    assert scheme + "  " + rest == scheme + [' '] + tail;
    SplitCons(scheme, ' ', tail);
    SplitCons([], ' ', rest);
  }

  // ----- POST /api/auth/register and /api/auth/login -----

  datatype RegisterRequest = RegisterRequest(
    first_name: string,
    last_name: string,
    email: string,
    password: Option<string>,
    role: string,
    profile_picture_url: Option<string>)

  /** The token `jwt.sign` issues for a user row. */
  function TokenFor(cr: Crypto, u: User): string
  {
    cr.sign(Claims(u.id, u.email, u.role))
  }

  /** Registration: hashes the password and inserts the user with the role the
      client sent. A missing password (bcrypt throws), a taken id or a taken email
      (constraint violation) all end in the same 500 and change nothing. */
  function Register(s: Store, cr: Crypto, env: Env, req: RegisterRequest): (r: Step)
    ensures r.response.status == 200 <==>
              req.password.Some? && !HasKey(s.users, UserId, env.uuid(0)) && !HasKey(s.users, UserEmail, req.email)
    ensures r.response.status != 200 ==>
              r.store == s && r.response == ServerError("Registration failed")
    ensures r.response.status == 200 ==>
              && |r.store.users| == |s.users| + 1
              && r.store == s.(users := r.store.users)
              && var u := r.store.users[|s.users|];
              && r.store.users[..|s.users|] == s.users
              && u.id == env.uuid(0) && u.email == req.email && u.role == req.role
              && u.first_name == req.first_name && u.last_name == req.last_name
              && u.created_at == env.now && u.updated_at == env.now
              && u.password_hash == cr.hash(req.password.value)
              && u.notification_settings == EmptySettings
              && u.profile_picture_url == OrNull(req.profile_picture_url)
              && r.response.body == Session(TokenFor(cr, u), Public(u))
  {
    if req.password.None? then Step(s, ServerError("Registration failed"))
    else
      var u := User(env.uuid(0), req.first_name, req.last_name, req.email, cr.hash(req.password.value),
                    OrNull(req.profile_picture_url), req.role, EmptySettings, env.now, env.now);
      if HasKey(s.users, UserId, u.id) || HasKey(s.users, UserEmail, u.email) then
        Step(s, ServerError("Registration failed"))
      else
        var users := s.users + [u];
        assert users[..|s.users|] == s.users;
        Step(s.(users := users), Response(200, Session(TokenFor(cr, u), Public(u))))
  }

  const InvalidCredentials: Response := Response(401, ErrorBody("Invalid credentials"))

  /** Login: the first user with that email whose hash matches gets a token; an
      unknown email and a wrong password give the same 401. A missing password
      for a known email makes bcrypt throw (500). Nothing is written. */
  function Login(s: Store, cr: Crypto, email: string, password: Option<string>): (r: Response)
    ensures r.status == 200 || r == InvalidCredentials || r == ServerError("Login failed")
    ensures FirstWhere(s.users, UserWithEmail(email)).None? ==> r == InvalidCredentials
    ensures r == ServerError("Login failed") <==> FirstWhere(s.users, UserWithEmail(email)).Some? && password.None?
    ensures r.status == 200 <==>
              && FirstWhere(s.users, UserWithEmail(email)).Some? && password.Some?
              && cr.compare(password.value, s.users[FirstWhere(s.users, UserWithEmail(email)).value].password_hash)
    ensures r.status == 200 ==>
              var u := s.users[FirstWhere(s.users, UserWithEmail(email)).value];
              u.email == email && r.body == Session(TokenFor(cr, u), Public(u))
  {
    match FirstWhere(s.users, UserWithEmail(email))
    case None => InvalidCredentials
    case Some(i) =>
      var u := s.users[i];
      if password.None? then ServerError("Login failed")
      else if !cr.compare(password.value, u.password_hash) then InvalidCredentials
      else Response(200, Session(TokenFor(cr, u), Public(u)))
  }

  // ----- GET/PUT /api/users/:user_id -----

  /** Profile read: 404 for an unknown id, otherwise the row without its hash. */
  function GetUser(s: Store, cr: Crypto, header: Option<string>, userId: string): (r: Response)
    ensures Authenticate(cr, header).Denied? ==> r == Authenticate(cr, header).response
    ensures Authenticate(cr, header).Authorized? ==>
              (r.status == 404 <==> !HasKey(s.users, UserId, userId))
    ensures r.status == 200 ==>
              exists i :: 0 <= i < |s.users| && s.users[i].id == userId && r.body == UserBody(Public(s.users[i]))
    ensures Authenticate(cr, header).Authorized? && HasKey(s.users, UserId, userId) ==>
              r == Response(200, UserBody(Public(s.users[FirstWhere(s.users, UserWithId(userId)).value])))
  {
    match Authenticate(cr, header)
    case Denied(resp) => resp
    case Authorized(_) =>
      match FirstWhere(s.users, UserWithId(userId))
      case None => Response(404, ErrorBody("User not found"))
      case Some(i) => Response(200, UserBody(Public(s.users[i])))
  }

  /** Fields of a profile update; `None` is a field sent as null or left out.
      `notification_settings` is the serialised settings, `None` when falsy. */
  datatype UserPatch = UserPatch(
    first_name: Option<string>,
    last_name: Option<string>,
    profile_picture_url: Option<string>,
    notification_settings: Option<string>)

  /** The SET list of the profile update, one COALESCE per field. */
  function PatchUser(patch: UserPatch, now: string): User -> User
  {
    (u: User) => u.(first_name := patch.first_name.GetOr(u.first_name),
            last_name := patch.last_name.GetOr(u.last_name),
            profile_picture_url := if patch.profile_picture_url.Some? then patch.profile_picture_url
                                   else u.profile_picture_url,
            notification_settings := patch.notification_settings.GetOr(u.notification_settings),
            updated_at := now)
  }

  /** Profile update: each field supplied as null or left out keeps its stored value;
      id, email, role, password hash and creation time never change. The response
      is the updated row, or an empty body when the id matches nothing. */
  function UpdateUser(s: Store, cr: Crypto, env: Env, header: Option<string>, userId: string,
                      patch: UserPatch): (r: Step)
    ensures Authenticate(cr, header).Denied? ==> r == Step(s, Authenticate(cr, header).response)
    ensures r.store == s.(users := r.store.users)
    ensures |r.store.users| == |s.users|
    ensures forall i :: 0 <= i < |s.users| && s.users[i].id != userId ==> r.store.users[i] == s.users[i]
    ensures Authenticate(cr, header).Authorized? ==>
            forall i :: 0 <= i < |s.users| && s.users[i].id == userId ==>
              var old_ := s.users[i];
              var new_ := r.store.users[i];
              && new_.id == old_.id == userId && new_.email == old_.email && new_.role == old_.role
              && new_.password_hash == old_.password_hash && new_.created_at == old_.created_at
              && new_.first_name == patch.first_name.GetOr(old_.first_name)
              && new_.last_name == patch.last_name.GetOr(old_.last_name)
              && (patch.profile_picture_url.None? ==> new_.profile_picture_url == old_.profile_picture_url)
              && (patch.profile_picture_url.Some? ==> new_.profile_picture_url == patch.profile_picture_url)
              && new_.notification_settings == patch.notification_settings.GetOr(old_.notification_settings)
              && new_.updated_at == env.now
    ensures Authenticate(cr, header).Authorized? && !HasKey(s.users, UserId, userId) ==>
              r == Step(s, Response(200, NoBody))
    ensures Authenticate(cr, header).Authorized? && HasKey(s.users, UserId, userId) ==>
              r.response == Response(200, UserBody(Public(r.store.users[FirstWhere(s.users, UserWithId(userId)).value])))
  {
    match Authenticate(cr, header)
    case Denied(resp) => Step(s, resp)
    case Authorized(_) =>
      var f := PatchUser(patch, env.now);
      var users := UpdateWhere(s.users, UserWithId(userId), f);
      match FirstWhere(s.users, UserWithId(userId))
      case None =>
        assert users == s.users;
        Step(s, Response(200, NoBody))
      case Some(i) => Step(s.(users := users), Response(200, UserBody(Public(f(s.users[i])))))
  }

  // ----- POST /api/invitations -----

  datatype InvitationRequest = InvitationRequest(invitee_email: string, role: string)

  const NotAuthorizedToInvite: Response := Response(403, ErrorBody("Not authorized to send invitations"))

  /** Invitations: only a caller whose token role is "project_manager" may invite;
      anyone else gets 403 and nothing changes. The new invitation is "pending"
      and records the caller as inviter. */
  function SendInvitation(s: Store, cr: Crypto, env: Env, header: Option<string>,
                          req: InvitationRequest): (r: Step)
    ensures Authenticate(cr, header).Denied? ==> r == Step(s, Authenticate(cr, header).response)
    ensures (Authenticate(cr, header).Authorized? && Authenticate(cr, header).claims.role != "project_manager") ==>
              r == Step(s, NotAuthorizedToInvite)
    ensures r.response.status == 200 <==>
              && Authenticate(cr, header).Authorized?
              && Authenticate(cr, header).claims.role == "project_manager"
              && !HasKey(s.invitations, InvitationId, env.uuid(0))
    ensures r.response.status != 200 ==> r.store == s
    ensures r.response.status == 200 ==>
              && r.response.body.InvitationBody?
              && r.store == s.(invitations := s.invitations + [r.response.body.invitation])
              && r.response.body.invitation == Invitation(env.uuid(0), Authenticate(cr, header).claims.id,
                                                          req.invitee_email, req.role, "pending", env.now)
  {
    match Authenticate(cr, header)
    case Denied(resp) => Step(s, resp)
    case Authorized(c) =>
      if c.role != "project_manager" then Step(s, NotAuthorizedToInvite)
      else
        var inv := Invitation(env.uuid(0), c.id, req.invitee_email, req.role, "pending", env.now);
        if HasKey(s.invitations, InvitationId, inv.id) then Step(s, ServerError("Failed to send invitation"))
        else Step(s.(invitations := s.invitations + [inv]), Response(200, InvitationBody(inv)))
  }

  // ----- milestones -----

  datatype MilestoneInput = MilestoneInput(title: string, due_date: string, description: Option<string>)

  /** The table after a run of inserts and the rows it added; `Failed` when an
      insert stopped the run, the rows before it staying in place. */
  datatype MilestoneInsert = Inserted(rows: seq<Milestone>, added: seq<Milestone>)
                           | Failed(rows: seq<Milestone>, added: seq<Milestone>)

  /** The row inserted for milestone input `m` of project `pid` with id `id`. */
  function MilestoneRow(id: string, pid: string, m: MilestoneInput): Milestone
  {
    Milestone(id, pid, m.title, m.due_date, OrNull(m.description))
  }

  /** One INSERT per milestone, ids `uuid(k)`, `uuid(k+1)`, ...; outside any
      transaction, so a failing insert leaves the earlier ones in place. */
  function InsertMilestones(rows: seq<Milestone>, pid: string, ms: seq<MilestoneInput>,
                            uuid: nat -> string, k: nat): (r: MilestoneInsert)
    ensures r.rows == rows + r.added
    ensures |r.added| <= |ms| && (r.Inserted? <==> |r.added| == |ms|)
    ensures forall i :: 0 <= i < |r.added| ==> r.added[i] == MilestoneRow(uuid(k + i), pid, ms[i])
    ensures forall i :: 0 <= i < |r.added| ==> r.added[i].project_id == pid
    decreases |ms|
  {
    if ms == [] then Inserted(rows, [])
    else
      var m := MilestoneRow(uuid(k), pid, ms[0]);
      if HasKey(rows, MilestoneId, m.id) then Failed(rows, [])
      else Prepend(m, rows, InsertMilestones(rows + [m], pid, ms[1..], uuid, k + 1))
  }

  /** The outcome of the inserts after `m`, seen from before `m` was inserted. */
  function Prepend(m: Milestone, rows: seq<Milestone>, sub: MilestoneInsert): (r: MilestoneInsert)
    requires sub.rows == rows + [m] + sub.added
    ensures r.rows == rows + r.added && r.added == [m] + sub.added && r.Inserted? == sub.Inserted?
  {
    assert rows + [m] + sub.added == rows + ([m] + sub.added);
    match sub
    case Inserted(rows2, added) => Inserted(rows2, [m] + added)
    case Failed(rows2, added) => Failed(rows2, [m] + added)
  }

  /** uuid(k), ..., uuid(k+n-1) are pairwise distinct and unused in `rows`: what
      uuid v4 promises. */
  ghost predicate FreshIds(uuid: nat -> string, k: nat, n: nat, rows: seq<Milestone>)
  {
    && (forall a: nat, b: nat :: k <= a < b < k + n ==> uuid(a) != uuid(b))
    && (forall a: nat :: k <= a < k + n ==> !HasKey(rows, MilestoneId, uuid(a)))
  }

  /** With fresh ids every milestone is inserted. */
  lemma {:induction false} InsertMilestonesFresh(rows: seq<Milestone>, pid: string, ms: seq<MilestoneInput>,
                                                 uuid: nat -> string, k: nat)
    requires FreshIds(uuid, k, |ms|, rows)
    ensures InsertMilestones(rows, pid, ms, uuid, k).Inserted?
    decreases |ms|
  {
    if ms != [] {
      var m := MilestoneRow(uuid(k), pid, ms[0]);
      assert !HasKey(rows, MilestoneId, uuid(k));
      var rows1 := rows + [m];
      forall a: nat | k + 1 <= a < k + |ms| ensures !HasKey(rows1, MilestoneId, uuid(a)) {
        assert !HasKey(rows, MilestoneId, uuid(a));
        assert uuid(k) != uuid(a);
      }
      InsertMilestonesFresh(rows1, pid, ms[1..], uuid, k + 1);
    }
  }

  /** `DELETE FROM milestones WHERE project_id = $1`, then one insert per new
      milestone: the project's milestones become exactly the inserted rows and
      every other project's milestones stay as they were. */
  function ReplaceMilestones(rows: seq<Milestone>, pid: string, ms: seq<MilestoneInput>,
                             uuid: nat -> string): (r: MilestoneInsert)
    ensures Where(r.rows, MilestoneElsewhere(pid)) == Where(rows, MilestoneElsewhere(pid))
    ensures MilestonesOf(r.rows, pid) == r.added
    ensures |r.added| <= |ms| && (r.Inserted? <==> |r.added| == |ms|)
    ensures forall i :: 0 <= i < |r.added| ==> r.added[i] == MilestoneRow(uuid(i), pid, ms[i])
  {
    var kept := Where(rows, MilestoneElsewhere(pid));
    var ins := InsertMilestones(kept, pid, ms, uuid, 0);
    KeptThenAdded(rows, pid, ins.added);
    ins
  }

  /** After the delete, the table is the other projects' rows followed by the
      added ones, so each side of the split can be read off. */
  lemma KeptThenAdded(rows: seq<Milestone>, pid: string, added: seq<Milestone>)
    requires forall i :: 0 <= i < |added| ==> added[i].project_id == pid
    ensures var kept := Where(rows, MilestoneElsewhere(pid));
            && Where(kept + added, MilestoneElsewhere(pid)) == kept
            && MilestonesOf(kept + added, pid) == added
  {
    var kept := Where(rows, MilestoneElsewhere(pid));
    WhereTwice(rows, MilestoneElsewhere(pid));
    assert forall j :: 0 <= j < |kept| ==> kept[j] in kept;
    WhereNone(kept, MilestoneOfProject(pid));
    WhereAppend(kept, added, MilestoneOfProject(pid));
    WhereAll(added, MilestoneOfProject(pid));
    WhereAppend(kept, added, MilestoneElsewhere(pid));
    WhereNone(added, MilestoneElsewhere(pid));
  }

  // ----- POST /api/projects -----

  datatype ProjectRequest = ProjectRequest(
    title: string,
    description: Option<string>,
    start_date: string,
    end_date: string,
    milestones: Option<seq<MilestoneInput>>)

  /** The milestone list of a creation request, empty when absent. */
  function MilestoneInputs(req: ProjectRequest): seq<MilestoneInput>
  {
    if req.milestones.Some? then req.milestones.value else []
  }

  /** Project creation: the caller becomes `created_by`, `archived` starts at 0, and
      each milestone of a supplied array is inserted under the new project, ids
      `uuid(1)`, `uuid(2)`, ... One insert per statement and no transaction: when
      a milestone insert fails, the project row and the milestones inserted
      before it stay, and the answer is 500. */
  function CreateProject(s: Store, cr: Crypto, env: Env, header: Option<string>,
                         req: ProjectRequest): (r: Step)
    ensures Authenticate(cr, header).Denied? ==> r == Step(s, Authenticate(cr, header).response)
    ensures r.store == s.(projects := r.store.projects, milestones := r.store.milestones)
    ensures Authenticate(cr, header).Authorized? && HasKey(s.projects, ProjectId, env.uuid(0)) ==>
              r == Step(s, ServerError("Failed to create project"))
    ensures Authenticate(cr, header).Authorized? && !HasKey(s.projects, ProjectId, env.uuid(0)) ==>
              && |r.store.projects| == |s.projects| + 1
              && r.store.projects[..|s.projects|] == s.projects
              && var p := r.store.projects[|s.projects|];
              && p.id == env.uuid(0) && p.archived == 0 && p.title == req.title
              && p.created_by == Authenticate(cr, header).claims.id
              && p.description == OrNull(req.description)
              && p.start_date == req.start_date && p.end_date == req.end_date
              && p.created_at == env.now && p.updated_at == env.now
              && |s.milestones| <= |r.store.milestones| <= |s.milestones| + |MilestoneInputs(req)|
              && r.store.milestones[..|s.milestones|] == s.milestones
              && (forall i :: |s.milestones| <= i < |r.store.milestones| ==>
                    r.store.milestones[i]
                      == MilestoneRow(env.uuid(i - |s.milestones| + 1), p.id, MilestoneInputs(req)[i - |s.milestones|]))
    ensures r.response.status == 200 <==>
              && Authenticate(cr, header).Authorized? && !HasKey(s.projects, ProjectId, env.uuid(0))
              && |r.store.milestones| == |s.milestones| + |MilestoneInputs(req)|
    ensures Authenticate(cr, header).Authorized? && r.response.status != 200 ==>
              r.response == ServerError("Failed to create project")
    ensures r.response.status == 200 ==>
              && r.response.body.ProjectBody?
              && var p := r.response.body.project.project;
              && r.store.projects == s.projects + [p]
              && r.response.body.project.milestones == r.store.milestones[|s.milestones|..]
              && MilestonesOf(r.store.milestones, p.id)
                   == MilestonesOf(s.milestones, p.id) + r.response.body.project.milestones
  {
    match Authenticate(cr, header)
    case Denied(resp) => Step(s, resp)
    case Authorized(c) =>
      var id := env.uuid(0);
      var p := Project(id, req.title, OrNull(req.description), req.start_date, req.end_date, 0, c.id,
                       env.now, env.now);
      if HasKey(s.projects, ProjectId, id) then Step(s, ServerError("Failed to create project"))
      else
        var s1 := s.(projects := s.projects + [p]);
        var m := InsertMilestones(s.milestones, id, MilestoneInputs(req), env.uuid, 1);
        WhereAppend(s.milestones, m.added, MilestoneOfProject(id));
        WhereAll(m.added, MilestoneOfProject(id));
        if m.Inserted? then Step(s1.(milestones := m.rows), Response(200, ProjectBody(ProjectView(p, m.added))))
        else Step(s1.(milestones := m.rows), ServerError("Failed to create project"))
  }

  // ----- GET /api/projects -----

  function IsMember(members: seq<Member>, pid: string, uid: string): bool
  {
    exists i :: 0 <= i < |members| && members[i] == Member(pid, uid)
  }

  /** The WHERE clause of the listing. */
  function ListedFor(members: seq<Member>, uid: string, flag: int): Project -> bool
  {
    (p: Project) => p.archived == flag && (p.created_by == uid || IsMember(members, p.id, uid))
  }

  /** The projects of a list of views, in order. */
  function ProjectsOf(views: seq<ProjectView>): (ps: seq<Project>)
    ensures |ps| == |views|
    ensures forall i :: 0 <= i < |views| ==> ps[i] == views[i].project
  {
    seq(|views|, i requires 0 <= i < |views| => views[i].project)
  }

  /** Each project paired with its milestones. */
  function WithMilestones(ps: seq<Project>, rows: seq<Milestone>): (r: seq<ProjectView>)
    ensures |r| == |ps|
    ensures forall i :: 0 <= i < |ps| ==> r[i].project == ps[i] && r[i].milestones == MilestonesOf(rows, ps[i].id)
    ensures ProjectsOf(r) == ps
  {
    seq(|ps|, i requires 0 <= i < |ps| => ProjectView(ps[i], MilestonesOf(rows, ps[i].id)))
  }

  /** Project listing: exactly the projects whose `archived` equals the query flag
      (0 when absent) and that the caller created or is a member of, newest first,
      each with its milestones. */
  function ListProjects(s: Store, cr: Crypto, header: Option<string>, archived: Option<int>): (r: Response)
    ensures Authenticate(cr, header).Denied? ==> r == Authenticate(cr, header).response
    ensures Authenticate(cr, header).Authorized? ==>
              && r.status == 200 && r.body.ProjectList?
              && var uid := Authenticate(cr, header).claims.id;
              && var views := r.body.projects;
              && multiset(ProjectsOf(views))
                   == multiset(Where(s.projects, ListedFor(s.members, uid, archived.GetOr(0))))
              && (forall p :: p in ProjectsOf(views) <==>
                                p in s.projects && p.archived == archived.GetOr(0)
                                && (p.created_by == uid || IsMember(s.members, p.id, uid)))
              && (forall i, j :: 0 <= i < j < |views| ==>
                                 !StrLess(views[i].project.created_at, views[j].project.created_at))
              && (forall i :: 0 <= i < |views| ==>
                                views[i].milestones == MilestonesOf(s.milestones, views[i].project.id))
  {
    match Authenticate(cr, header)
    case Denied(resp) => resp
    case Authorized(c) =>
      var listed := Where(s.projects, ListedFor(s.members, c.id, archived.GetOr(0)));
      var ordered := SortBy(listed, ProjectCreatedAt, true);
      SortBySpec(listed, ProjectCreatedAt, true);
      var views := WithMilestones(ordered, s.milestones);
      Response(200, ProjectList(views))
  }

  // ----- PUT /api/projects/:project_id -----

  datatype ProjectPatch = ProjectPatch(
    title: Option<string>,
    description: Option<string>,
    start_date: Option<string>,
    end_date: Option<string>,
    milestones: Option<seq<MilestoneInput>>)

  function PatchProject(patch: ProjectPatch, now: string): Project -> Project
  {
    (p: Project) => p.(title := patch.title.GetOr(p.title),
            description := if patch.description.Some? then patch.description else p.description,
            start_date := patch.start_date.GetOr(p.start_date),
            end_date := patch.end_date.GetOr(p.end_date),
            updated_at := now)
  }

  /** `UPDATE projects SET <COALESCE per field>, updated_at = now WHERE id = pid`:
      every row with the id takes each supplied field and keeps each absent one,
      and every other row stays. */
  function PatchedProjects(rows: seq<Project>, pid: string, patch: ProjectPatch, now: string): (r: seq<Project>)
    ensures |r| == |rows|
    ensures forall i :: 0 <= i < |rows| && rows[i].id != pid ==> r[i] == rows[i]
    ensures forall i :: 0 <= i < |rows| && rows[i].id == pid ==>
              var old_ := rows[i];
              var new_ := r[i];
              && new_.id == old_.id && new_.archived == old_.archived && new_.created_by == old_.created_by
              && new_.created_at == old_.created_at
              && new_.title == patch.title.GetOr(old_.title)
              && new_.start_date == patch.start_date.GetOr(old_.start_date)
              && new_.end_date == patch.end_date.GetOr(old_.end_date)
              && new_.description == (if patch.description.Some? then patch.description else old_.description)
              && new_.updated_at == now
  {
    UpdateWhere(rows, ProjectWithId(pid), PatchProject(patch, now))
  }

  /** The milestone half of a project update on an existing project: a supplied
      list replaces the project's milestones, and without one the stored
      milestones are read back unchanged. */
  function MilestonesAfterUpdate(rows: seq<Milestone>, pid: string, given: Option<seq<MilestoneInput>>,
                                 uuid: nat -> string): (r: MilestoneInsert)
    ensures given.None? ==> r == Inserted(rows, MilestonesOf(rows, pid))
    ensures Where(r.rows, MilestoneElsewhere(pid)) == Where(rows, MilestoneElsewhere(pid))
    ensures MilestonesOf(r.rows, pid) == r.added
    ensures given.Some? ==>
              && |r.added| <= |given.value| && (r.Inserted? <==> |r.added| == |given.value|)
              && forall i :: 0 <= i < |r.added| ==> r.added[i] == MilestoneRow(uuid(i), pid, given.value[i])
  {
    match given
    case None => Inserted(rows, MilestonesOf(rows, pid))
    case Some(ms) => ReplaceMilestones(rows, pid, ms, uuid)
  }

  /** Project update: COALESCE per field; `archived`, `created_by` and the id never
      change. A supplied milestones array first deletes every milestone of the
      project and then inserts the new list; without it they are left alone. */
  function UpdateProject(s: Store, cr: Crypto, env: Env, header: Option<string>, pid: string,
                         patch: ProjectPatch): (r: Step)
    ensures Authenticate(cr, header).Denied? ==> r == Step(s, Authenticate(cr, header).response)
    ensures r.store == s.(projects := r.store.projects, milestones := r.store.milestones)
    ensures |r.store.projects| == |s.projects|
    ensures forall i :: 0 <= i < |s.projects| && s.projects[i].id != pid ==> r.store.projects[i] == s.projects[i]
    ensures Authenticate(cr, header).Authorized? ==>
            forall i :: 0 <= i < |s.projects| && s.projects[i].id == pid ==>
              var old_ := s.projects[i];
              var new_ := r.store.projects[i];
              && new_.id == old_.id && new_.archived == old_.archived && new_.created_by == old_.created_by
              && new_.created_at == old_.created_at
              && new_.title == patch.title.GetOr(old_.title)
              && new_.start_date == patch.start_date.GetOr(old_.start_date)
              && new_.end_date == patch.end_date.GetOr(old_.end_date)
              && new_.description == (if patch.description.Some? then patch.description else old_.description)
              && new_.updated_at == env.now
    ensures patch.milestones.None? ==> r.store.milestones == s.milestones
    ensures Where(r.store.milestones, MilestoneElsewhere(pid)) == Where(s.milestones, MilestoneElsewhere(pid))
    ensures r.response.status == 200 && patch.milestones.Some? ==>
              && r.response.body.ProjectBody?
              && MilestonesOf(r.store.milestones, pid) == r.response.body.project.milestones
              && |r.response.body.project.milestones| == |patch.milestones.value|
              && forall i :: 0 <= i < |patch.milestones.value| ==>
                   var m := r.response.body.project.milestones[i];
                   m.project_id == pid && m.title == patch.milestones.value[i].title
                   && m.due_date == patch.milestones.value[i].due_date
    ensures Authenticate(cr, header).Authorized? && !HasKey(s.projects, ProjectId, pid) ==>
              r.response == ServerError("Failed to update project")
    ensures Authenticate(cr, header).Authorized? && HasKey(s.projects, ProjectId, pid) ==>
              && (r.response.status == 200 <==>
                    patch.milestones.None? || |MilestonesOf(r.store.milestones, pid)| == |patch.milestones.value|)
              && (r.response.status != 200 ==> r.response == ServerError("Failed to update project"))
              && (r.response.status == 200 ==>
                    r.response.body
                      == ProjectBody(ProjectView(r.store.projects[FirstWhere(s.projects, ProjectWithId(pid)).value],
                                                 MilestonesOf(r.store.milestones, pid))))
              && (patch.milestones.Some? ==>
                    && |MilestonesOf(r.store.milestones, pid)| <= |patch.milestones.value|
                    && forall i :: 0 <= i < |MilestonesOf(r.store.milestones, pid)| ==>
                         MilestonesOf(r.store.milestones, pid)[i]
                           == MilestoneRow(env.uuid(i), pid, patch.milestones.value[i]))
  {
    match Authenticate(cr, header)
    case Denied(resp) => Step(s, resp)
    case Authorized(_) =>
      match FirstWhere(s.projects, ProjectWithId(pid))
      case None =>
        assert !HasKey(s.projects, ProjectId, pid);
        assert PatchedProjects(s.projects, pid, patch, env.now) == s.projects;
        if patch.milestones.Some? then
          var kept := Where(s.milestones, MilestoneElsewhere(pid));
          WhereTwice(s.milestones, MilestoneElsewhere(pid));
          Step(s.(milestones := kept), ServerError("Failed to update project"))
        else
          Step(s, ServerError("Failed to update project"))
      case Some(i) =>
        assert HasKey(s.projects, ProjectId, pid) by { assert ProjectId(s.projects[i]) == pid; }
        UpdateExistingProject(s, env, pid, patch, i)
  }

  /** The update of a project that exists, `i` being its first row: the row is
      patched, the milestones follow `MilestonesAfterUpdate`, and the answer is
      the patched row with the project's milestones, or 500 when a milestone
      insert failed. */
  function UpdateExistingProject(s: Store, env: Env, pid: string, patch: ProjectPatch, i: nat): (r: Step)
    requires FirstWhere(s.projects, ProjectWithId(pid)) == Some(i)
    ensures r.store == s.(projects := PatchedProjects(s.projects, pid, patch, env.now),
                          milestones := r.store.milestones)
    ensures patch.milestones.None? ==> r.store.milestones == s.milestones
    ensures Where(r.store.milestones, MilestoneElsewhere(pid)) == Where(s.milestones, MilestoneElsewhere(pid))
    ensures r.response.status == 200 <==>
              patch.milestones.None? || |MilestonesOf(r.store.milestones, pid)| == |patch.milestones.value|
    ensures r.response.status != 200 ==> r.response == ServerError("Failed to update project")
    ensures r.response.status == 200 ==>
              r.response.body == ProjectBody(ProjectView(r.store.projects[i], MilestonesOf(r.store.milestones, pid)))
    ensures patch.milestones.Some? ==>
              && |MilestonesOf(r.store.milestones, pid)| <= |patch.milestones.value|
              && forall k :: 0 <= k < |MilestonesOf(r.store.milestones, pid)| ==>
                   MilestonesOf(r.store.milestones, pid)[k] == MilestoneRow(env.uuid(k), pid, patch.milestones.value[k])
    ensures r.response.status == 200 && patch.milestones.Some? ==>
              && r.response.body.ProjectBody?
              && MilestonesOf(r.store.milestones, pid) == r.response.body.project.milestones
              && |r.response.body.project.milestones| == |patch.milestones.value|
              && forall k :: 0 <= k < |patch.milestones.value| ==>
                   var m := r.response.body.project.milestones[k];
                   m.project_id == pid && m.title == patch.milestones.value[k].title
                   && m.due_date == patch.milestones.value[k].due_date
  {
    var projects := PatchedProjects(s.projects, pid, patch, env.now);
    var m := MilestonesAfterUpdate(s.milestones, pid, patch.milestones, env.uuid);
    var s2 := s.(projects := projects, milestones := m.rows);
    if m.Inserted? then Step(s2, Response(200, ProjectBody(ProjectView(projects[i], m.added))))
    else Step(s2, ServerError("Failed to update project"))
  }

  // ----- DELETE /api/projects/:project_id (archive) -----

  function ArchiveRow(now: string): Project -> Project
  {
    (p: Project) => p.(archived := 1, updated_at := now)
  }

  /** Archiving flips the flag to 1 on the project with that id; no other table is
      touched and the reply is the same whether or not the id exists. */
  function ArchiveProject(s: Store, cr: Crypto, env: Env, header: Option<string>, pid: string): (r: Step)
    ensures Authenticate(cr, header).Denied? ==> r == Step(s, Authenticate(cr, header).response)
    ensures r.store == s.(projects := r.store.projects)
    ensures |r.store.projects| == |s.projects|
    ensures forall i :: 0 <= i < |s.projects| ==>
              r.store.projects[i] == if s.projects[i].id == pid && Authenticate(cr, header).Authorized?
                                     then s.projects[i].(archived := 1, updated_at := env.now)
                                     else s.projects[i]
    ensures Authenticate(cr, header).Authorized? ==>
              r.response == Response(200, MessageBody("Project archived successfully"))
  {
    match Authenticate(cr, header)
    case Denied(resp) => Step(s, resp)
    case Authorized(_) =>
      Step(s.(projects := UpdateWhere(s.projects, ProjectWithId(pid), ArchiveRow(env.now))),
           Response(200, MessageBody("Project archived successfully")))
  }

  // ----- tasks -----

  datatype TaskRequest = TaskRequest(
    name: string,
    description: Option<string>,
    parent_task_id: Option<string>,
    assignee_id: Option<string>,
    due_date: string,
    priority: string,
    status: string)

  /** Task creation: inserts the row (empty optional fields become null) and
      broadcasts exactly one `task_update_event` carrying it. A project that does
      not exist or a taken id is a 500 with no event. */
  function CreateTask(s: Store, cr: Crypto, env: Env, header: Option<string>, pid: string,
                      req: TaskRequest): (r: Step)
    ensures Authenticate(cr, header).Denied? ==> r == Step(s, Authenticate(cr, header).response)
    ensures r.response.status == 200 <==>
              Authenticate(cr, header).Authorized? && HasKey(s.projects, ProjectId, pid)
              && !HasKey(s.tasks, TaskId, env.uuid(0))
    ensures r.response.status != 200 ==> r.store == s
    ensures r.response.status == 200 ==>
              && r.response.body.TaskBody?
              && var t := r.response.body.task;
              && r.store == s.(tasks := s.tasks + [t], events := s.events + [TaskUpdateEvent(Some(t))])
              && t.id == env.uuid(0) && t.project_id == pid && t.name == req.name && t.status == req.status
              && t.parent_task_id == OrNull(req.parent_task_id) && t.assignee_id == OrNull(req.assignee_id)
              && t.description == OrNull(req.description)
              && t.due_date == req.due_date && t.priority == req.priority
              && t.created_at == env.now && t.updated_at == env.now
  {
    match Authenticate(cr, header)
    case Denied(resp) => Step(s, resp)
    case Authorized(_) =>
      var t := Task(env.uuid(0), pid, OrNull(req.parent_task_id), req.name, OrNull(req.description),
                    OrNull(req.assignee_id), req.due_date, req.priority, req.status, env.now, env.now);
      if !HasKey(s.projects, ProjectId, pid) || HasKey(s.tasks, TaskId, t.id) then
        Step(s, ServerError("Failed to create task"))
      else
        Step(s.(tasks := s.tasks + [t], events := s.events + [TaskUpdateEvent(Some(t))]),
             Response(200, TaskBody(t)))
  }

  /** Task listing: the project's tasks (subtasks included), oldest first. */
  function ListTasks(s: Store, cr: Crypto, header: Option<string>, pid: string): (r: Response)
    ensures Authenticate(cr, header).Denied? ==> r == Authenticate(cr, header).response
    ensures Authenticate(cr, header).Authorized? ==>
              && r.status == 200 && r.body.TaskList?
              && multiset(r.body.tasks) == multiset(Where(s.tasks, TaskOfProject(pid)))
              && (forall t :: t in r.body.tasks <==> t in s.tasks && t.project_id == pid)
              && (forall i, j :: 0 <= i < j < |r.body.tasks| ==>
                                 !StrLess(r.body.tasks[j].created_at, r.body.tasks[i].created_at))
  {
    match Authenticate(cr, header)
    case Denied(resp) => resp
    case Authorized(_) =>
      var rows := Where(s.tasks, TaskOfProject(pid));
      SortBySpec(rows, TaskCreatedAt, false);
      Response(200, TaskList(SortBy(rows, TaskCreatedAt, false)))
  }

  datatype TaskPatch = TaskPatch(
    name: Option<string>,
    description: Option<string>,
    parent_task_id: Option<string>,
    assignee_id: Option<string>,
    due_date: Option<string>,
    priority: Option<string>,
    status: Option<string>)

  function PatchTask(patch: TaskPatch, now: string): Task -> Task
  {
    (t: Task) => t.(name := patch.name.GetOr(t.name),
            description := if patch.description.Some? then patch.description else t.description,
            parent_task_id := if patch.parent_task_id.Some? then patch.parent_task_id else t.parent_task_id,
            assignee_id := if patch.assignee_id.Some? then patch.assignee_id else t.assignee_id,
            due_date := patch.due_date.GetOr(t.due_date),
            priority := patch.priority.GetOr(t.priority),
            status := patch.status.GetOr(t.status),
            updated_at := now)
  }

  /** `UPDATE tasks SET <COALESCE per field>, updated_at = now WHERE id = tid`:
      every row with the id takes each supplied field and keeps each absent one,
      and every other row stays. */
  function PatchedTasks(rows: seq<Task>, tid: string, patch: TaskPatch, now: string): (r: seq<Task>)
    ensures |r| == |rows|
    ensures forall i :: 0 <= i < |rows| && rows[i].id != tid ==> r[i] == rows[i]
    ensures forall i :: 0 <= i < |rows| && rows[i].id == tid ==>
              var old_ := rows[i];
              var new_ := r[i];
              && new_.id == old_.id && new_.project_id == old_.project_id && new_.created_at == old_.created_at
              && new_.name == patch.name.GetOr(old_.name)
              && new_.status == patch.status.GetOr(old_.status)
              && new_.priority == patch.priority.GetOr(old_.priority)
              && new_.due_date == patch.due_date.GetOr(old_.due_date)
              && new_.assignee_id == (if patch.assignee_id.Some? then patch.assignee_id else old_.assignee_id)
              && new_.description == (if patch.description.Some? then patch.description else old_.description)
              && new_.parent_task_id == (if patch.parent_task_id.Some? then patch.parent_task_id else old_.parent_task_id)
              && new_.updated_at == now
  {
    UpdateWhere(rows, TaskWithId(tid), PatchTask(patch, now))
  }

  /** Task update: COALESCE per field (status transitions are unconstrained);
      `project_id`, id and creation time never change. Exactly one
      `task_update_event` is broadcast with the updated row, and with no payload
      when the id matches nothing. */
  function UpdateTask(s: Store, cr: Crypto, env: Env, header: Option<string>, tid: string,
                      patch: TaskPatch): (r: Step)
    ensures Authenticate(cr, header).Denied? ==> r == Step(s, Authenticate(cr, header).response)
    ensures r.store == s.(tasks := r.store.tasks, events := r.store.events)
    ensures |r.store.tasks| == |s.tasks|
    ensures forall i :: 0 <= i < |s.tasks| && s.tasks[i].id != tid ==> r.store.tasks[i] == s.tasks[i]
    ensures Authenticate(cr, header).Authorized? ==>
            forall i :: 0 <= i < |s.tasks| && s.tasks[i].id == tid ==>
              var old_ := s.tasks[i];
              var new_ := r.store.tasks[i];
              && new_.id == old_.id && new_.project_id == old_.project_id && new_.created_at == old_.created_at
              && new_.name == patch.name.GetOr(old_.name)
              && new_.status == patch.status.GetOr(old_.status)
              && new_.priority == patch.priority.GetOr(old_.priority)
              && new_.due_date == patch.due_date.GetOr(old_.due_date)
              && new_.assignee_id == (if patch.assignee_id.Some? then patch.assignee_id else old_.assignee_id)
              && new_.description == (if patch.description.Some? then patch.description else old_.description)
              && new_.parent_task_id == (if patch.parent_task_id.Some? then patch.parent_task_id else old_.parent_task_id)
              && new_.updated_at == env.now
    ensures Authenticate(cr, header).Authorized? ==>
              && r.response.status == 200
              && |r.store.events| == |s.events| + 1
              && r.store.events[..|s.events|] == s.events
              && var e := r.store.events[|s.events|];
              && e.TaskUpdateEvent?
              && (e.task.None? <==> !HasKey(s.tasks, TaskId, tid))
              && (e.task.Some? ==> e.task.value.id == tid && e.task.value in r.store.tasks
                                   && e.task.value == r.store.tasks[FirstWhere(s.tasks, TaskWithId(tid)).value]
                                   && r.response.body == TaskBody(e.task.value))
              && (e.task.None? ==> r.response.body == NoBody)
  {
    match Authenticate(cr, header)
    case Denied(resp) => Step(s, resp)
    case Authorized(_) =>
      var tasks := PatchedTasks(s.tasks, tid, patch, env.now);
      var events_ := s.events;
      match FirstWhere(s.tasks, TaskWithId(tid))
      case None =>
        assert tasks == s.tasks;
        Step(s.(tasks := tasks, events := events_ + [TaskUpdateEvent(None)]), Response(200, NoBody))
      case Some(i) =>
        var row := tasks[i];
        Step(s.(tasks := tasks, events := events_ + [TaskUpdateEvent(Some(row))]), Response(200, TaskBody(row)))
  }

  /** Task deletion removes the row with that id and nothing else. */
  function DeleteTask(s: Store, cr: Crypto, header: Option<string>, tid: string): (r: Step)
    ensures Authenticate(cr, header).Denied? ==> r == Step(s, Authenticate(cr, header).response)
    ensures r.store == s.(tasks := r.store.tasks)
    ensures Authenticate(cr, header).Authorized? ==>
              && r.response == Response(200, MessageBody("Task deleted successfully"))
              && forall t :: t in r.store.tasks <==> t in s.tasks && t.id != tid
  {
    match Authenticate(cr, header)
    case Denied(resp) => Step(s, resp)
    case Authorized(_) =>
      Step(s.(tasks := Where(s.tasks, TaskElsewhere(tid))), Response(200, MessageBody("Task deleted successfully")))
  }

  // ----- POST /api/tasks/:task_id/comments -----

  /** Comment creation: the author is the caller, and exactly one `comment_event`
      with the stored row is broadcast. */
  function CreateComment(s: Store, cr: Crypto, env: Env, header: Option<string>, tid: string,
                         text: string): (r: Step)
    ensures Authenticate(cr, header).Denied? ==> r == Step(s, Authenticate(cr, header).response)
    ensures r.response.status == 200 <==>
              Authenticate(cr, header).Authorized? && !HasKey(s.comments, CommentId, env.uuid(0))
    ensures r.response.status != 200 ==> r.store == s
    ensures r.response.status == 200 ==>
              && r.response.body.CommentBody?
              && var c := r.response.body.comment;
              && r.store == s.(comments := s.comments + [c], events := s.events + [CommentEvent(c)])
              && c == Comment(env.uuid(0), tid, Authenticate(cr, header).claims.id, text, env.now)
  {
    match Authenticate(cr, header)
    case Denied(resp) => Step(s, resp)
    case Authorized(claims) =>
      var c := Comment(env.uuid(0), tid, claims.id, text, env.now);
      if HasKey(s.comments, CommentId, c.id) then Step(s, ServerError("Failed to add comment"))
      else Step(s.(comments := s.comments + [c], events := s.events + [CommentEvent(c)]), Response(200, CommentBody(c)))
  }

  // ----- POST /api/tasks/:task_id/attachments -----

  /** Drops trailing occurrences of `c`. */
  function StripTrailing(s: string, c: char): (r: string)
    ensures |r| <= |s| && r == s[..|r|]
    ensures r == [] || r[|r| - 1] != c
    ensures forall i :: |r| <= i < |s| ==> s[i] == c
  {
    if s != [] && s[|s| - 1] == c then StripTrailing(s[..|s| - 1], c) else s
  }

  /** `path.extname(name).substring(1)`: the text after the last dot of the base
      name; empty when the base name has no dot or starts with its only dot. */
  function FileType(name: string): (r: string)
    ensures '.' !in r && '/' !in r
    ensures |r| <= |name|
  {
    var trimmed := StripTrailing(name, '/');
    var base := match LastIndexOf(trimmed, '/')
                case None => trimmed
                case Some(k) => trimmed[k + 1..];
    match LastIndexOf(base, '.')
    case None => ""
    case Some(d) => if d == 0 then "" else base[d + 1..]
  }

  /** A file name `stem.ext` has type `ext`. */
  lemma FileTypeOfName(stem: string, ext: string)
    requires stem != [] && '/' !in stem && '/' !in ext && '.' !in ext
    ensures FileType(stem + "." + ext) == ext
  {
    var name := stem + "." + ext;
    assert name == stem + ['.'] + ext;
    assert name[|name| - 1] != '/' by {
      if ext != [] { assert name[|name| - 1] == ext[|ext| - 1]; }
    }
    assert StripTrailing(name, '/') == name;
    LastIndexOfAfter(stem, '.', ext);
    assert name[|stem| + 1..] == ext;
  }

  /** A name without a dot has no type, and neither has a dot-file. */
  lemma FileTypeWithoutDot(stem: string)
    requires stem != [] && '/' !in stem && '.' !in stem
    ensures FileType(stem) == ""
    ensures FileType("." + stem) == ""
  {
    assert stem[|stem| - 1] in stem;
    assert StripTrailing(stem, '/') == stem;
    var dot := "." + stem;
    assert dot == [] + ['.'] + stem;
    assert dot[|dot| - 1] == stem[|stem| - 1];
    assert StripTrailing(dot, '/') == dot;
    LastIndexOfAfter([], '.', stem);
  }

  datatype UploadedFile = UploadedFile(originalname: string, filename: string)

  /** Attachment upload: 400 without a file; otherwise the row records the caller,
      the original name, the storage URL and the type taken from the name. */
  function UploadAttachment(s: Store, cr: Crypto, env: Env, header: Option<string>, tid: string,
                            file: Option<UploadedFile>, origin: string): (r: Step)
    ensures Authenticate(cr, header).Denied? ==> r == Step(s, Authenticate(cr, header).response)
    ensures Authenticate(cr, header).Authorized? && file.None? ==>
              r == Step(s, Response(400, ErrorBody("No file uploaded")))
    ensures r.response.status != 200 ==> r.store == s
    ensures r.response.status == 200 <==>
              Authenticate(cr, header).Authorized? && file.Some? && !HasKey(s.attachments, AttachmentId, env.uuid(0))
    ensures Authenticate(cr, header).Authorized? && file.Some? && r.response.status != 200 ==>
              r.response == ServerError("Failed to upload attachment")
    ensures r.response.status == 200 ==>
              && file.Some? && r.response.body.AttachmentBody?
              && r.response.body.attachment.id == env.uuid(0)
              && r.response.body.attachment.uploaded_at == env.now
              && var a := r.response.body.attachment;
              && r.store == s.(attachments := s.attachments + [a])
              && a.user_id == Authenticate(cr, header).claims.id && a.task_id == tid
              && a.file_name == file.value.originalname
              && a.file_type == FileType(file.value.originalname)
              && a.file_url == origin + "/storage/" + file.value.filename
  {
    match Authenticate(cr, header)
    case Denied(resp) => Step(s, resp)
    case Authorized(claims) =>
      match file
      case None => Step(s, Response(400, ErrorBody("No file uploaded")))
      case Some(f) =>
        var a := Attachment(env.uuid(0), tid, claims.id, f.originalname, origin + "/storage/" + f.filename,
                            FileType(f.originalname), env.now);
        if HasKey(s.attachments, AttachmentId, a.id) then Step(s, ServerError("Failed to upload attachment"))
        else Step(s.(attachments := s.attachments + [a]), Response(200, AttachmentBody(a)))
  }

  // ----- notifications -----

  /** The caller's notifications, newest first. */
  function ListNotifications(s: Store, cr: Crypto, header: Option<string>): (r: Response)
    ensures Authenticate(cr, header).Denied? ==> r == Authenticate(cr, header).response
    ensures Authenticate(cr, header).Authorized? ==>
              && r.status == 200 && r.body.NotificationList?
              && multiset(r.body.notifications)
                   == multiset(Where(s.notifications, NotificationForUser(Authenticate(cr, header).claims.id)))
              && (forall n :: n in r.body.notifications <==>
                                n in s.notifications && n.user_id == Authenticate(cr, header).claims.id)
              && (forall i, j :: 0 <= i < j < |r.body.notifications| ==>
                                 !StrLess(r.body.notifications[i].created_at, r.body.notifications[j].created_at))
  {
    match Authenticate(cr, header)
    case Denied(resp) => resp
    case Authorized(c) =>
      var rows := Where(s.notifications, NotificationForUser(c.id));
      SortBySpec(rows, NotificationCreatedAt, true);
      Response(200, NotificationList(SortBy(rows, NotificationCreatedAt, true)))
  }

  /** Marking read sets `read_status` to the supplied value, 1 by default, on the
      notification with that id and changes nothing else. */
  function MarkNotification(s: Store, cr: Crypto, header: Option<string>, nid: string,
                            readStatus: Option<int>): (r: Step)
    ensures Authenticate(cr, header).Denied? ==> r == Step(s, Authenticate(cr, header).response)
    ensures r.store == s.(notifications := r.store.notifications)
    ensures |r.store.notifications| == |s.notifications|
    ensures Authenticate(cr, header).Authorized? ==>
              forall i :: 0 <= i < |s.notifications| ==>
                r.store.notifications[i] == if s.notifications[i].id == nid
                                            then s.notifications[i].(read_status := readStatus.GetOr(1))
                                            else s.notifications[i]
    ensures Authenticate(cr, header).Authorized? ==>
              && r.response.status == 200
              && (FirstWhere(s.notifications, NotificationWithId(nid)).None? ==> r.response.body == NoBody)
              && (FirstWhere(s.notifications, NotificationWithId(nid)).Some? ==>
                    r.response.body
                      == NotificationBody(r.store.notifications[FirstWhere(s.notifications, NotificationWithId(nid)).value]))
  {
    match Authenticate(cr, header)
    case Denied(resp) => Step(s, resp)
    case Authorized(_) =>
      var read := readStatus.GetOr(1);
      var f: Notification -> Notification := (n: Notification) => n.(read_status := read);
      var rows := UpdateWhere(s.notifications, NotificationWithId(nid), f);
      match FirstWhere(s.notifications, NotificationWithId(nid))
      case None => Step(s.(notifications := rows), Response(200, NoBody))
      case Some(i) => Step(s.(notifications := rows), Response(200, NotificationBody(f(s.notifications[i]))))
  }

  // ----- the realtime handshake (io.use) -----

  /** `socket.handshake.auth.token || socket.handshake.query.token`. */
  function HandshakeToken(authToken: Option<string>, queryToken: Option<string>): (t: Option<string>)
    ensures Truthy(authToken) ==> t == authToken
    ensures !Truthy(authToken) ==> t == queryToken
  {
    if Truthy(authToken) then authToken else queryToken
  }

  datatype Handshake = Accepted(claims: Claims) | Refused(message: string)

  datatype Connection = Connection(store: Store, result: Handshake)

  /** The connection middleware: no token or a token that fails verification
      refuses the connection and joins no room; otherwise the socket joins the
      room named by the decoded user id. */
  function Connect(s: Store, cr: Crypto, socketId: string, authToken: Option<string>,
                   queryToken: Option<string>): (r: Connection)
    ensures !Truthy(HandshakeToken(authToken, queryToken)) ==>
              r == Connection(s, Refused("Authentication error: No token provided"))
    ensures Truthy(HandshakeToken(authToken, queryToken))
              && cr.verify(HandshakeToken(authToken, queryToken).value).None? ==>
              r == Connection(s, Refused("Authentication error: Invalid token"))
    ensures r.result.Accepted? <==>
              Truthy(HandshakeToken(authToken, queryToken))
              && cr.verify(HandshakeToken(authToken, queryToken).value).Some?
    ensures r.result.Accepted? ==>
              && Some(r.result.claims) == cr.verify(HandshakeToken(authToken, queryToken).value)
              && r.store == s.(rooms := s.rooms + {(socketId, r.result.claims.id)})
  {
    var token := HandshakeToken(authToken, queryToken);
    if !Truthy(token) then Connection(s, Refused("Authentication error: No token provided"))
    else
      match cr.verify(token.value)
      case None => Connection(s, Refused("Authentication error: Invalid token"))
      case Some(decoded) => Connection(s.(rooms := s.rooms + {(socketId, decoded.id)}), Accepted(decoded))
  }

  /** A closed socket leaves every room it had joined; other sockets keep theirs. */
  function Disconnect(s: Store, socketId: string): (r: Store)
    ensures r == s.(rooms := r.rooms)
    ensures forall m :: m in r.rooms <==> m in s.rooms && m.0 != socketId
  {
    s.(rooms := set m | m in s.rooms && m.0 != socketId)
  }

  // ----- the route table -----

  /** One HTTP request to the API, by method and path, with the parts of it the
      handler reads. */
  datatype Request =
    | PostAuthRegister(register: RegisterRequest)
    | PostAuthLogin(email: string, password: Option<string>)
    | GetUserById(header: Option<string>, userId: string)
    | PutUserById(header: Option<string>, userId: string, userPatch: UserPatch)
    | PostInvitations(header: Option<string>, invitation: InvitationRequest)
    | PostProjects(header: Option<string>, project: ProjectRequest)
    | GetProjects(header: Option<string>, archived: Option<int>)
    | PutProjectById(header: Option<string>, projectId: string, projectPatch: ProjectPatch)
    | DeleteProjectById(header: Option<string>, projectId: string)
    | PostProjectTasks(header: Option<string>, projectId: string, task: TaskRequest)
    | GetProjectTasks(header: Option<string>, projectId: string)
    | PutTaskById(header: Option<string>, taskId: string, taskPatch: TaskPatch)
    | DeleteTaskById(header: Option<string>, taskId: string)
    | PostTaskComments(header: Option<string>, taskId: string, text: string)
    | PostTaskAttachments(header: Option<string>, taskId: string, file: Option<UploadedFile>, origin: string)
    | GetNotifications(header: Option<string>)
    | PutNotificationById(header: Option<string>, notificationId: string, readStatus: Option<int>)

  /** Routes a request to its handler; reads leave the store as it was. */
  function Handle(s: Store, cr: Crypto, env: Env, rq: Request): (r: Step)
    ensures (rq.GetUserById? || rq.GetProjects? || rq.GetProjectTasks? || rq.GetNotifications?
             || rq.PostAuthLogin?) ==> r.store == s
  {
    match rq
    case PostAuthRegister(req) => Register(s, cr, env, req)
    case PostAuthLogin(email, password) => Step(s, Login(s, cr, email, password))
    case GetUserById(h, uid) => Step(s, GetUser(s, cr, h, uid))
    case PutUserById(h, uid, patch) => UpdateUser(s, cr, env, h, uid, patch)
    case PostInvitations(h, req) => SendInvitation(s, cr, env, h, req)
    case PostProjects(h, req) => CreateProject(s, cr, env, h, req)
    case GetProjects(h, archived) => Step(s, ListProjects(s, cr, h, archived))
    case PutProjectById(h, pid, patch) => UpdateProject(s, cr, env, h, pid, patch)
    case DeleteProjectById(h, pid) => ArchiveProject(s, cr, env, h, pid)
    case PostProjectTasks(h, pid, req) => CreateTask(s, cr, env, h, pid, req)
    case GetProjectTasks(h, pid) => Step(s, ListTasks(s, cr, h, pid))
    case PutTaskById(h, tid, patch) => UpdateTask(s, cr, env, h, tid, patch)
    case DeleteTaskById(h, tid) => DeleteTask(s, cr, h, tid)
    case PostTaskComments(h, tid, text) => CreateComment(s, cr, env, h, tid, text)
    case PostTaskAttachments(h, tid, file, origin) => UploadAttachment(s, cr, env, h, tid, file, origin)
    case GetNotifications(h) => Step(s, ListNotifications(s, cr, h))
    case PutNotificationById(h, nid, read) => MarkNotification(s, cr, h, nid, read)
  }
}

=== FILE: tables.dfy ===
/** Generic operations on a relational table held as a sequence of rows in
    insertion order: `WHERE` filters, `rows[0]` lookups, `UPDATE ... WHERE`,
    `DELETE ... WHERE`, and primary-key uniqueness. */
module Tables {
  import opened Wrappers

  /** No two rows share a key (a PRIMARY KEY or UNIQUE constraint). */
  ghost predicate UniqueKeys<T>(rows: seq<T>, key: T -> string)
  {
    forall i, j :: 0 <= i < j < |rows| ==> key(rows[i]) != key(rows[j])
  }

  /** Some row carries key `k`. */
  predicate HasKey<T>(rows: seq<T>, key: T -> string, k: string)
  {
    exists i :: 0 <= i < |rows| && key(rows[i]) == k
  }

  /** Index of the first row satisfying `p` (`rows.find`, or `rows[0]` of a query). */
  function FirstWhere<T>(rows: seq<T>, p: T -> bool): (r: Option<nat>)
    ensures r.None? <==> forall i :: 0 <= i < |rows| ==> !p(rows[i])
    ensures r.Some? ==> r.value < |rows| && p(rows[r.value])
    ensures r.Some? ==> forall i :: 0 <= i < r.value ==> !p(rows[i])
  {
    if rows == [] then None
    else if p(rows[0]) then Some(0)
    else
      match FirstWhere(rows[1..], p)
      case None => None
      case Some(i) => Some(i + 1)
  }

  /** `SELECT ... WHERE p` (and JavaScript `filter`): the rows satisfying `p`, in order. */
  function Where<T(!new)>(rows: seq<T>, p: T -> bool): (r: seq<T>)
    ensures |r| <= |rows|
    ensures forall x :: x in r <==> x in rows && p(x)
  {
    if rows == [] then []
    else if p(rows[0]) then [rows[0]] + Where(rows[1..], p)
    else Where(rows[1..], p)
  }

  /** `UPDATE ... SET f WHERE p`: every matching row rewritten, the others kept in place. */
  function UpdateWhere<T>(rows: seq<T>, p: T -> bool, f: T -> T): (r: seq<T>)
    ensures |r| == |rows|
    ensures forall i :: 0 <= i < |rows| && !p(rows[i]) ==> r[i] == rows[i]
    ensures forall i :: 0 <= i < |rows| && p(rows[i]) ==> r[i] == f(rows[i])
  {
    seq(|rows|, i requires 0 <= i < |rows| => if p(rows[i]) then f(rows[i]) else rows[i])
  }

  /** Two tables whose rows agree on the predicate row by row have the same
      first match. */
  lemma FirstWhereAgrees<T>(a: seq<T>, b: seq<T>, p: T -> bool, i: nat)
    requires FirstWhere(a, p) == Some(i)
    requires |a| == |b| && forall j :: 0 <= j < |a| ==> p(b[j]) == p(a[j])
    ensures FirstWhere(b, p) == Some(i)
  {
    assert p(b[i]);
  }

  /** Filtering distributes over concatenation: the order of the table is kept. */
  lemma {:induction false} WhereAppend<T(!new)>(a: seq<T>, b: seq<T>, p: T -> bool)
    ensures Where(a + b, p) == Where(a, p) + Where(b, p)
  {
    if a == [] {
      assert a + b == b;
    } else {
      assert (a + b)[0] == a[0];
      assert (a + b)[1..] == a[1..] + b;
      WhereAppend(a[1..], b, p);
    }
  }

  /** A filter that keeps every row is the identity. */
  lemma {:induction false} WhereAll<T(!new)>(rows: seq<T>, p: T -> bool)
    requires forall i :: 0 <= i < |rows| ==> p(rows[i])
    ensures Where(rows, p) == rows
  {
    if rows != [] {
      WhereAll(rows[1..], p);
    }
  }

  /** Filtering twice by the same predicate is filtering once. */
  lemma WhereTwice<T(!new)>(rows: seq<T>, p: T -> bool)
    ensures Where(Where(rows, p), p) == Where(rows, p)
  {
    var w := Where(rows, p);
    assert forall i :: 0 <= i < |w| ==> w[i] in w;
    WhereAll(w, p);
  }

  /** A filter that keeps no row is empty. */
  lemma {:induction false} WhereNone<T(!new)>(rows: seq<T>, p: T -> bool)
    requires forall i :: 0 <= i < |rows| ==> !p(rows[i])
    ensures Where(rows, p) == []
  {
    if rows != [] {
      WhereNone(rows[1..], p);
    }
  }

  /** Appending a row with an unused key keeps keys unique. */
  lemma UniqueAppend<T>(rows: seq<T>, x: T, key: T -> string)
    requires UniqueKeys(rows, key)
    requires !HasKey(rows, key, key(x))
    ensures UniqueKeys(rows + [x], key)
  {
    var r := rows + [x];
    forall i, j | 0 <= i < j < |r| ensures key(r[i]) != key(r[j]) {
      if j == |rows| {
        assert r[i] == rows[i];
      } else {
        assert r[i] == rows[i] && r[j] == rows[j];
      }
    }
  }

  /** Every key of a filtered table is a key of the table. */
  lemma WhereKeys<T(!new)>(rows: seq<T>, p: T -> bool, key: T -> string, k: string)
    requires HasKey(Where(rows, p), key, k)
    ensures HasKey(rows, key, k)
  {
    var w := Where(rows, p);
    var i :| 0 <= i < |w| && key(w[i]) == k;
    assert w[i] in rows;
  }

  /** Filtering keeps keys unique. */
  lemma {:induction false} UniqueWhere<T(!new)>(rows: seq<T>, p: T -> bool, key: T -> string)
    requires UniqueKeys(rows, key)
    ensures UniqueKeys(Where(rows, p), key)
  {
    if rows != [] {
      var tail := rows[1..];
      assert UniqueKeys(tail, key) by {
        forall i, j | 0 <= i < j < |tail| ensures key(tail[i]) != key(tail[j]) {
          assert tail[i] == rows[i + 1] && tail[j] == rows[j + 1];
        }
      }
      UniqueWhere(tail, p, key);
      if p(rows[0]) {
        var w := Where(tail, p);
        assert !HasKey(w, key, key(rows[0])) by {
          if HasKey(w, key, key(rows[0])) {
            WhereKeys(tail, p, key, key(rows[0]));
            assert false;
          }
        }
        var r := [rows[0]] + w;
        forall i, j | 0 <= i < j < |r| ensures key(r[i]) != key(r[j]) {
          if i == 0 {
            assert r[j] == w[j - 1];
          } else {
            assert r[i] == w[i - 1] && r[j] == w[j - 1];
          }
        }
      }
    }
  }

  /** Rewriting rows without touching their keys keeps keys unique. */
  lemma UniqueUpdate<T>(rows: seq<T>, p: T -> bool, f: T -> T, key: T -> string)
    requires UniqueKeys(rows, key)
    requires forall i :: 0 <= i < |rows| && p(rows[i]) ==> key(f(rows[i])) == key(rows[i])
    ensures UniqueKeys(UpdateWhere(rows, p, f), key)
    ensures forall k :: HasKey(UpdateWhere(rows, p, f), key, k) <==> HasKey(rows, key, k)
  {
    var r := UpdateWhere(rows, p, f);
    assert forall i :: 0 <= i < |rows| ==> key(r[i]) == key(rows[i]);
  }
}

=== FILE: task_forms.dfy ===
/** The create-task and edit-task modals: validation, defaults, prefill from the
    fetched task list, the error flow of a failed request and the subtask list
    editors. */
module TaskForms {
  import opened Wrappers
  import opened Text
  import opened Tables
  import opened Schema
  import opened FormKeys

  // ----- create task -----

  datatype TaskForm = TaskForm(
    name: string,
    description: string,
    due_date: string,
    assignee_id: string,
    priority: string,
    status: string)

  /** The form a new task starts from, and the form restored after a task is
      created: both are this record. */
  const DefaultTaskForm: TaskForm := TaskForm("", "", "", "", "Medium", "not_started")

  /** An entry of the assignee drop-down. */
  datatype AssigneeOption = AssigneeOption(id: string, name: string)

  /** "Unassigned" first, then the signed-in user if there is one. */
  function AssigneeOptions(user: Option<UserView>): (opts: seq<AssigneeOption>)
    ensures 1 <= |opts| <= 2 && opts[0] == AssigneeOption("", "Unassigned")
    ensures |opts| == 2 <==> user.Some?
    ensures user.Some? ==>
              opts[1].id == user.value.id && opts[1].name == user.value.first_name + " " + user.value.last_name
  {
    [AssigneeOption("", "Unassigned")]
      + (if user.Some? then [AssigneeOption(user.value.id, user.value.first_name + " " + user.value.last_name)] else [])
  }

  /** What pressing "Create" leads to before any request is answered. */
  datatype CreateTaskStep =
    | Rejected(errors: Errors)
    | Post(project_id: string, form: TaskForm)

  /** The checks of `handleSubmit`: a blank name stops first; then a missing
      project id in the path stops with an API error; otherwise the form is
      posted to that project. */
  function SubmitTask(f: TaskForm, project_id: Option<string>): (r: CreateTaskStep)
    ensures IsBlank(f.name) ==> r == Rejected(map[Name := "Task name is required."])
    ensures !IsBlank(f.name) && !Truthy(project_id) ==> r == Rejected(map[Api := "Project identifier not found."])
    ensures r.Post? <==> !IsBlank(f.name) && Truthy(project_id)
    ensures r.Post? ==> r.project_id == project_id.value && r.form == f
  {
    if IsBlank(f.name) then Rejected(map[Name := "Task name is required."])
    else if !Truthy(project_id) then Rejected(map[Api := "Project identifier not found."])
    else Post(project_id.value, f)
  }

  /** How the POST ended. */
  datatype PostOutcome =
    | Created
    | ErrorStatus(error: Option<string>)
    | NetworkFailure

  datatype CreateTaskView = CreateTaskView(
    form: TaskForm,
    errors: Errors,
    status: string,
    open: bool)

  /** The state after the answer to a POST: success resets the form and closes
      the modal; an error status shows the server's message or a default; a
      network failure shows a generic message. */
  function AfterPost(v: CreateTaskView, outcome: PostOutcome): (r: CreateTaskView)
    ensures outcome.Created? ==> r == CreateTaskView(DefaultTaskForm, map[], "success", false)
    ensures outcome.ErrorStatus? ==>
              && r == v.(errors := r.errors, status := "error")
              && r.errors == map[Api := if Truthy(outcome.error) then outcome.error.value else "Failed to create task."]
    ensures outcome.NetworkFailure? ==>
              r == v.(errors := map[Api := "An unexpected error occurred."], status := "error")
  {
    match outcome
    case Created => v.(form := DefaultTaskForm, errors := map[], status := "success", open := false)
    case ErrorStatus(e) =>
      v.(errors := map[Api := if Truthy(e) then e.value else "Failed to create task."], status := "error")
    case NetworkFailure => v.(errors := map[Api := "An unexpected error occurred."], status := "error")
  }

  /** A successful creation leaves the form as a fresh modal starts it. */
  lemma CreatedFormIsInitial(f: TaskForm, errors: Errors, status: string)
    ensures AfterPost(CreateTaskView(f, errors, status, true), Created).form
            == CreateTaskView(DefaultTaskForm, map[], "idle", true).form
  {
  }

  // ----- edit task -----

  datatype SubtaskForm = SubtaskForm(id: string, name: string, completed: bool)

  datatype EditTaskForm = EditTaskForm(
    task_id: string,
    name: string,
    description: string,
    due_date: string,
    assignee_id: string,
    priority: string,
    status: string,
    subtasks: seq<SubtaskForm>)

  /** The four inline messages; "" means no error. */
  datatype EditTaskErrors = EditTaskErrors(name: string, due_date: string, assignee_id: string, priority: string)

  const NoEditErrors: EditTaskErrors := EditTaskErrors("", "", "", "")

  /** `validateForm` of the edit modal: four emptiness checks, no trimming. */
  function ValidateEdit(f: EditTaskForm): (r: (EditTaskErrors, bool))
    ensures r.1 <==> r.0 == NoEditErrors
    ensures r.0.name != "" <==> f.name == ""
    ensures r.0.due_date != "" <==> f.due_date == ""
    ensures r.0.assignee_id != "" <==> f.assignee_id == ""
    ensures r.0.priority != "" <==> f.priority == ""
  {
    var errs := EditTaskErrors(
      if f.name == "" then "Task name is required" else "",
      if f.due_date == "" then "Due date is required" else "",
      if f.assignee_id == "" then "Assignee is required" else "",
      if f.priority == "" then "Priority is required" else "");
    (errs, f.name != "" && f.due_date != "" && f.assignee_id != "" && f.priority != "")
  }

  /** A name of only blanks passes here, though the create modal refuses it. */
  lemma EditDoesNotTrim(f: EditTaskForm)
    requires f.name == " " && f.due_date != "" && f.assignee_id != "" && f.priority != ""
    ensures ValidateEdit(f).1
    ensures SubmitTask(TaskForm(f.name, "", "", "", "", ""), Some("p")).Rejected?
  {
    assert AllSpace(f.name) by { assert IsSpace(f.name[0]); }
  }

  datatype EditField = NameField | DescriptionField | DueDateField | AssigneeField | PriorityField | StatusField

  /** `handleInputChange`: writes the field and clears that field's message
      only. */
  function ChangeField(f: EditTaskForm, errs: EditTaskErrors, field: EditField, value: string)
    : (r: (EditTaskForm, EditTaskErrors))
    ensures field == NameField ==> r.0 == f.(name := value) && r.1 == errs.(name := "")
    ensures field == DescriptionField ==> r.0 == f.(description := value) && r.1 == errs
    ensures field == DueDateField ==> r.0 == f.(due_date := value) && r.1 == errs.(due_date := "")
    ensures field == AssigneeField ==> r.0 == f.(assignee_id := value) && r.1 == errs.(assignee_id := "")
    ensures field == PriorityField ==> r.0 == f.(priority := value) && r.1 == errs.(priority := "")
    ensures field == StatusField ==> r.0 == f.(status := value) && r.1 == errs
  {
    match field
    case NameField => (f.(name := value), errs.(name := ""))
    case DescriptionField => (f.(description := value), errs)
    case DueDateField => (f.(due_date := value), errs.(due_date := ""))
    case AssigneeField => (f.(assignee_id := value), errs.(assignee_id := ""))
    case PriorityField => (f.(priority := value), errs.(priority := ""))
    case StatusField => (f.(status := value), errs)
  }

  /** A change to a field never hides another field's error: revalidating the
      changed form reports the same errors for the untouched fields. */
  lemma ChangeKeepsOtherErrors(f: EditTaskForm, field: EditField, value: string)
    ensures var f' := ChangeField(f, ValidateEdit(f).0, field, value).0;
            var e, e' := ValidateEdit(f).0, ValidateEdit(f').0;
            && (field != NameField ==> e'.name == e.name)
            && (field != DueDateField ==> e'.due_date == e.due_date)
            && (field != AssigneeField ==> e'.assignee_id == e.assignee_id)
            && (field != PriorityField ==> e'.priority == e.priority)
  {
  }

  /** `x.substring(0, 16)`. */
  function Prefix16(s: string): (r: string)
    ensures |r| == if |s| < 16 then |s| else 16
    ensures r == s[..|r|]
  {
    if |s| <= 16 then s else s[..16]
  }

  /** The form filled from a fetched task row. Rows carry no subtask list, so
      the form starts with none. */
  function PrefillTask(t: Task): (f: EditTaskForm)
    ensures f.task_id == t.id && f.name == t.name && f.subtasks == []
    ensures f.due_date == Prefix16(t.due_date)
    ensures f.description == t.description.GetOr("")
    ensures f.assignee_id == if Truthy(t.assignee_id) then t.assignee_id.value else ""
    ensures f.priority == (if t.priority == "" then "Medium" else t.priority) && f.priority != ""
    ensures f.status == (if t.status == "" then "not_started" else t.status) && f.status != ""
  {
    EditTaskForm(
      t.id,
      t.name,
      if Truthy(t.description) then t.description.value else "",
      if t.due_date != "" then Prefix16(t.due_date) else "",
      if Truthy(t.assignee_id) then t.assignee_id.value else "",
      if t.priority != "" then t.priority else "Medium",
      if t.status != "" then t.status else "not_started",
      [])
  }

  datatype Prefilled = Loaded(form: EditTaskForm) | LoadError(message: string)

  /** The fetched list's task with the id fills the form, else "Task not found". */
  function LoadEditForm(tasks: seq<Task>, id: string): (r: Prefilled)
    ensures r.LoadError? <==> forall i :: 0 <= i < |tasks| ==> tasks[i].id != id
    ensures r.LoadError? ==> r.message == "Task not found"
    ensures r.Loaded? ==>
              exists i :: && 0 <= i < |tasks| && tasks[i].id == id && r.form == PrefillTask(tasks[i])
                          && forall j :: 0 <= j < i ==> tasks[j].id != id
  {
    match FirstWhere(tasks, (t: Task) => t.id == id)
    case None => LoadError("Task not found")
    case Some(k) => Loaded(PrefillTask(tasks[k]))
  }

  /** The modal's fetch runs only with a token, a project id and a task id in
      hand; without them it never starts and the modal stays on "Loading..."
      (None). With them, the fetched list of the project's tasks fills the form
      as `LoadEditForm` says. */
  function OpenEditTask(token: Option<string>, project_id: Option<string>, task_id: Option<string>,
                        tasks: seq<Task>): (r: Option<Prefilled>)
    ensures r.None? <==> !(Truthy(token) && Truthy(project_id) && Truthy(task_id))
    ensures r.Some? ==> r.value == LoadEditForm(tasks, task_id.value)
  {
    if Truthy(token) && Truthy(project_id) && Truthy(task_id) then Some(LoadEditForm(tasks, task_id.value))
    else None
  }

  /** App.tsx mounts the modal after its `<Routes>`, where `useParams` supplies
      neither id: as mounted, the modal never loads a task. */
  lemma MountedEditTaskStaysLoading(token: Option<string>, tasks: seq<Task>)
    ensures OpenEditTask(token, None, None, tasks) == None
  {
  }

  /** Prefilling never leaves the priority empty, so a prefilled form with a
      name, due date and assignee passes validation. */
  lemma PrefilledPriorityValid(t: Task)
    requires t.name != "" && t.due_date != "" && Truthy(t.assignee_id)
    ensures ValidateEdit(PrefillTask(t)).1
  {
  }

  /** "Add Subtask": an empty, open subtask whose id is the clock reading. */
  function AddSubtask(f: EditTaskForm, now: string): (r: EditTaskForm)
    ensures r == f.(subtasks := r.subtasks)
    ensures |r.subtasks| == |f.subtasks| + 1 && r.subtasks[..|f.subtasks|] == f.subtasks
    ensures r.subtasks[|f.subtasks|] == SubtaskForm(now, "", false)
  {
    f.(subtasks := f.subtasks + [SubtaskForm(now, "", false)])
  }

  /** "Remove" on subtask `i`. */
  function RemoveSubtask(f: EditTaskForm, i: nat): (r: EditTaskForm)
    ensures r == f.(subtasks := RemoveAt(f.subtasks, i))
  {
    SpliceIsRemoveAt(f.subtasks, i);
    f.(subtasks := Splice(f.subtasks, i))
  }

  lemma AddThenRemoveSubtask(f: EditTaskForm, now: string)
    ensures RemoveSubtask(AddSubtask(f, now), |f.subtasks|) == f
  {
    RemoveAppended(f.subtasks, SubtaskForm(now, "", false));
  }

  datatype EditTaskView = EditTaskView(form: EditTaskForm, errors: EditTaskErrors, error: Option<string>, open: bool)

  /** How the PUT of a valid edit ends: a success status, an error status (the
      handler throws "Failed to update task"), or a rejected fetch carrying the
      browser's own error message. */
  datatype EditOutcome = Updated | UpdateRefused | UpdateFailed(message: string)

  /** Submitting: an invalid form shows its errors and sends nothing; a valid one
      is PUT, and the modal closes once the PUT succeeds, while a failure shows
      its message. `outcome` is consulted only when a PUT is sent. */
  function SubmitEdit(v: EditTaskView, outcome: EditOutcome): (r: (EditTaskView, bool))
    ensures r.1 <==> ValidateEdit(v.form).1
    ensures r.0.errors == ValidateEdit(v.form).0 && r.0.form == v.form
    ensures !r.1 ==> r.0.open == v.open && r.0.error == v.error
    ensures r.1 ==> (r.0.open <==> v.open && !outcome.Updated?)
    ensures r.1 && outcome.Updated? ==> r.0.error == v.error
    ensures r.1 && outcome.UpdateRefused? ==> r.0.error == Some("Failed to update task")
    ensures r.1 && outcome.UpdateFailed? ==>
              r.0.error == Some(if outcome.message != "" then outcome.message else "Error updating task")
  {
    var (errs, valid) := ValidateEdit(v.form);
    var v1 := v.(errors := errs);
    if !valid then (v1, false)
    else
      match outcome
      case Updated => (v1.(open := false), true)
      case UpdateRefused => (v1.(error := Some("Failed to update task")), true)
      case UpdateFailed(m) => (v1.(error := Some(if m != "" then m else "Error updating task")), true)
  }
}

=== FILE: text.dfy ===
/** String primitives the client and server code leans on: JavaScript's `trim`,
    `startsWith`/`endsWith`, `split` on one character, `<` on strings, and the
    decimal rendering of an index inside an object key. */
module Text {
  import opened Wrappers

  /** What JavaScript's `trim` removes and `\s` matches: the WhiteSpace and
      LineTerminator code points of ECMAScript. */
  predicate IsSpace(c: char)
  {
    || c == ' ' || c == '\t' || c == '\n' || c == '\r' || c == '\U{000B}' || c == '\U{000C}'
    || c == '\U{00A0}' || c == '\U{1680}' || ('\U{2000}' <= c <= '\U{200A}')
    || c == '\U{2028}' || c == '\U{2029}' || c == '\U{202F}' || c == '\U{205F}'
    || c == '\U{3000}' || c == '\U{FEFF}'
  }

  ghost predicate AllSpace(s: string)
  {
    forall i :: 0 <= i < |s| ==> IsSpace(s[i])
  }

  /** Drops leading white space: what is left is a suffix starting with a non-space. */
  function TrimStart(s: string): (r: string)
    ensures |r| <= |s| && r == s[|s| - |r|..]
    ensures AllSpace(s[..|s| - |r|])
    ensures r == [] || !IsSpace(r[0])
  {
    if s == [] || !IsSpace(s[0]) then s else TrimStart(s[1..])
  }

  /** Drops trailing white space: what is left is a prefix ending in a non-space. */
  function TrimEnd(s: string): (r: string)
    ensures |r| <= |s| && r == s[..|r|]
    ensures AllSpace(s[|r|..])
    ensures r == [] || !IsSpace(r[|r| - 1])
  {
    if s == [] || !IsSpace(s[|s| - 1]) then s else TrimEnd(s[..|s| - 1])
  }

  /** JavaScript `s.trim()`. */
  function Trim(s: string): (r: string)
    ensures r == [] <==> AllSpace(s)
    ensures r == [] || (!IsSpace(r[0]) && !IsSpace(r[|r| - 1]))
  {
    var t := TrimStart(s);
    var r := TrimEnd(t);
    assert r == [] ==> AllSpace(s) by {
      if r == [] {
        forall i | 0 <= i < |s| ensures IsSpace(s[i]) {
          assert t == [];
          assert s[i] == s[..|s| - |t|][i];
        }
      }
    }
    assert r != [] ==> r[0] == s[|s| - |t|];
    r
  }

  /** What `trim` keeps is a slice of the input, and what it drops on either
      side is white space only. */
  lemma TrimIsSlice(s: string)
    ensures exists i, j :: 0 <= i <= j <= |s| && Trim(s) == s[i..j] && AllSpace(s[..i]) && AllSpace(s[j..])
  {
    var t := TrimStart(s);
    var r := TrimEnd(t);
    var i, j := |s| - |t|, |s| - |t| + |r|;
    assert r == s[i..j] && s[j..] == t[|r|..];
  }

  /** `!s.trim()` in the source: empty after trimming. */
  predicate IsBlank(s: string)
  {
    Trim(s) == []
  }

  /** JavaScript truthiness of an optional string: present and non-empty. */
  predicate Truthy(x: Option<string>)
  {
    x.Some? && x.value != ""
  }

  /** JavaScript `s.startsWith(p)`. */
  predicate StartsWith(s: string, p: string)
  {
    |p| <= |s| && s[..|p|] == p
  }

  /** JavaScript `s.endsWith(p)`. */
  predicate EndsWith(s: string, p: string)
  {
    |p| <= |s| && s[|s| - |p|..] == p
  }

  /** Position of the first occurrence of `c`. */
  function IndexOf(s: string, c: char): (k: nat)
    requires c in s
    ensures k < |s| && s[k] == c && c !in s[..k]
  {
    if s[0] == c then 0 else 1 + IndexOf(s[1..], c)
  }

  /** Position of the last occurrence of `c`, if any (`lastIndexOf`, -1 as None). */
  function LastIndexOf(s: string, c: char): (r: Option<nat>)
    ensures r.None? <==> c !in s
    ensures r.Some? ==> r.value < |s| && s[r.value] == c && c !in s[r.value + 1..]
  {
    if s == [] then None
    else if s[|s| - 1] == c then Some(|s| - 1)
    else
      var r := LastIndexOf(s[..|s| - 1], c);
      assert s == s[..|s| - 1] + [s[|s| - 1]];
      r
  }

  /** The last `c` of `a + [c] + b` is the one after `a` when `b` holds none. */
  lemma {:induction false} LastIndexOfAfter(a: string, c: char, b: string)
    requires c !in b
    ensures LastIndexOf(a + [c] + b, c) == Some(|a|)
    decreases |b|
  {
    var s := a + [c] + b;
    if b != [] {
      assert s[|s| - 1] == b[|b| - 1];
      assert s[..|s| - 1] == a + [c] + b[..|b| - 1];
      assert b[|b| - 1] in b;
      LastIndexOfAfter(a, c, b[..|b| - 1]);
    }
  }

  /** Inverse of `Split`: the parts glued back with the separator between them. */
  function Join(parts: seq<string>, sep: char): string
    requires |parts| >= 1
  {
    if |parts| == 1 then parts[0] else parts[0] + [sep] + Join(parts[1..], sep)
  }

  /** JavaScript `s.split(sep)` for a one-character separator: always at least one
      part, no part holds the separator, and gluing the parts back gives `s`. */
  function Split(s: string, sep: char): (parts: seq<string>)
    ensures |parts| >= 1
    ensures forall i :: 0 <= i < |parts| ==> sep !in parts[i]
    ensures Join(parts, sep) == s
    decreases |s|
  {
    if sep !in s then [s]
    else
      var k := IndexOf(s, sep);
      var rest := Split(s[k + 1..], sep);
      var parts := [s[..k]] + rest;
      assert parts[1..] == rest;
      assert s == s[..k] + [sep] + s[k + 1..];
      parts
  }

  /** Splitting a glued list of separator-free parts gives the parts back. */
  lemma {:induction false} SplitJoin(parts: seq<string>, sep: char)
    requires |parts| >= 1
    requires forall i :: 0 <= i < |parts| ==> sep !in parts[i]
    ensures Split(Join(parts, sep), sep) == parts
    decreases |parts|
  {
    if |parts| == 1 {
    } else {
      var s := Join(parts, sep);
      var tail := Join(parts[1..], sep);
      assert s == parts[0] + [sep] + tail;
      assert s[..|parts[0]|] == parts[0];
      assert s[|parts[0]|] == sep;
      assert IndexOf(s, sep) == |parts[0]| by {
        var k := IndexOf(s, sep);
        assert forall i :: 0 <= i < |parts[0]| ==> s[i] == parts[0][i] != sep;
      }
      assert s[|parts[0]| + 1..] == tail;
      SplitJoin(parts[1..], sep);
      assert parts == [parts[0]] + parts[1..];
    }
  }

  /** `split` on a string with a separator after a separator-free head. */
  lemma SplitCons(a: string, sep: char, b: string)
    requires sep !in a
    ensures Split(a + [sep] + b, sep) == [a] + Split(b, sep)
  {
    var s := a + [sep] + b;
    assert s[|a|] == sep;
    var k := IndexOf(s, sep);
    assert forall i :: 0 <= i < |a| ==> s[i] == a[i] != sep;
    assert s[..|a|] == a;
    assert s[|a| + 1..] == b;
  }

  /** `.filter(seg => seg !== "")`: the non-empty parts, in order. */
  function NonEmpty(parts: seq<string>): (r: seq<string>)
    ensures |r| <= |parts|
    ensures forall i :: 0 <= i < |r| ==> r[i] != []
    ensures forall x :: x in r <==> x in parts && x != []
  {
    if parts == [] then []
    else if parts[0] == [] then NonEmpty(parts[1..])
    else [parts[0]] + NonEmpty(parts[1..])
  }

  /** The non-empty `/`-separated segments of a path. */
  function Segments(path: string): seq<string>
  {
    NonEmpty(Split(path, '/'))
  }

  /** The decimal digit character of `d`. */
  function DigitChar(d: nat): (c: char)
    requires d < 10
    ensures '0' <= c <= '9'
    ensures c as int - '0' as int == d
  {
    ('0' as int + d) as char
  }

  /** The decimal rendering of a natural number (template literal `${i}`). */
  function NatToString(n: nat): (r: string)
    ensures |r| >= 1
    ensures forall i :: 0 <= i < |r| ==> '0' <= r[i] <= '9'
    ensures |r| == 1 <==> n < 10
  {
    if n < 10 then [DigitChar(n)] else NatToString(n / 10) + [DigitChar(n % 10)]
  }

  /** Distinct numbers render as distinct strings, so `key_${i}` keys never collide. */
  lemma {:induction false} NatToStringInjective(n: nat, m: nat)
    requires NatToString(n) == NatToString(m)
    ensures n == m
    decreases n
  {
    var s := NatToString(n);
    if n < 10 {
      assert m < 10;
    } else {
      assert m >= 10;
      assert s[|s| - 1] == DigitChar(n % 10) == DigitChar(m % 10);
      assert n % 10 == m % 10;
      assert s[..|s| - 1] == NatToString(n / 10) == NatToString(m / 10);
      NatToStringInjective(n / 10, m / 10);
    }
  }

  /** JavaScript `a < b` on strings: lexicographic, a proper prefix first. Characters
      compare by code point. */
  predicate StrLess(a: string, b: string)
  {
    if |b| == 0 then false
    else if |a| == 0 then true
    else if a[0] != b[0] then a[0] < b[0]
    else StrLess(a[1..], b[1..])
  }

  lemma {:induction false} StrLessIrreflexive(a: string)
    ensures !StrLess(a, a)
  {
    if |a| > 0 {
      StrLessIrreflexive(a[1..]);
    }
  }

  lemma {:induction false} StrLessTransitive(a: string, b: string, c: string)
    requires StrLess(a, b) && StrLess(b, c)
    ensures StrLess(a, c)
  {
    if |a| > 0 && a[0] == b[0] && b[0] == c[0] {
      StrLessTransitive(a[1..], b[1..], c[1..]);
    }
  }

  /** Distinct strings are always ordered one way or the other. */
  lemma {:induction false} StrLessTotal(a: string, b: string)
    requires a != b
    ensures StrLess(a, b) || StrLess(b, a)
  {
    if |a| > 0 && |b| > 0 && a[0] == b[0] {
      assert a == [a[0]] + a[1..];
      assert b == [b[0]] + b[1..];
      StrLessTotal(a[1..], b[1..]);
    }
  }

  /** Upper-cases an ASCII letter, leaves every other character alone. */
  function ToUpperAscii(c: char): (u: char)
    ensures 'a' <= c <= 'z' ==> 'A' <= u <= 'Z' && u as int - 'A' as int == c as int - 'a' as int
    ensures !('a' <= c <= 'z') ==> u == c
  {
    if 'a' <= c <= 'z' then (c as int - 'a' as int + 'A' as int) as char else c
  }
}

=== FILE: views.dfy ===
/** View-local state of three pages: the task detail page (its load, the merge of
    realtime events into it, and its comment and attachment list edits), the task
    board of the project page with its display toggle, and the onboarding stepper. */
module Views {
  import opened Wrappers
  import opened Text
  import opened Tables
  import opened Schema
  import Api

  // ----- task detail: loading -----

  /** The task detail page. `task` is `taskData`, absent before a load;
      `editing` is the id of the comment whose edit box is open. */
  datatype TaskDetail = TaskDetail(
    task: Option<Task>,
    subtasks: seq<Task>,
    attachments: seq<Attachment>,
    comments: seq<Comment>,
    comment_text: string,
    editing: Option<string>,
    edited_text: string,
    error: Option<string>)

  function BlankDetail(): TaskDetail
  {
    TaskDetail(None, [], [], [], "", None, "", None)
  }

  function SubtaskOf(id: string): Task -> bool { (t: Task) => t.parent_task_id == Some(id) }

  /** The load of the page from the project's task list: `fetched` is `None` for
      a non-OK response. The main task is the first entry with the page's id, the
      subtasks every entry whose parent is that id, in list order. Task rows carry
      no comment or attachment lists, so both start empty. An earlier error stays. */
  function LoadTask(v: TaskDetail, id: string, fetched: Option<seq<Task>>): (r: TaskDetail)
    ensures fetched.None? ==> r == v.(error := Some("Failed to fetch tasks"))
    ensures fetched.Some? && !HasKey(fetched.value, Api.TaskId, id) ==> r == v.(error := Some("Task not found"))
    ensures fetched.Some? && HasKey(fetched.value, Api.TaskId, id) ==>
              var tasks := fetched.value;
              && r.task.Some?
              && (exists i :: 0 <= i < |tasks| && r.task.value == tasks[i]
                             && forall j :: 0 <= j < i ==> tasks[j].id != id)
              && r.task.value.id == id
              && (forall t :: t in r.subtasks <==> t in tasks && t.parent_task_id == Some(id))
              && r.attachments == [] && r.comments == []
              && r == v.(task := r.task, subtasks := r.subtasks, attachments := [], comments := [])
  {
    match fetched
    case None => v.(error := Some("Failed to fetch tasks"))
    case Some(tasks) =>
      match FirstWhere(tasks, Api.TaskWithId(id))
      case None => v.(error := Some("Task not found"))
      case Some(i) =>
        v.(task := Some(tasks[i]), subtasks := Where(tasks, SubtaskOf(id)), attachments := [], comments := [])
  }

  /** The subtasks keep the order of the list: a subtask listed after the others
      is shown after them. */
  lemma SubtasksInListOrder(v: TaskDetail, id: string, tasks: seq<Task>, t: Task)
    requires HasKey(tasks, Api.TaskId, id)
    requires t.parent_task_id == Some(id)
    ensures LoadTask(v, id, Some(tasks + [t])).subtasks == LoadTask(v, id, Some(tasks)).subtasks + [t]
  {
    var i :| 0 <= i < |tasks| && tasks[i].id == id;
    assert (tasks + [t])[i] == tasks[i];
    WhereAppend(tasks, [t], SubtaskOf(id));
    assert Where([t], SubtaskOf(id)) == [t] + Where([t][1..], SubtaskOf(id));
  }

  // ----- task detail: realtime events -----

  /** The page's two socket handlers. An update replaces the task data iff it
      carries a row with the page's id; a payload-less update is dropped. A
      comment is appended iff it belongs to the page's task, with no check
      against the comments already listed. */
  function OnEvent(v: TaskDetail, id: string, e: Event): (r: TaskDetail)
    ensures r == v.(task := r.task, comments := r.comments)
    ensures e.TaskUpdateEvent? ==> r.comments == v.comments
    ensures e.TaskUpdateEvent? ==> (r.task != v.task ==> r.task == e.task && e.task.Some? && e.task.value.id == id)
    ensures e.TaskUpdateEvent? && e.task.Some? && e.task.value.id == id ==> r.task == e.task
    ensures e.CommentEvent? ==> r.task == v.task
    ensures e.CommentEvent? ==>
              r.comments == (if e.comment.task_id == id then v.comments + [e.comment] else v.comments)
  {
    match e
    case TaskUpdateEvent(data) =>
      if data.Some? && data.value.id == id then v.(task := data) else v
    case CommentEvent(c) =>
      if c.task_id == id then v.(comments := v.comments + [c]) else v
  }

  /** The events in order, applied by the handlers. */
  function Replay(v: TaskDetail, id: string, events: seq<Event>): TaskDetail
    decreases |events|
  {
    if events == [] then v else Replay(OnEvent(v, id, events[0]), id, events[1..])
  }

  /** The comments of a log that belong to task `id`, in log order. */
  function CommentsFor(events: seq<Event>, id: string): (r: seq<Comment>)
    ensures forall c :: c in r ==> c.task_id == id && CommentEvent(c) in events
  {
    if events == [] then []
    else
      var e := events[0];
      (if e.CommentEvent? && e.comment.task_id == id then [e.comment] else []) + CommentsFor(events[1..], id)
  }

  /** After any run of events, the list is the old list followed by exactly the
      log's comments on this task, in log order. */
  lemma {:induction false} ReplayComments(v: TaskDetail, id: string, events: seq<Event>)
    ensures Replay(v, id, events).comments == v.comments + CommentsFor(events, id)
    decreases |events|
  {
    if events != [] {
      var v1 := OnEvent(v, id, events[0]);
      ReplayComments(v1, id, events[1..]);
    }
  }

  /** Replaying a log touches nothing but the task data and the comments. */
  lemma {:induction false} ReplayFrame(v: TaskDetail, id: string, events: seq<Event>)
    ensures Replay(v, id, events) == v.(task := Replay(v, id, events).task,
                                        comments := Replay(v, id, events).comments)
    decreases |events|
  {
    if events != [] {
      ReplayFrame(OnEvent(v, id, events[0]), id, events[1..]);
    }
  }

  /** The row a task update stores is what a page showing that task then displays,
      and a page showing another task ignores it. */
  lemma PageFollowsTaskUpdate(s: Store, cr: Crypto, env: Env, header: Option<string>, tid: string,
                              patch: Api.TaskPatch, v: TaskDetail, id: string)
    requires Api.Authenticate(cr, header).Authorized?
    requires HasKey(s.tasks, Api.TaskId, tid)
    ensures var r := Api.UpdateTask(s, cr, env, header, tid, patch);
            var e := r.store.events[|s.events|];
            && r.response.body.TaskBody?
            && OnEvent(v, id, e) == (if id == tid then v.(task := Some(r.response.body.task)) else v)
  {
  }

  /** A comment the server stores reaches every page showing its task, and only
      those. */
  lemma PageFollowsNewComment(s: Store, cr: Crypto, env: Env, header: Option<string>, tid: string,
                              text: string, v: TaskDetail, id: string)
    requires Api.CreateComment(s, cr, env, header, tid, text).response.status == 200
    ensures var r := Api.CreateComment(s, cr, env, header, tid, text);
            var c := r.response.body.comment;
            && c.task_id == tid && c.comment_text == text
            && r.store.events[|s.events|] == CommentEvent(c)
            && OnEvent(v, id, r.store.events[|s.events|]).comments ==
                 (if id == tid then v.comments + [c] else v.comments)
  {
  }

  // ----- task detail: comment and attachment lists -----

  /** The comment form's submit: the text to post, none when it is blank after
      trimming. The text is sent as typed. */
  function SubmitComment(v: TaskDetail): (r: Option<string>)
    ensures r.None? <==> AllSpace(v.comment_text)
    ensures r.Some? ==> r.value == v.comment_text
  {
    if IsBlank(v.comment_text) then None else Some(v.comment_text)
  }

  /** The answer to the comment post: on success the returned comment is
      appended and the input cleared; on failure nothing changes. */
  function AfterCommentPost(v: TaskDetail, created: Option<Comment>): (r: TaskDetail)
    ensures created.None? ==> r == v
    ensures created.Some? ==>
              && r.comments == v.comments + [created.value]
              && r == v.(comments := r.comments, comment_text := "")
  {
    match created
    case None => v
    case Some(c) => v.(comments := v.comments + [c], comment_text := "")
  }

  /** The author's own page lists a new comment twice: once from the post's
      answer and once from the broadcast of the same row, which every client
      receives (see `PageFollowsNewComment` for the broadcast). */
  lemma OwnCommentListedTwice(v: TaskDetail, tid: string, c: Comment)
    requires SubmitComment(v).Some? && c.task_id == tid
    ensures OnEvent(AfterCommentPost(v, Some(c)), tid, CommentEvent(c)).comments == v.comments + [c, c]
  {
    assert v.comments + [c] + [c] == v.comments + [c, c];
  }

  /** Opening a comment's edit box. */
  function StartEditComment(v: TaskDetail, c: Comment): (r: TaskDetail)
    ensures r.editing == Some(c.id) && r.edited_text == c.comment_text
    ensures r == v.(editing := r.editing, edited_text := r.edited_text)
  {
    v.(editing := Some(c.id), edited_text := c.comment_text)
  }

  function CommentElsewhere(id: string): Comment -> bool { (c: Comment) => c.id != id }
  function CommentWithId(id: string): Comment -> bool { (c: Comment) => c.id == id }
  function Constant<T>(x: T): T -> T { (_: T) => x }

  /** A successful comment edit: every comment with that id becomes the returned
      one, the others stay where they are, and the edit box closes. */
  function EditComment(v: TaskDetail, id: string, updated: Comment): (r: TaskDetail)
    ensures |r.comments| == |v.comments|
    ensures forall i :: 0 <= i < |v.comments| ==>
              r.comments[i] == (if v.comments[i].id == id then updated else v.comments[i])
    ensures r.editing == None && r.edited_text == ""
    ensures r == v.(comments := r.comments, editing := None, edited_text := "")
  {
    v.(comments := UpdateWhere(v.comments, CommentWithId(id), Constant(updated)), editing := None, edited_text := "")
  }

  /** A successful comment delete drops every comment with that id. */
  function DeleteComment(v: TaskDetail, id: string): (r: TaskDetail)
    ensures forall c :: c in r.comments <==> c in v.comments && c.id != id
    ensures r == v.(comments := r.comments)
  {
    v.(comments := Where(v.comments, CommentElsewhere(id)))
  }

  /** An edit that keeps the comment's id changes nothing that a delete of that
      id keeps. */
  lemma EditInvisibleAfterDelete(v: TaskDetail, id: string, updated: Comment)
    requires updated.id == id
    ensures DeleteComment(EditComment(v, id, updated), id).comments == DeleteComment(v, id).comments
  {
    EditKeepsOthers(v.comments, id, updated);
  }

  lemma {:induction false} EditKeepsOthers(cs: seq<Comment>, id: string, updated: Comment)
    requires updated.id == id
    ensures Where(UpdateWhere(cs, CommentWithId(id), Constant(updated)), CommentElsewhere(id))
            == Where(cs, CommentElsewhere(id))
  {
    if cs != [] {
      var u := UpdateWhere(cs, CommentWithId(id), Constant(updated));
      assert u[1..] == UpdateWhere(cs[1..], CommentWithId(id), Constant(updated));
      EditKeepsOthers(cs[1..], id, updated);
    }
  }

  /** Deleting a comment just posted, under an id no other comment had, gives
      back the list from before the post. */
  lemma DeletePostedComment(v: TaskDetail, c: Comment)
    requires !HasKey(v.comments, Api.CommentId, c.id)
    ensures DeleteComment(AfterCommentPost(v, Some(c)), c.id).comments == v.comments
  {
    WhereAppend(v.comments, [c], CommentElsewhere(c.id));
    WhereAll(v.comments, CommentElsewhere(c.id));
    assert Where([c], CommentElsewhere(c.id)) == Where([c][1..], CommentElsewhere(c.id));
  }

  /** A successful upload appends the returned attachment. */
  function AfterUpload(v: TaskDetail, uploaded: Option<Attachment>): (r: TaskDetail)
    ensures uploaded.None? ==> r == v
    ensures uploaded.Some? ==> r.attachments == v.attachments + [uploaded.value]
    ensures r == v.(attachments := r.attachments)
  {
    match uploaded
    case None => v
    case Some(a) => v.(attachments := v.attachments + [a])
  }

  function AttachmentElsewhere(id: string): Attachment -> bool { (a: Attachment) => a.id != id }

  /** A successful attachment removal drops every attachment with that id. */
  function RemoveAttachment(v: TaskDetail, id: string): (r: TaskDetail)
    ensures forall a :: a in r.attachments <==> a in v.attachments && a.id != id
    ensures r == v.(attachments := r.attachments)
  {
    v.(attachments := Where(v.attachments, AttachmentElsewhere(id)))
  }

  /** Removing an attachment just uploaded, under a fresh id, gives back the list
      from before the upload. */
  lemma RemoveUploaded(v: TaskDetail, a: Attachment)
    requires !HasKey(v.attachments, Api.AttachmentId, a.id)
    ensures RemoveAttachment(AfterUpload(v, Some(a)), a.id).attachments == v.attachments
  {
    WhereAppend(v.attachments, [a], AttachmentElsewhere(a.id));
    WhereAll(v.attachments, AttachmentElsewhere(a.id));
    assert Where([a], AttachmentElsewhere(a.id)) == Where([a][1..], AttachmentElsewhere(a.id));
  }

  // ----- project page: task board -----

  /** The board's columns, left to right. */
  const StatusColumns: seq<string> := ["not_started", "in_progress", "blocked", "completed"]

  function WithStatus(status: string): Task -> bool { (t: Task) => t.status == status }
  function UnknownStatus(t: Task): bool { t.status !in StatusColumns }

  /** One column: the tasks with that status, in list order. */
  function Column(tasks: seq<Task>, status: string): seq<Task>
  {
    Where(tasks, WithStatus(status))
  }

  /** `tasksByStatus`: one entry per column, none for other statuses. */
  function TasksByStatus(tasks: seq<Task>): (r: map<string, seq<Task>>)
    ensures forall s :: s in r <==> s in StatusColumns
    ensures forall s, t :: s in r ==> (t in r[s] <==> t in tasks && t.status == s)
  {
    map s | s in StatusColumns :: Column(tasks, s)
  }

  function BoardSize(tasks: seq<Task>): nat
  {
    |Column(tasks, "not_started")| + |Column(tasks, "in_progress")|
    + |Column(tasks, "blocked")| + |Column(tasks, "completed")|
  }

  /** Every task is on the board once, or off it for an unknown status. */
  lemma {:induction false} BoardCount(tasks: seq<Task>)
    ensures BoardSize(tasks) + |Where(tasks, UnknownStatus)| == |tasks|
  {
    if tasks != [] {
      BoardCount(tasks[1..]);
    }
  }

  /** The board shows every task exactly when every status is a column's. */
  lemma BoardShowsAll(tasks: seq<Task>)
    ensures BoardSize(tasks) <= |tasks|
    ensures BoardSize(tasks) == |tasks| <==> forall i :: 0 <= i < |tasks| ==> tasks[i].status in StatusColumns
  {
    BoardCount(tasks);
    if forall i :: 0 <= i < |tasks| ==> tasks[i].status in StatusColumns {
      WhereNone(tasks, UnknownStatus);
    } else {
      var i :| 0 <= i < |tasks| && tasks[i].status !in StatusColumns;
      assert tasks[i] in Where(tasks, UnknownStatus);
    }
  }

  /** A task added to the list lands at the bottom of its own column and
      nowhere else. */
  lemma ColumnOfAppend(tasks: seq<Task>, t: Task, status: string)
    ensures Column(tasks + [t], status) == Column(tasks, status) + (if t.status == status then [t] else [])
  {
    WhereAppend(tasks, [t], WithStatus(status));
    assert Where([t], WithStatus(status)) == (if t.status == status then [t] else []) + Where([t][1..], WithStatus(status));
  }

  datatype DisplayMode = ListMode | KanbanMode

  /** The toggle button. */
  function Toggle(m: DisplayMode): (r: DisplayMode)
    ensures r != m
  {
    if m == ListMode then KanbanMode else ListMode
  }

  lemma ToggleTwice(m: DisplayMode)
    ensures Toggle(Toggle(m)) == m
  {
  }

  /** The button names the mode a click switches to. */
  function ToggleLabel(m: DisplayMode): (r: string)
    ensures r == "Switch to Kanban View" <==> Toggle(m) == KanbanMode
  {
    "Switch to " + (if m == ListMode then "Kanban" else "List") + " View"
  }

  // ----- onboarding -----

  /** The stepper: the index of the shown step and whether it is done. */
  datatype Onboarding = Onboarding(step: nat, completed: bool)

  /** Three steps, so the last index is 2. */
  const LastStep: nat := 2

  function InitialOnboarding(): Onboarding
  {
    Onboarding(0, false)
  }

  predicate InRange(o: Onboarding)
  {
    o.step <= LastStep
  }

  /** A click's outcome: the new stepper and, when completing with a signed-in
      user, the id whose profile the completion request targets. */
  datatype Advanced = Advanced(state: Onboarding, put: Option<string>)

  /** `finishOnboarding`: done, and a profile request when a user is known. */
  function Finish(o: Onboarding, user: Option<UserView>): (r: Advanced)
    ensures r.state == o.(completed := true)
    ensures r.put.Some? <==> user.Some?
    ensures r.put.Some? ==> r.put.value == user.value.id
  {
    Advanced(o.(completed := true), if user.Some? then Some(user.value.id) else None)
  }

  /** `nextStep`: forward one step, or finish on the last one. */
  function Next(o: Onboarding, user: Option<UserView>): (r: Advanced)
    requires InRange(o)
    ensures InRange(r.state)
    ensures o.step < LastStep ==> r == Advanced(o.(step := o.step + 1), None)
    ensures o.step == LastStep ==> r.state == o.(completed := true)
  {
    if o.step < LastStep then Advanced(o.(step := o.step + 1), None) else Finish(o, user)
  }

  /** `skipOnboarding`. */
  function Skip(o: Onboarding, user: Option<UserView>): (r: Advanced)
    ensures r.state.completed && r.state.step == o.step
  {
    Finish(o, user)
  }

  /** Nothing is drawn once onboarding is done. */
  predicate Rendered(o: Onboarding)
  {
    !o.completed
  }

  function ButtonLabel(o: Onboarding): string
  {
    if o.step == LastStep then "Finish" else "Next"
  }

  /** The button reads "Finish" exactly when clicking it ends onboarding. */
  lemma FinishLabelEnds(o: Onboarding, user: Option<UserView>)
    requires InRange(o) && Rendered(o)
    ensures ButtonLabel(o) == "Finish" <==> !Rendered(Next(o, user).state)
  {
  }

  datatype Click = NextClick | SkipClick

  /** The clicks of a session, while the stepper is drawn; a click on a hidden
      stepper cannot happen. */
  function Run(o: Onboarding, user: Option<UserView>, clicks: seq<Click>): (r: Onboarding)
    requires InRange(o)
    ensures InRange(r)
    decreases |clicks|
  {
    if clicks == [] || o.completed then o
    else
      var next := if clicks[0] == NextClick then Next(o, user).state else Skip(o, user).state;
      Run(next, user, clicks[1..])
  }

  /** Three clicks on Next from the start finish onboarding, and two do not. */
  lemma ThreeNextsFinish(user: Option<UserView>)
    ensures !Run(InitialOnboarding(), user, [NextClick, NextClick]).completed
    ensures Run(InitialOnboarding(), user, [NextClick, NextClick, NextClick]).completed
  {
    var c2: seq<Click> := [NextClick, NextClick];
    var c3: seq<Click> := [NextClick, NextClick, NextClick];
    assert c2[1..] == [NextClick] && c3[1..] == c2;
  }

  /** The completion request is sent without an Authorization header, so the
      server answers 401 and the store is not touched. */
  lemma FinishRequestRefused(s: Store, cr: Crypto, env: Env, o: Onboarding, user: UserView)
    ensures var id := Finish(o, Some(user)).put.value;
            Api.UpdateUser(s, cr, env, None, id, Api.UserPatch(None, None, None, None))
              == Step(s, Response(401, ErrorBody("Missing token")))
  {
  }
}

=== FILE: wrappers.dfy ===
/** Optional values: JavaScript's `undefined`/`null` next to a present value. */
module Wrappers {

  datatype Option<+T> = None | Some(value: T) {

    /** The value when present, the default otherwise (SQL COALESCE, JS `x ?? d`). */
    function GetOr(default: T): T
    {
      match this
      case Some(v) => v
      case None => default
    }
  }
}
